=== FILE: README.md ===
# InstaStore archive synchroniser — a Dafny model

InstaStore keeps a local archive of public Instagram profiles: a SQLite
catalog (tables Profile, Post, Highlight, Story, ProfileHistory and
CoverHistory) and, under a storage root, one folder per profile holding
its profile pictures, its live stories (`Stories/`) and one folder per
highlight (`Highlights/<title>_<highlight_id>/`, with the cover and a
`History/` folder of old covers). This project models the synchroniser's
core, `main.py`. It covers:

- the catalog and its foreign keys;
- the file-name and address helpers;
- the download retry and extension rules;
- the proxy-cookie refresh;
- profile add and update, with picture history;
- the post-code crawl with its watermark, and post completion;
- the story duplicate check, collection and download;
- the highlight folder merge, rename and cover history.

Every part is modelled as pure functions over immutable data.

Modules, one per file, in dependency order:

| module | file | what it holds |
|---|---|---|
| `Optional` | optional.dfy | `Option` |
| `Text` | text.dfy | substring search, `replace`, `split`, `join`, decimal numerals |
| `Names` | names.dfy | `MakeFilenameFriendly`, the profile-history rename, the thumbnail name and crop box |
| `Fetch` | fetch.dfy | the translate-proxy link, the saved extension, the retry loop, cookie tokens, the reel label |
| `Catalog` | catalog.dfy | the six tables as maps and sets, keyed by their primary keys, and inserts that enforce keys and foreign keys |
| `Profiles` | profiles.dfy | `profile_id`, addProfile, updateProfile |
| `Posts` | posts.dfy | addSinglePost, the addPostsCodes crawl, downloadSinglePost |
| `Archive` | archive.dfy | the profile's folders as `glob` lists them, and the highlight folder merge |
| `Stories` | stories.dfy | checkDuplicateStories, getSingleStory, getStories, downloadStories, the item count |
| `Highlights` | highlights.dfy | addCoverHistory, updateSingleHighlight, updateHighlights |

The outside world becomes parameters. Each of the following is an input:

- a fetched page or JSON record, or `None` when the fetch fails;
- the codes of a page, where `None` marks an item that cannot be read;
- whether a SQL statement goes through (`writeOk`, `titleSqlOk`, `faulty` keys);
- whether a file step succeeds;
- the comparison of cover bytes (`probe`);
- the clock reading (`now`).

Folder listings are sequences in `glob` order, because the code always
acts on `glob(...)[0]`.

The model follows the code literally where the code does something
surprising:

- The copy of a live story into a highlight folder builds its address
  without the storage root. It therefore lands outside the archive
  (`Archive.outside`).
- That copy uses the raw, unsanitised highlight title.
- A copy that fails makes the caller download the story afresh.
- A highlight retitled while it had two or more folders reports `False`
  once its title is stored and its cover checked. Its reused loop variable
  makes `del` raise. When the title UPDATE fails, or the cover check gives
  `None`, the update returns `True` before it reaches `del`.
- Story rows are inserted only by the download pass, which runs after the
  whole feed is collected. The same story listed twice in one feed is
  therefore queued twice (`Stories.SameStoryQueuedTwice`).
- downloadSinglePost's UPDATE has no `pk` in its WHERE clause. One
  download therefore completes the post under every profile that lists it.
- In the crawl, the fourth item of the first page of normal posts becomes
  the new watermark unless a later item's insert fails. A page with fewer
  than four items never sets it this way. A crawl of `p9 … p4` against
  stored `p5` therefore writes `p6` (`Posts.FirstPageScenario`).

## Model

| member | source | states |
|---|---|---|
| Catalog.InsertPost | main.py:73-74 | a Post row is added exactly when its (pk, code, is_tag) key is new and its profile exists; nothing else changes and foreign keys stay consistent |
| Catalog.InsertStory | main.py:79-81 | a Story row is added exactly when its key is new and both its profile and its highlight exist; consistency is preserved |
| Catalog.InsertProfileHistory | main.py:83-84 | a ProfileHistory pair is added exactly when it is new and its profile exists |
| Catalog.InsertCoverHistory | main.py:86-87 | a CoverHistory pair is added exactly when it is new and its highlight exists |
| Names.MakeFilenameFriendly | main.py:187-201 | the result is the text with each invalid character replaced by its spaced code point, and contains no invalid character |
| Names.FriendlyIdempotent | main.py:187-201 | sanitising twice equals sanitising once, and clean text is left unchanged |
| Names.HistoryNameOfProfileFile | main.py:355-357 | `<dir>Profile<ext>` is renamed to `<dir>/History/<profile_id><ext>` |
| Names.ThumbnailBesideMedia | main.py:155-159 | for any stem without "/", "." or "_temp", the thumbnail of `<dir>/<stem>.<ext>` is `<dir>/<stem>_thumbnail.png` |
| Names.CropBox | main.py:142-148 | no crop exactly when the image is square; otherwise a centred square whose side is the shorter side, off-centre by at most one pixel |
| Fetch.TranslateHttpsLink | main.py:1463-1489 | an https link without "www." becomes `https://<encoded host>.translate.goog/<path>` with the options appended after '?' or '&' |
| Fetch.DecodeEncodeHost | main.py:1473-1474 | for DNS-shaped hosts the host encoding ('-' doubled, '.' to '-') can be decoded back to the host |
| Fetch.EncodeHostAmbiguous | main.py:1473-1474 | the host encoding is not injective: the hosts `.-` and `-.` both encode to `---` |
| Fetch.SavedExtension | main.py:264-270 | no extension without a response or a content type; the guessed extension is used unless rejected; otherwise the link's extension; never a rejected one |
| Fetch.FallbackExtensionShape | main.py:267-268 | an extension taken from the link starts with its only '.', has a character after it, and holds no '?' |
| Fetch.TryDownloading | main.py:278-303 | at most retries+1 attempts, stopping at the first success; failure means every attempt failed |
| Fetch.CookieValueOf | main.py:866 | the value of `name=value;<rest>` is `value`, taken between the first '=' and the first ';' |
| Fetch.ApplyCookies | main.py:861-869 | the refresh succeeds exactly when every token piece has both '=' and ';' and the token map exists; a token map comes out exactly when one went in |
| Fetch.ApplyCookiesStores | main.py:861-869 | after a successful refresh a token is set exactly when it was set before or a piece names it, and its value is that of the last piece naming it, else the old one |
| Fetch.AccessTokenStored | main.py:861-871 | a Set-Cookie of `access-token=<v>;` stores `<v>` under `access-token` |
| Fetch.ReelLabelRoundTrip | main.py:966 | the reel label reads back the feed id, and is `highlight:<id>` for a highlight and the bare id for the live feed |
| Profiles.ProfileIdOfPicId | main.py:503-508 | the profile id is the numeral before the first '_' of profile_pic_id |
| Profiles.ProfileDataOf | main.py:473-515 | the data is produced exactly when the profile id can be read, and keeps pk and username |
| Profiles.NewProfile | main.py:569-590 | a new Profile row takes the fetched username and profile id, an empty biography as NULL, and no watermarks |
| Profiles.AddProfile | main.py:519-613 | a known username or any failure changes nothing; success inserts the profile and its "Stories" highlight (id = pk, 0 items) together and changes no other table |
| Profiles.UpdateProfile | main.py:615-716 | the old picture is archived exactly when the profile is known, its data fetched, the Profiles folder exists, `profile_changed` holds and the move succeeds; it returns True exactly when the profile is known, its data fetched, the picture downloaded and thumbnailed, a needed move succeeded and, for a changed picture, the (pk, old id) history pair is new for a stored profile; success refreshes the row and records that pair exactly when the picture changed; no table but Profile and ProfileHistory changes, ProfileHistory gains at most that pair, and an unstored fetched pk leaves Profile alone; failure changes nothing |
| Profiles.DefaultIconNotArchived | main.py:637 | a profile still on the default icon (profile_id = pk) never archives a picture nor records history |
| Profiles.PictureChangeRecorded | main.py:637-694 | a picture id going from 5 to 9 archives picture 5 and records (pk, 5) |
| Posts.AddSinglePost | main.py:1529-1546 | true exactly when the statements do not fail and the post is already stored or its profile exists; the post is then stored, a new one as a placeholder row; existing rows are untouched |
| Posts.AddSinglePostIdempotent | main.py:1529-1546 | adding the same post twice is the same as adding it once |
| Posts.PostCodeOfLink | main.py:1575-1576 | the post code is the text between the first "p/" and the last '/' |
| Posts.ScanStop | main.py:1574-1594 | the scan stops at the first unreadable item or at the first watermark match allowed to stop (any item if tagged, from the fourth otherwise), every item before it being readable |
| Posts.ScanInserted | main.py:1574-1579 | every scanned item whose insert does not fail is in the catalog afterwards |
| Posts.LastAssignedMeaning | main.py:1578-1582 | the reference watermark is the last scanned item that failed to insert or sits at the marking position, else the initial value |
| Posts.ScanWatermark | main.py:1574-1594 | the page scan's new watermark equals the reference definition over the scanned items |
| Posts.AddPostsCodes | main.py:1548-1655 | an unknown profile or failed first fetch gives False with nothing changed; a written watermark differs from the stored one and is stored; posts only grow; no table but Post and Profile changes |
| Posts.CrawlOutcome | main.py:1548-1655 | for a known profile, by how the first page ends: an unreadable item fails with nothing written; the watermark reached succeeds and writes the page's last assigned code exactly when it moved and the UPDATE goes through; a page without cursor fails only when that UPDATE fails; a cursor hands over to the cursor loop |
| Posts.FollowPagesMeaning | main.py:1610-1652 | the cursor loop fails exactly when its stop page was fetched and holds an unreadable item; it writes exactly when that page was read, the UPDATE goes through and the watermark carried over the pages moved, and it writes that watermark |
| Posts.CrawlKeepsFirstPage | main.py:1574-1579 | every first-page item the scan reaches is stored after the crawl unless its insert fails |
| Posts.FirstPageScenario | main.py:1574-1594 | a first page `p9 … p4` against watermark `p5` stops at `p5`, stores both ends, and writes `p6` |
| Posts.TaggedStopsAtWatermark | main.py:1581-1594 | a tagged crawl whose first item is the watermark stops there and writes nothing |
| Posts.PinnedMatchIgnored | main.py:1584 | a watermark match among the first three normal posts does not stop the scan |
| Posts.FetchFailureKeepsPlaceholders | main.py:1610-1652 | a failed cursor fetch ends with True, writes no watermark, and keeps the first page's placeholders |
| Posts.SaveMedia | main.py:1773-1784 | true exactly when every item was saved; on failure it names the first item that failed |
| Posts.Completed | main.py:1787-1795 | a completed post is no placeholder: item count, timestamp, and an empty caption stored as NULL |
| Posts.DownloadSinglePost | main.py:1762-1807 | success exactly when the post was fetched, all media saved and the UPDATE held; it completes every row with that code and tag flag |
| Posts.CompletionCrossesProfiles | main.py:1795-1798 | one download completes the same post code under two profiles |
| Archive.MergeInto | main.py:1232-1240 | the merge fails exactly when the new name is taken by a folder that stays; otherwise that name exists, every unlisted folder is kept, the new name is the only listed one, and every listed file lands in it |
| Archive.MergeIntoShape | main.py:1232-1240 | after a merge the folders are the unlisted ones, none of them called the new name, followed by the merged folder whose files are exactly the files of the listed folders |
| Stories.CheckDuplicateStories | main.py:718-799 | an unreadable catalog gives None; a stored story is Found; otherwise it is Found only after copying from the first row's feed, where glob lists exactly two files of the story (none in a highlight folder whose name holds a `[...]` pair), inserting the row under this feed |
| Stories.CheckDuplicateCopies | main.py:718-799 | for an unstored key: no row for the pk gives NotFound with nothing changed; a first row whose feed's glob lists exactly two files (none in a highlight folder whose name holds a `[...]` pair) and whose target exists copies both files there and is Found exactly when the row can be inserted; otherwise NotFound with nothing changed |
| Stories.FirstRowDecides | main.py:744-793 | only the first row with the story pk decides; later rows are ignored |
| Stories.LiveFeedCopyLeavesArchive | main.py:747-765 | a copy from the live feed never adds files inside the archive |
| Stories.UnsafeTitleNotCopied | main.py:767-791 | a highlight title with an invalid file-name character never matches a clean folder, so the story reads as not found |
| Stories.HiddenSourceNotCopied | main.py:769-772 | a story whose first row points at the one highlight folder listed, when that folder's name holds a `[...]` pair, is not copied: the file glob there lists nothing, so the check says NotFound and changes nothing |
| Stories.StoryPkOfId | main.py:997 | the story pk of `<spk>_<pk>` is `spk` |
| Stories.StoryPkOfBareId | main.py:997 | an id without '_' loses its last digit, because `find` gives -1 and the slice drops the last character |
| Stories.DestinationOf | main.py:1016-1021 | a story goes into a highlight folder exactly when the feed is not the live feed; that folder's name ends in `_<id>` |
| Stories.DestinationIsSafe | main.py:1017-1018 | a highlight folder name holds no invalid file-name character |
| Stories.HighlightStoryAddress | main.py:1017-1018 | highlight stories go to `/<user>/Highlights/<safe title>_<id>/<spk>` |
| Stories.LiveStoryAddress | main.py:1020-1021 | live stories go to `/<user>/Stories/<spk>` |
| Stories.MediaOf | main.py:1006-1014 | the link comes from the videos exactly when a video list is present, and it is that list's first link, else the first image candidate; an empty present list, or no list and no images, gives none |
| Stories.EmptyVideoListSkipped | main.py:1009-1014 | an item whose video list is present but empty is skipped even when it has images |
| Stories.GetSingleStory | main.py:980-1026 | an item is queued exactly when its id parses, the duplicate check says NotFound, and it has a time and media; the queued entry carries its key, time, media and destination; the catalog and archive it returns are those of the duplicate check, copies included |
| Stories.StoredStorySkipped | main.py:980-1026 | a story already in the catalog is skipped and changes nothing |
| Stories.SameStoryQueuedTwice | main.py:1028-1070 | the same new story listed twice in one feed is queued twice |
| Stories.GetStories | main.py:1028-1070 | no feed gives nothing; otherwise the item count is the feed length and at most that many are queued; only this feed's rows are added |
| Stories.GetStoriesQueues | main.py:1028-1070 | every fresh feed item (numeric id, no Story row for its pk, a readable check, a timestamp and media) is queued; everything queued is built from some feed item; nothing queued is already stored under its exact key. An item that is not fresh may still be queued, when its copy fails |
| Stories.CollectUnstored | main.py:996-1002 | no story the getStories loop queues is stored under its exact key in the catalog the loop starts from |
| Stories.CollectSound | main.py:1053-1061 | every queued story is built from one of the feed's items |
| Stories.CollectComplete | main.py:1053-1061 | every fresh item of the feed is queued, whatever copies the earlier items made |
| Stories.DownloadOne | main.py:1097-1116 | a failed download writes nothing; a saved download writes the media, and the thumbnail when made, into the story's folder and nothing else; a Story row is inserted only when the media and thumbnail are there |
| Stories.DownloadAll | main.py:1072-1118 | every new Story row comes from a queued story of this feed |
| Stories.HiddenFolderStoriesUnrecorded | main.py:124-126 | a story saved into a highlight folder whose name holds a `[...]` pair is never recorded: makeThumbnail's glob lists nothing there, so the insert after it does not run |
| Stories.DownloadAllMedia | main.py:1097-1116 | downloadStories only adds files, and every new Story row belongs to a queued story whose media and thumbnail are in its folder |
| Stories.RaiseItemCount | main.py:1400-1413 | the stored item count never drops; it becomes the largest of itself, the feed's count and the stored rows |
| Stories.StoryPass | main.py:1338-1420 | a story pass only adds Story rows for its own feed; apart from Story it changes only the item count of its own highlight |
| Highlights.MoveCover | main.py:1151-1161 | the old cover and its thumbnail move to History under the clock reading; every other file stays |
| Highlights.HistoryNamesDistinct | main.py:1154-1161 | the History names of the cover and its thumbnail differ from each other and from the live names, so neither move overwrites the other |
| Highlights.AddCoverHistory | main.py:1120-1173 | "No File" exactly when no folder or cover is listed, and the cover glob lists nothing in a folder whose name holds a `[...]` pair; None when the fetch fails, "Same" when the bytes match; only "Changed" touches files or the catalog |
| Highlights.ChangedCoverMoved | main.py:1148-1170 | a changed cover is moved to History, other folders untouched, and (highlight, now) recorded when the highlight is stored |
| Highlights.UnchangedCoverKept | main.py:1148-1149 | an unchanged cover changes nothing |
| Highlights.BracketFolderCoverUnseen | main.py:1133-1142 | highlight 5 titled "T [1]" whose listed folder `T [1]_5` holds `Cover.jpg` gets "No File", so its cover is fetched again even when unchanged |
| Highlights.CoverStage | main.py:1251-1258 | its flag is false exactly when the cover check fails (the update then returns True at once); when addCoverHistory found no cover or a changed one and the highlight's folder exists, a downloaded `Cover<ext>` is in that folder; an unchanged cover or a failed check leaves the catalog and folders unchanged |
| Highlights.SameTitle | main.py:1226-1228 | an unchanged title fails only when no folder is listed and the folder name is taken |
| Highlights.Retitled | main.py:1230-1249 | a title change merges and renames the folders, then stores the title; a failing UPDATE still returns True |
| Highlights.NewHighlight | main.py:1264-1293 | a new highlight succeeds exactly when the merge, the SQL and the insert succeed, and is then stored with 0 items |
| Highlights.UpdateSingleHighlight | main.py:1200-1296 | an unparsable id or missing cover gives False with nothing changed; a row is removed only on success for its own id; new and known highlights are stored as the branches say; no table but Highlight and CoverHistory changes, and CoverHistory only grows |
| Highlights.RenamedSplitHighlightReportsFailure | main.py:1232-1262 | a retitled highlight with two or more folders stores the new title but reports False and keeps its row |
| Highlights.RenamedHighlightDone | main.py:1232-1262 | a retitled highlight with one folder is done and its row is removed |
| Highlights.RepeatedHighlightFailsSecondTime | main.py:1200-1296 | a highlight updated successfully and listed again is then treated as new and fails on the duplicate insert |
| Highlights.UpdateHighlights | main.py:1298-1336 | no feed or no rows does nothing; otherwise one verdict per highlight; highlights are never removed; no table but Highlight and CoverHistory changes, and CoverHistory only grows |
| Highlights.UpdateHighlightsVerdicts | main.py:1298-1336 | only a highlight with a numeric id and a cover link gets True, and one that gets True leaves a folder carrying its id unless a later entry has the same id |
| Highlights.UpdateAllVerdicts | main.py:1327-1328 | the same for the loop over the feed |
| Highlights.SingleKeepsUnlisted | main.py:1224-1293 | one update keeps, by name, every folder the glob for its id does not list |
| Highlights.SingleTrueHoldsFolder | main.py:1200-1296 | an update that reports True had a numeric id and a cover link, and leaves a folder whose name ends in `_<id>` |
| Highlights.SuffixNamesOneId | main.py:1221 | a folder name ends in `_<id>` for at most one id |

## Left out

- Network calls (Instagram, the proxies, the API wrappers) are left out. Their results are parameters.
- HTML and JSON parsing is left out. Pages arrive as lists of codes or records.
- Image processing with PIL and cv2 is left out, except the square-crop geometry. The circular mask and resizing are not modelled.
- SQLite itself is left out: transactions, SQL injection through unescaped titles and usernames, and the text of the SQL statements. Each statement is an update of the catalog maps, with its failure given as a parameter.
- `time()` is a parameter (`now`).
- listProfiles, initialize, the printing, and the GUI module are not part of this model.
- The profile picture files under `Profiles/` are left out: the moveProfileHistory loop and the removal of `Profile*` after a failed update. Only whether the move succeeds is a parameter.
- The copy in checkDuplicateStories is all-or-nothing. A partial copy where some files copy and some fail is not modelled.
- Glob patterns in folder names: Python's glob reads a Highlights folder name that holds a complete `[...]` pair (`Archive.GlobHides`) as a pattern that cannot match the name itself. The model takes every glob made inside such a folder to list nothing. Names holding `*` or `?`, which the sanitiser never produces, are read literally, and the storage root and usernames are taken to hold no pattern characters.
- Highlights.AddCoverHistory: the pattern of a `[...]` folder name can match another folder (`T 1_5` for `T [1]_5`), whose `Cover.*` files glob would then list. The model lists no cover there.
- Stories.CheckDuplicateStories: likewise, the story files of another folder matched by a `[...]` folder name's pattern are not listed.
- Profiles.UpdateProfile: the highlight update that follows a successful profile update is a separate call (`Highlights.UpdateHighlights`), not chained inside.
- Posts.AddPostsCodes: it is a ghost function, because it finds the profile by username with a choice over the catalog. Its properties are stated through the compiled `ScanPage` and `FollowPages`.
- Posts.AddPostsCodes: cursor pages are a finite list. A cursor that always has a next page is not modelled.
- Stories.DownloadAll: a download or thumbnail outcome past the end of `outcomes` counts as a failure.
- Highlights.UpdateAll: effects past the end of `effects` count as failures.
- Archive.MergeInto: on POSIX, `os.rename` onto an existing empty directory succeeds, but the model fails whenever the new name is taken. This differs only for a name that starts with "." (a hidden folder the glob does not list) and is empty.
- Text.ParseDec: accepts only a non-empty run of ASCII digits. Python's `int()` also takes a sign, surrounding whitespace and underscores between digits (main.py:505, main.py:997, main.py:1215). Ids and picture names with those forms are not modelled.
- Fetch.ApplyCookies: the tokens after a failing piece (the ones stored before the failure) are computed but not characterised.
- Stories.GetStories: the order of the queued stories is not stated. Only which stories are queued is stated.
- Highlights.UpdateHighlights: the folder left by a highlight that gets True is stated as some folder whose name ends in `_<id>`, and only when no later entry of the feed has the same id.

=== FILE: archive.dfy ===
/** One profile's folders under the storage root, as the story and
    highlight code sees them through `glob`, `shutil` and `os`: the files of
    its Stories folder, its Highlights sub-folders in listing order, and the
    absolute folders that exist outside the storage root (where an address
    built without the storage prefix lands). Files of a folder's History
    sub-folder are entries `History/<name>`. */
module Archive {
  import opened Optional
  import opened Text

  datatype Folder = Folder(name: string, files: seq<string>)

  datatype Archive = Archive(stories: seq<string>, highlights: seq<Folder>, outside: map<string, seq<string>>)

  /** glob `*_{id}` in the Highlights folder; `*` does not match a leading '.'. */
  predicate MatchesId(name: string, id: nat) {
    EndsWith(name, "_" + Dec(id)) && !(|name| > 0 && name[0] == '.')
  }

  /** The highlight folders `glob("*_{id}")` lists, in listing order. */
  function Glob(fs: seq<Folder>, id: nat): (r: seq<Folder>)
    decreases |fs|
    ensures forall f :: f in r <==> f in fs && MatchesId(f.name, id)
    ensures |r| <= |fs|
  {
    if fs == [] then [] else (if MatchesId(fs[0].name, id) then [fs[0]] else []) + Glob(fs[1..], id)
  }

  /** The folders `glob("*_{id}")` does not list. */
  function Unmatched(fs: seq<Folder>, id: nat): (r: seq<Folder>)
    decreases |fs|
    ensures forall f :: f in r <==> f in fs && !MatchesId(f.name, id)
  {
    if fs == [] then [] else (if MatchesId(fs[0].name, id) then [] else [fs[0]]) + Unmatched(fs[1..], id)
  }

  /** The files `glob("{prefix}*")` lists in a folder, in listing order. */
  function WithPrefix(files: seq<string>, prefix: string): (r: seq<string>)
    decreases |files|
    ensures forall f :: f in r <==> f in files && StartsWith(f, prefix)
    ensures |r| <= |files|
  {
    if files == [] then []
    else (if StartsWith(files[0], prefix) then [files[0]] else []) + WithPrefix(files[1..], prefix)
  }

  /** Whether `glob` reads a folder's name, put before `/...` in a pattern,
      as a pattern that cannot match the name itself. A `[` followed two or
      more places on by a `]` (three or more after `[!`) opens a character
      class that stands for a single character, so the pattern is shorter
      than any name it matches. Names with `*` or `?`, which may match
      themselves, are not counted. */
  predicate GlobHides(name: string) {
    && '*' !in name && '?' !in name
    && exists i, j :: 0 <= i && i + 2 <= j < |name| && name[i] == '[' && name[j] == ']'
                      && (name[i + 1] == '!' ==> i + 3 <= j)
  }

  /** The files `glob(folder + "/{prefix}*")` lists in a Highlights
      sub-folder: none when its name hides it, else the prefix filter. */
  function ListedIn(f: Folder, prefix: string): (r: seq<string>)
    ensures forall x :: x in r <==> !GlobHides(f.name) && x in f.files && StartsWith(x, prefix)
    ensures |r| <= |f.files|
  {
    if GlobHides(f.name) then [] else WithPrefix(f.files, prefix)
  }

  /** A file written into a folder: a new entry, or the same entry overwritten. */
  function AddFile(files: seq<string>, name: string): (r: seq<string>)
    ensures forall f :: f in r <==> f in files || f == name
  {
    if name in files then files else files + [name]
  }

  /** Several files written into a folder, in order. */
  function AddFiles(files: seq<string>, names: seq<string>): (r: seq<string>)
    decreases |names|
    ensures forall f :: f in r <==> f in files || f in names
  {
    if names == [] then files else AddFiles(AddFile(files, names[0]), names[1..])
  }

  /** A file removed from a folder (moved away). */
  function RemoveFile(files: seq<string>, name: string): (r: seq<string>)
    decreases |files|
    ensures forall f :: f in r <==> f in files && f != name
  {
    if files == [] then [] else (if files[0] == name then [] else [files[0]]) + RemoveFile(files[1..], name)
  }

  /** Every file of every folder in `fs`. */
  function AllFiles(fs: seq<Folder>): (r: seq<string>)
    decreases |fs|
    ensures forall f :: f in r <==> exists k :: 0 <= k < |fs| && f in fs[k].files
  {
    if fs == [] then []
    else
      var rest := AllFiles(fs[1..]);
      assert forall k :: 1 <= k < |fs| ==> fs[k] == fs[1..][k - 1];
      fs[0].files + rest
  }

  predicate HasFolder(fs: seq<Folder>, name: string) {
    exists k :: 0 <= k < |fs| && fs[k].name == name
  }

  /** The first folder called `name`. */
  function FolderNamed(fs: seq<Folder>, name: string): (r: Option<nat>)
    decreases |fs|
    ensures r.Some? ==> r.value < |fs| && fs[r.value].name == name
    ensures r.None? <==> !HasFolder(fs, name)
  {
    if fs == [] then None
    else if fs[0].name == name then Some(0)
    else match FolderNamed(fs[1..], name)
      case Some(k) => Some(k + 1)
      case None =>
        assert forall k :: 1 <= k < |fs| ==> fs[k] == fs[1..][k - 1];
        None
  }

  /** Listings with the same names at the same places find a name at the
      same place. */
  lemma {:induction false} FolderNamedByNames(fs: seq<Folder>, gs: seq<Folder>, name: string)
    requires |fs| == |gs| && forall j :: 0 <= j < |fs| ==> fs[j].name == gs[j].name
    ensures FolderNamed(fs, name) == FolderNamed(gs, name)
    decreases |fs|
  {
    if fs != [] && fs[0].name != name {
      FolderNamedByNames(fs[1..], gs[1..], name);
    }
  }

  /** `fs` with folder `k` given new files. */
  function SetFiles(fs: seq<Folder>, k: nat, files: seq<string>): (r: seq<Folder>)
    requires k < |fs|
    ensures |r| == |fs| && r[k] == Folder(fs[k].name, files)
    ensures forall j :: 0 <= j < |fs| && j != k ==> r[j] == fs[j]
  {
    fs[k := Folder(fs[k].name, files)]
  }

  /** The folders after the copies and removals of the merge, before the
      rename: what a failing `os.rename` leaves behind. */
  function Gathered(fs: seq<Folder>, id: nat): (r: seq<Folder>)
    ensures forall f :: f in fs && !MatchesId(f.name, id) ==> f in r
    ensures |Glob(fs, id)| == 0 ==> r == fs
  {
    var ms := Glob(fs, id);
    if |ms| == 0 then fs
    else Unmatched(fs, id) + [Folder(ms[0].name, AddFiles(ms[0].files, AllFiles(ms[1..])))]
  }

  /** The folder merge of updateSingleHighlight (main.py:1232-1240 and
      1265-1273): every folder listed for `id` is copied into the first and
      removed, and the first renamed `newName`; with none listed, `newName` is
      made. `None` exactly where `os.mkdir` or `os.rename` meets an unlisted
      folder of that name. */
  function MergeInto(fs: seq<Folder>, id: nat, newName: string): (r: Option<seq<Folder>>)
    ensures r.None? <==> HasFolder(if |Glob(fs, id)| == 0 then fs else Unmatched(fs, id), newName)
    ensures r.Some? ==> HasFolder(r.value, newName)
    ensures r.Some? ==> forall f :: f in fs && !MatchesId(f.name, id) ==> f in r.value
    ensures r.Some? && MatchesId(newName, id) ==>
              forall f :: f in r.value && MatchesId(f.name, id) ==> f.name == newName
    ensures r.Some? ==> forall k, x :: 0 <= k < |fs| && MatchesId(fs[k].name, id) && x in fs[k].files ==>
              exists j :: 0 <= j < |r.value| && r.value[j].name == newName && x in r.value[j].files
  {
    var ms := Glob(fs, id);
    var rest := Unmatched(fs, id);
    if |ms| == 0 then
      if HasFolder(fs, newName) then None
      else
        var r := fs + [Folder(newName, [])];
        assert r[|fs|].name == newName;
        assert forall k :: 0 <= k < |fs| ==> fs[k] in fs;
        Some(r)
    else if HasFolder(rest, newName) then None
    else
      var merged := Folder(newName, AddFiles(ms[0].files, AllFiles(ms[1..])));
      var r := rest + [merged];
      assert r[|rest|] == merged;
      forall k, x | 0 <= k < |fs| && MatchesId(fs[k].name, id) && x in fs[k].files
        ensures x in merged.files
      {
        assert fs[k] in ms;
        var m :| 0 <= m < |ms| && ms[m] == fs[k];
        if m > 0 {
          assert ms[1..][m - 1] == fs[k];
        }
      }
      forall f | f in r ensures MatchesId(f.name, id) ==> f.name == newName {
        if f in rest {
          assert !MatchesId(f.name, id);
        }
      }
      Some(r)
  }

  /** Some folder listed for `id` holds `x`. */
  predicate InMatched(fs: seq<Folder>, id: nat, x: string) {
    exists k :: 0 <= k < |fs| && MatchesId(fs[k].name, id) && x in fs[k].files
  }

  /** The folders `r` a merge leaves: the unlisted ones, none called
      `newName`, and last the folder called `newName`, which holds exactly
      the files of the folders listed for `id`. */
  ghost predicate MergedShapeOf(fs: seq<Folder>, id: nat, newName: string, r: seq<Folder>) {
    && |r| > 0
    && r[|r| - 1].name == newName
    && (forall x :: x in r[|r| - 1].files <==> InMatched(fs, id, x))
    && forall j :: 0 <= j < |r| - 1 ==> r[j] in fs && !MatchesId(r[j].name, id) && r[j].name != newName
  }

  /** Every successful merge has that shape. */
  lemma MergeIntoShape(fs: seq<Folder>, id: nat, newName: string)
    ensures MergeInto(fs, id, newName).Some? ==> MergedShapeOf(fs, id, newName, MergeInto(fs, id, newName).value)
  {
    if MergeInto(fs, id, newName).Some? {
      if |Glob(fs, id)| > 0 {
        MergedShape(fs, id, newName);
      } else {
        UnlistedShape(fs, id, newName);
      }
    }
  }

  lemma UnlistedShape(fs: seq<Folder>, id: nat, newName: string)
    requires |Glob(fs, id)| == 0 && !HasFolder(fs, newName)
    ensures MergeInto(fs, id, newName).Some?
    ensures MergedShapeOf(fs, id, newName, MergeInto(fs, id, newName).value)
  {
    var r := fs + [Folder(newName, [])];
    assert MergeInto(fs, id, newName) == Some(r);
    assert forall k :: 0 <= k < |fs| ==> fs[k] in fs;
    assert forall j :: 0 <= j < |r| - 1 ==> r[j] == fs[j];
  }

  lemma MergedShape(fs: seq<Folder>, id: nat, newName: string)
    requires |Glob(fs, id)| > 0 && !HasFolder(Unmatched(fs, id), newName)
    ensures MergeInto(fs, id, newName).Some?
    ensures MergedShapeOf(fs, id, newName, MergeInto(fs, id, newName).value)
  {
    var ms := Glob(fs, id);
    var rest := Unmatched(fs, id);
    var r := rest + [Folder(newName, AddFiles(ms[0].files, AllFiles(ms[1..])))];
    assert MergeInto(fs, id, newName) == Some(r);
    MergedFilesExact(fs, id);
    forall j | 0 <= j < |r| - 1 ensures r[j] in fs && !MatchesId(r[j].name, id) && r[j].name != newName {
      assert r[j] == rest[j] && rest[j] in rest;
    }
  }

  /** The merged folder's files are exactly those of the listed folders. */
  lemma MergedFilesExact(fs: seq<Folder>, id: nat)
    requires |Glob(fs, id)| > 0
    ensures var ms := Glob(fs, id);
            forall x :: x in AddFiles(ms[0].files, AllFiles(ms[1..])) <==> InMatched(fs, id, x)
  {
    forall x | InMatched(fs, id, x) ensures x in Glob(fs, id)[0].files || x in AllFiles(Glob(fs, id)[1..]) {
      ListedFileMerged(fs, id, x);
    }
    forall x | x in Glob(fs, id)[0].files || x in AllFiles(Glob(fs, id)[1..]) ensures InMatched(fs, id, x) {
      MergedFileListed(fs, id, x);
    }
  }

  lemma ListedFileMerged(fs: seq<Folder>, id: nat, x: string)
    requires |Glob(fs, id)| > 0 && InMatched(fs, id, x)
    ensures x in Glob(fs, id)[0].files || x in AllFiles(Glob(fs, id)[1..])
  {
    var ms := Glob(fs, id);
    var k :| 0 <= k < |fs| && MatchesId(fs[k].name, id) && x in fs[k].files;
    assert fs[k] in ms;
    var m :| 0 <= m < |ms| && ms[m] == fs[k];
    if m > 0 {
      assert ms[1..][m - 1] == fs[k];
    }
  }

  lemma MergedFileListed(fs: seq<Folder>, id: nat, x: string)
    requires |Glob(fs, id)| > 0 && (x in Glob(fs, id)[0].files || x in AllFiles(Glob(fs, id)[1..]))
    ensures InMatched(fs, id, x)
  {
    var ms := Glob(fs, id);
    var f: Folder :| f in ms && x in f.files by {
      if x !in ms[0].files {
        var m :| 0 <= m < |ms[1..]| && x in ms[1..][m].files;
        assert ms[1..][m] in ms;
      }
    }
    var k :| 0 <= k < |fs| && fs[k] == f;
  }
}

=== FILE: catalog.dfy ===
/** The SQLite catalog of main.py (makeTables, main.py:69-87) as one value:
    a map per table from its primary key to the remaining columns. Foreign
    keys are enforced (the connection turns them on), so an insert fails on
    a clashing primary key or a dangling reference, and the statement leaves
    the catalog as it was. */
module Catalog {
  import opened Optional

  /** Profile(pk PRIMARY KEY, username, ..., profile_id, last_post_code,
      last_tagged_post_code). NULL columns are `None`. */
  datatype Profile = Profile(
    username: string,
    fullName: string,
    pageName: Option<string>,
    biography: Option<string>,
    isPrivate: bool,
    publicEmail: Option<string>,
    mediaCount: int,
    followerCount: int,
    followingCount: int,
    profileId: nat,
    lastPostCode: Option<string>,
    lastTaggedPostCode: Option<string>)

  /** Post's primary key (pk, post_code, is_tag). */
  datatype PostKey = PostKey(pk: nat, code: string, isTag: bool)

  /** Post's other columns: all NULL while the post is only a placeholder. */
  datatype Post = Post(numberOfItems: Option<nat>, caption: Option<string>, timestamp: Option<int>)
  {
    predicate IsPlaceholder() {
      numberOfItems.None? && caption.None? && timestamp.None?
    }
  }

  /** Highlight(highlight_id PRIMARY KEY, pk, title, number_of_items). */
  datatype Highlight = Highlight(pk: nat, title: string, numberOfItems: nat)

  /** Story's primary key (pk, story_pk, highlight_id); the value is its timestamp. */
  datatype StoryKey = StoryKey(pk: nat, storyPk: nat, highlightId: nat)

  datatype Catalog = Catalog(
    profiles: map<nat, Profile>,
    posts: map<PostKey, Post>,
    highlights: map<nat, Highlight>,
    stories: map<StoryKey, int>,
    profileHistory: set<(nat, nat)>,
    coverHistory: set<(nat, nat)>)

  const Empty := Catalog(map[], map[], map[], map[], {}, {})

  /** Every foreign key of the schema resolves. */
  predicate Consistent(c: Catalog) {
    && (forall k :: k in c.posts ==> k.pk in c.profiles)
    && (forall h :: h in c.highlights ==> c.highlights[h].pk in c.profiles)
    && (forall k :: k in c.stories ==> k.pk in c.profiles && k.highlightId in c.highlights)
    && (forall e :: e in c.profileHistory ==> e.0 in c.profiles)
    && (forall e :: e in c.coverHistory ==> e.0 in c.highlights)
  }

  lemma EmptyConsistent()
    ensures Consistent(Empty)
  {
  }

  /** INSERT INTO Profile. */
  function InsertProfile(c: Catalog, pk: nat, p: Profile): (r: Option<Catalog>)
    ensures r.Some? <==> pk !in c.profiles
    ensures r.Some? ==> r.value.profiles == c.profiles[pk := p]
                        && r.value.(profiles := c.profiles) == c
    ensures r.Some? && Consistent(c) ==> Consistent(r.value)
  {
    if pk in c.profiles then None else Some(c.(profiles := c.profiles[pk := p]))
  }

  /** INSERT INTO Post. */
  function InsertPost(c: Catalog, k: PostKey, p: Post): (r: Option<Catalog>)
    ensures r.Some? <==> k !in c.posts && k.pk in c.profiles
    ensures r.Some? ==> r.value.posts == c.posts[k := p] && r.value.(posts := c.posts) == c
    ensures r.Some? && Consistent(c) ==> Consistent(r.value)
  {
    if k in c.posts || k.pk !in c.profiles then None else Some(c.(posts := c.posts[k := p]))
  }

  /** INSERT INTO Highlight. */
  function InsertHighlight(c: Catalog, id: nat, h: Highlight): (r: Option<Catalog>)
    ensures r.Some? <==> id !in c.highlights && h.pk in c.profiles
    ensures r.Some? ==> r.value.highlights == c.highlights[id := h] && r.value.(highlights := c.highlights) == c
    ensures r.Some? && Consistent(c) ==> Consistent(r.value)
  {
    if id in c.highlights || h.pk !in c.profiles then None
    else Some(c.(highlights := c.highlights[id := h]))
  }

  /** INSERT INTO Story. */
  function InsertStory(c: Catalog, k: StoryKey, timestamp: int): (r: Option<Catalog>)
    ensures r.Some? <==> k !in c.stories && k.pk in c.profiles && k.highlightId in c.highlights
    ensures r.Some? ==> r.value.stories == c.stories[k := timestamp] && r.value.(stories := c.stories) == c
    ensures r.Some? && Consistent(c) ==> Consistent(r.value)
  {
    if k in c.stories || k.pk !in c.profiles || k.highlightId !in c.highlights then None
    else Some(c.(stories := c.stories[k := timestamp]))
  }

  /** INSERT INTO ProfileHistory. */
  function InsertProfileHistory(c: Catalog, pk: nat, profileId: nat): (r: Option<Catalog>)
    ensures r.Some? <==> (pk, profileId) !in c.profileHistory && pk in c.profiles
    ensures r.Some? ==> r.value.profileHistory == c.profileHistory + {(pk, profileId)}
                        && r.value.(profileHistory := c.profileHistory) == c
    ensures r.Some? && Consistent(c) ==> Consistent(r.value)
  {
    if (pk, profileId) in c.profileHistory || pk !in c.profiles then None
    else Some(c.(profileHistory := c.profileHistory + {(pk, profileId)}))
  }

  /** INSERT INTO CoverHistory. */
  function InsertCoverHistory(c: Catalog, highlightId: nat, coverId: nat): (r: Option<Catalog>)
    ensures r.Some? <==> (highlightId, coverId) !in c.coverHistory && highlightId in c.highlights
    ensures r.Some? ==> r.value.coverHistory == c.coverHistory + {(highlightId, coverId)}
                        && r.value.(coverHistory := c.coverHistory) == c
    ensures r.Some? && Consistent(c) ==> Consistent(r.value)
  {
    if (highlightId, coverId) in c.coverHistory || highlightId !in c.highlights then None
    else Some(c.(coverHistory := c.coverHistory + {(highlightId, coverId)}))
  }

  /** A statement that may fail, rolled back on failure. */
  function OrKeep(r: Option<Catalog>, c: Catalog): Catalog {
    r.GetOr(c)
  }

  /** Usernames are unique: addProfile refuses a username already stored and
      no statement changes one. */
  predicate UniqueUsernames(c: Catalog) {
    forall a, b :: a in c.profiles && b in c.profiles && c.profiles[a].username == c.profiles[b].username ==> a == b
  }

  /** The pk of the profile stored under `username`, as
      `SELECT pk ... WHERE username = ...` with `fetchone`. */
  ghost function PkOfUsername(c: Catalog, username: string): (r: Option<nat>)
    ensures r.Some? ==> r.value in c.profiles && c.profiles[r.value].username == username
    ensures r.None? <==> forall pk :: pk in c.profiles ==> c.profiles[pk].username != username
    ensures UniqueUsernames(c) ==> forall pk :: pk in c.profiles && c.profiles[pk].username == username ==> r == Some(pk)
  {
    if exists pk :: pk in c.profiles && c.profiles[pk].username == username then
      var pk :| pk in c.profiles && c.profiles[pk].username == username;
      Some(pk)
    else None
  }

  /** `SELECT COUNT(*) FROM Story WHERE pk = ... AND highlight_id = ...`. */
  function StoriesIn(c: Catalog, pk: nat, highlightId: nat): set<StoryKey> {
    set k | k in c.stories && k.pk == pk && k.highlightId == highlightId
  }
}

=== FILE: fetch.dfy ===
/** The pieces of main.py's fetch layer that are decisions rather than I/O:
    the Google Translate proxy address, the extension rule of downloadLink,
    the retry loop of tryDownloading, the cookie-token extraction and the
    label a story feed is read under. The network itself is an input. */
module Fetch {
  import opened Optional
  import opened Text

  // ---------------------------------------------------------------------
  // toGoogleTranslateLink (main.py:1463-1489)

  /** The query options appended to every proxied address. */
  const TranslateOptions: string := "_x_tr_sl=auto&_x_tr_tl=en&_x_tr_hl=en-US&_x_tr_pto=wapp"

  /** The host rewrite: every '-' doubled, then every '.' made a '-'. */
  function EncodeHost(host: string): string {
    Replace(Replace(host, "-", "--"), ".", "-")
  }

  /** The rewrite read one character at a time. */
  function EncodeHostChars(host: string): string
    decreases |host|
  {
    if host == [] then []
    else (if host[0] == '-' then "--" else if host[0] == '.' then "-" else [host[0]]) + EncodeHostChars(host[1..])
  }

  lemma {:induction false} SubstDotAfterDash(h: string)
    ensures SubstChar(SubstChar(h, '-', "--"), '.', "-") == EncodeHostChars(h)
    decreases |h|
  {
    if h != [] {
      var head := if h[0] == '-' then "--" else [h[0]];
      assert SubstChar(h, '-', "--") == head + SubstChar(h[1..], '-', "--");
      SubstCharAppend(head, SubstChar(h[1..], '-', "--"), '.', "-");
      SubstDotAfterDash(h[1..]);
      if h[0] == '-' {
        assert SubstChar(head, '.', "-") == "--";
      } else {
        assert SubstChar(head, '.', "-") == (if h[0] == '.' then "-" else [h[0]]) + SubstChar([], '.', "-");
      }
    }
  }

  lemma EncodeHostIsCharwise(host: string)
    ensures EncodeHost(host) == EncodeHostChars(host)
  {
    ReplaceOneChar(host, '-', "--");
    ReplaceOneChar(SubstChar(host, '-', "--"), '.', "-");
    SubstDotAfterDash(host);
  }

  /** Reads a rewritten host back: "--" is a '-', a lone '-' is a '.'. */
  function DecodeHost(e: string): string
    decreases |e|
  {
    if e == [] then []
    else if e[0] == '-' && |e| >= 2 && e[1] == '-' then "-" + DecodeHost(e[2..])
    else if e[0] == '-' then "." + DecodeHost(e[1..])
    else [e[0]] + DecodeHost(e[1..])
  }

  /** Host names in which no '.' is followed by '-' or '.', as DNS names are. */
  predicate DnsShaped(h: string) {
    forall i :: 0 <= i < |h| - 1 && h[i] == '.' ==> h[i + 1] != '-' && h[i + 1] != '.'
  }

  lemma {:induction false} DecodeEncodeChars(h: string)
    requires DnsShaped(h)
    ensures DecodeHost(EncodeHostChars(h)) == h
    decreases |h|
  {
    if h != [] {
      var t := h[1..];
      assert DnsShaped(t) by {
        forall i | 0 <= i < |t| - 1 && t[i] == '.' ensures t[i + 1] != '-' && t[i + 1] != '.' {
          assert h[i + 1] == t[i] && h[i + 2] == t[i + 1];
        }
      }
      DecodeEncodeChars(t);
      var rest := EncodeHostChars(t);
      if h[0] == '-' {
        assert EncodeHostChars(h) == "--" + rest;
        assert ("--" + rest)[2..] == rest;
      } else if h[0] == '.' {
        assert EncodeHostChars(h) == "-" + rest;
        assert ("-" + rest)[1..] == rest;
        if t != [] {
          assert t[0] != '-' && t[0] != '.';
          assert rest[0] == t[0];
        }
      } else {
        assert EncodeHostChars(h) == [h[0]] + rest;
        assert ([h[0]] + rest)[1..] == rest;
      }
    }
  }

  /** The proxy host of a DNS-shaped host decodes back to that host. */
  lemma DecodeEncodeHost(h: string)
    requires DnsShaped(h)
    ensures DecodeHost(EncodeHost(h)) == h
  {
    EncodeHostIsCharwise(h);
    DecodeEncodeChars(h);
  }

  /** Outside DNS-shaped hosts the rewrite loses information. */
  lemma EncodeHostAmbiguous()
    ensures EncodeHost(".-") == EncodeHost("-.") == "---"
  {
    EncodeHostIsCharwise(".-");
    EncodeHostIsCharwise("-.");
    assert EncodeHostChars("-") == "--" + EncodeHostChars([]);
    assert EncodeHostChars(".") == "-" + EncodeHostChars([]);
    assert ".-"[1..] == "-" && "-."[1..] == ".";
  }

  /** The address with its scheme removed: after the first "www." if there is
      one, else after the first "//". */
  function StripScheme(link: string): Option<string> {
    match IndexOf(link, "www.")
    case Some(k) => Some(link[k + 4..])
    case None =>
      match IndexOf(link, "//")
      case Some(k) => Some(link[k + 2..])
      case None => None
  }

  /** toGoogleTranslateLink: the same page requested through the
      `*.translate.goog` proxy. `None` where the source's `index` or `link[1]`
      raises. */
  function ToGoogleTranslateLink(link: string): (r: Option<string>)
    ensures r.Some? ==> StartsWith(r.value, "https://") && EndsWith(r.value, TranslateOptions)
    ensures !Contains(link, "www.") && !Contains(link, "//") ==> r.None?
  {
    match StripScheme(link)
    case None => None
    case Some(rest) =>
      match IndexOf(rest, "/")
      case None => None
      case Some(k) => Some(ProxyAddress(rest[..k], rest[k + 1..]))
  }

  /** The proxied address of `host` and the `tail` after its first '/'. */
  function ProxyAddress(host: string, tail: string): (u: string)
    ensures StartsWith(u, "https://") && EndsWith(u, TranslateOptions)
  {
    var u := "https://" + EncodeHost(host) + ".translate.goog/" + tail
             + (if Contains(tail, "?") then "&" else "?") + TranslateOptions;
    assert u[|u| - |TranslateOptions|..] == TranslateOptions;
    u
  }

  /** Without "www.", the scheme ends at the "//" of "https://". */
  lemma StripHttps(rest: string)
    requires !Contains("https://" + rest, "www.")
    ensures StripScheme("https://" + rest) == Some(rest)
  {
    var link := "https://" + rest;
    forall j | 0 <= j < 6 ensures !OccursAt(link, "//", j) {
      assert link[j..j + 2][0] == link[j] == "https:"[j];
    }
    assert OccursAt(link, "//", 6);
    assert IndexOf(link, "//") == Some(6);
    assert link[8..] == rest;
  }

  /** The first '/' after a slash-free host ends the host. */
  lemma FirstSlashAfter(host: string, path: string)
    requires '/' !in host
    ensures IndexOf(host + "/" + path, "/") == Some(|host|)
  {
    var rest := host + "/" + path;
    forall j | 0 <= j < |host| ensures !OccursAt(rest, "/", j) {
      assert rest[j..j + 1] == [host[j]];
    }
    assert OccursAt(rest, "/", |host|);
  }

  /** An `https://` address without "www." is proxied by rewriting its host
      and appending the options after '?' (or '&' when it already has a
      query); the original host can be read back from the proxy host. */
  lemma TranslateHttpsLink(host: string, path: string)
    requires '/' !in host && !Contains("https://" + host + "/" + path, "www.")
    ensures ToGoogleTranslateLink("https://" + host + "/" + path)
         == Some("https://" + EncodeHost(host) + ".translate.goog/" + path
                 + (if '?' in path then "&" else "?") + TranslateOptions)
    ensures DnsShaped(host) ==> DecodeHost(EncodeHost(host)) == host
  {
    var rest := host + "/" + path;
    assert "https://" + host + "/" + path == "https://" + rest;
    StripHttps(rest);
    FirstSlashAfter(host, path);
    assert rest[..|host|] == host && rest[|host| + 1..] == path;
    ContainsChar(path, '?');
    if DnsShaped(host) {
      DecodeEncodeHost(host);
    }
  }

  // ---------------------------------------------------------------------
  // downloadLink's extension rule (main.py:264-270)

  /** Extensions downloadLink refuses as "probably an error page" (the
      source's list also holds `None`, which the fallback never yields). */
  const RejectedExtensions: seq<string> := ["", ".", ".txt", ".html"]

  /** What one HTTP attempt brought back, as far as the extension rule is
      concerned: whether a content-type header was present, and what
      `mimetypes.guess_extension` made of it. */
  datatype MediaResponse = NoResponse | Response(hasContentType: bool, guessed: Option<string>)

  /** The fallback: the part of the address before its first '?', from its
      last '.' on. */
  function LinkExtension(link: string): (r: Option<string>)
    ensures r.Some? ==> |r.value| >= 1 && r.value[0] == '.' && '.' !in r.value[1..] && '?' !in r.value
  {
    match IndexOf(link, "?")
    case None => None
    case Some(q) =>
      var base := link[..q];
      match LastIndexOf(base, ".")
      case None => None
      case Some(d) =>
        var e := base[d..];
        BeforeFirstChar(link, '?', q);
        AfterLastChar(base, '.', d);
        assert e[1..] == base[d + 1..];
        assert '?' !in e by {
          forall j | 0 <= j < |e| ensures e[j] != '?' {
            assert e[j] == base[d + j];
          }
        }
        Some(e)
  }

  /** The extension a download is saved under, `None` when downloadLink
      returns False. */
  function SavedExtension(resp: MediaResponse, link: string): (r: Option<string>)
    ensures r.Some? ==> r.value !in RejectedExtensions
    ensures resp.NoResponse? || !resp.hasContentType ==> r.None?
    ensures resp.Response? && resp.hasContentType && resp.guessed.Some? ==>
              r == (if resp.guessed.value in RejectedExtensions then None else resp.guessed)
    ensures resp.Response? && resp.hasContentType && resp.guessed.None? ==>
              r == (match LinkExtension(link) case Some(e) => if e in RejectedExtensions then None else Some(e) case None => None)
  {
    match resp
    case NoResponse => None
    case Response(hasType, guessed) =>
      if !hasType then None
      else
        var e := if guessed.Some? then guessed else LinkExtension(link);
        if e.None? || e.value in RejectedExtensions then None else e
  }

  /** A fallback extension is a real one: it starts with its only '.' and
      comes from before the query string. */
  lemma FallbackExtensionShape(link: string)
    ensures var r := SavedExtension(Response(true, None), link);
            r.Some? ==> |r.value| >= 2 && r.value[0] == '.' && '.' !in r.value[1..] && '?' !in r.value
  {
    var r := SavedExtension(Response(true, None), link);
    if r.Some? {
      assert r == LinkExtension(link);
      assert r.value != "." && r.value != "";
    }
  }

  // ---------------------------------------------------------------------
  // tryDownloading (main.py:278-303)

  /** The retry budget every caller in main.py uses. */
  const DefaultRetries: nat := 3

  /** What attempt `k` saves; attempts past the given responses get none. */
  function Attempt(responses: seq<MediaResponse>, link: string, k: nat): Option<string> {
    if k < |responses| then SavedExtension(responses[k], link) else None
  }

  /** tryDownloading: one attempt, then up to `retries` more, stopping at the
      first that saves. Returns the saved extension and the attempts made. */
  method TryDownloading(responses: seq<MediaResponse>, link: string, retries: nat)
    returns (saved: Option<string>, attempts: nat)
    ensures 1 <= attempts <= retries + 1
    ensures saved == Attempt(responses, link, attempts - 1)
    ensures forall k :: 0 <= k < attempts - 1 ==> Attempt(responses, link, k).None?
    ensures saved.None? ==> attempts == retries + 1
    ensures saved.None? <==> forall k :: 0 <= k <= retries ==> Attempt(responses, link, k).None?
  {
    saved := Attempt(responses, link, 0);
    attempts := 1;
    while saved.None? && attempts <= retries
      invariant 1 <= attempts <= retries + 1
      invariant saved == Attempt(responses, link, attempts - 1)
      invariant forall k :: 0 <= k < attempts - 1 ==> Attempt(responses, link, k).None?
      decreases retries + 1 - attempts
    {
      saved := Attempt(responses, link, attempts);
      attempts := attempts + 1;
    }
  }

  // ---------------------------------------------------------------------
  // updateStealthgramTokens (main.py:861-869)

  /** The value of one `name=value;` token: between its first '=' and its
      first ';' (empty when the ';' comes first, as Python slicing gives). */
  function CookieValue(cookie: string): Option<string> {
    match IndexOf(cookie, "=")
    case None => None
    case Some(e) =>
      match IndexOf(cookie, ";")
      case None => None
      case Some(c) => Some(if e + 1 <= c then cookie[e + 1..c] else "")
  }

  lemma CookieValueOf(name: string, value: string, rest: string)
    requires '=' !in name && ';' !in name + value
    ensures CookieValue(name + "=" + value + ";" + rest) == Some(value)
  {
    var c := name + "=" + value + ";" + rest;
    var n := |name|;
    var x := name + "=" + value;
    var m := |x|;
    assert c[..n] == name && c[n] == '=';
    FirstCharAt(c, '=', n);
    assert ';' !in x by {
      forall i | 0 <= i < m ensures x[i] != ';' {
        if i < n {
          assert x[i] == (name + value)[i];
        } else if i > n {
          assert x[i] == (name + value)[i - 1];
        }
      }
    }
    assert c[..m] == x && c[m] == ';';
    FirstCharAt(c, ';', m);
    assert c[n + 1..m] == value;
  }

  /** The tokens kept between requests: `None` before the first browser
      login, else the cookie names seen so far mapped to their values. */
  type Tokens = Option<map<string, string>>

  /** Which token a piece of the header sets, by substring test, access first. */
  function TokenName(cookie: string): Option<string> {
    if Contains(cookie, "access-token") then Some("access-token")
    else if Contains(cookie, "refresh-token") then Some("refresh-token")
    else None
  }

  /** The loop over the space-separated pieces of `set-cookie`. A failing
      piece stops the loop with False, keeping what earlier pieces stored. */
  function ApplyCookies(cookies: seq<string>, tokens: Tokens): (r: (bool, Tokens))
    decreases |cookies|
    ensures tokens.None? && (exists i :: 0 <= i < |cookies| && TokenName(cookies[i]).Some?) ==> !r.0
    ensures r.0 ==> forall i :: 0 <= i < |cookies| && TokenName(cookies[i]).Some? ==> CookieValue(cookies[i]).Some?
    ensures r.0 <==> forall i :: 0 <= i < |cookies| && TokenName(cookies[i]).Some? ==>
                       CookieValue(cookies[i]).Some? && tokens.Some?
    ensures r.1.Some? <==> tokens.Some?
  {
    if cookies == [] then (true, tokens)
    else
      var r := match TokenName(cookies[0])
        case None => ApplyCookies(cookies[1..], tokens)
        case Some(n) =>
          match (CookieValue(cookies[0]), tokens)
          case (Some(v), Some(m)) => ApplyCookies(cookies[1..], Some(m[n := v]))
          case _ => (false, tokens);
      assert forall i :: 1 <= i < |cookies| ==> cookies[i] == cookies[1..][i - 1];
      r
  }

  /** The last piece that sets token `n`: later pieces overwrite earlier ones. */
  function LastPiece(cookies: seq<string>, n: string): (r: Option<nat>)
    decreases |cookies|
    ensures r.Some? ==> r.value < |cookies| && TokenName(cookies[r.value]) == Some(n)
                        && forall j :: r.value < j < |cookies| ==> TokenName(cookies[j]) != Some(n)
    ensures r.None? <==> forall j :: 0 <= j < |cookies| ==> TokenName(cookies[j]) != Some(n)
  {
    if cookies == [] then None
    else
      assert forall j :: 1 <= j < |cookies| ==> cookies[j] == cookies[1..][j - 1];
      match LastPiece(cookies[1..], n)
      case Some(k) => Some(k + 1)
      case None => if TokenName(cookies[0]) == Some(n) then Some(0) else None
  }

  /** After a successful refresh the tokens are the old ones with every
      token named in the header set to the value of its last piece. */
  lemma {:induction false} ApplyCookiesStores(cookies: seq<string>, m: map<string, string>)
    decreases |cookies|
    ensures var r := ApplyCookies(cookies, Some(m));
            r.0 ==> && r.1.Some?
                    && (forall key :: key in r.1.value <==> key in m || LastPiece(cookies, key).Some?)
                    && forall key :: key in r.1.value ==> r.1.value[key] == StoredValue(cookies, m, key)
  {
    if cookies != [] {
      var rest := cookies[1..];
      match TokenName(cookies[0])
      case None =>
        ApplyCookiesStores(rest, m);
        forall key ensures StoredValue(cookies, m, key) == StoredValue(rest, m, key)
                           && (LastPiece(cookies, key).Some? <==> LastPiece(rest, key).Some?) {
          LastPieceStep(cookies, key);
        }
      case Some(n) =>
        if CookieValue(cookies[0]).Some? {
          var m1 := m[n := CookieValue(cookies[0]).value];
          ApplyCookiesStores(rest, m1);
          forall key ensures ((key in m1 || LastPiece(rest, key).Some?) <==> (key in m || LastPiece(cookies, key).Some?))
                             && StoredValue(rest, m1, key) == StoredValue(cookies, m, key) {
            LastPieceStep(cookies, key);
          }
        }
    }
  }

  /** The value a successful refresh leaves under `key`: its last piece's,
      or the old one. */
  function StoredValue(cookies: seq<string>, m: map<string, string>, key: string): string {
    match LastPiece(cookies, key)
    case Some(i) => CookieValue(cookies[i]).GetOr("")
    case None => if key in m then m[key] else ""
  }

  lemma LastPieceStep(cookies: seq<string>, key: string)
    requires cookies != []
    ensures LastPiece(cookies, key) == match LastPiece(cookies[1..], key)
                                       case Some(i) => Some(i + 1)
                                       case None => if TokenName(cookies[0]) == Some(key) then Some(0) else None
    ensures LastPiece(cookies[1..], key).Some? ==>
              cookies[1..][LastPiece(cookies[1..], key).value] == cookies[LastPiece(cookies[1..], key).value + 1]
  {
  }

  /** updateStealthgramTokens: `None` header means the response had no
      `set-cookie`, where the source's `.split` raises. */
  function UpdateTokens(setCookie: Option<string>, tokens: Tokens): (r: (bool, Tokens))
    ensures setCookie.None? ==> r == (false, tokens)
  {
    match setCookie
    case None => (false, tokens)
    case Some(h) => ApplyCookies(Split(h, ' '), tokens)
  }

  /** A header carrying one access token stores exactly that token. */
  lemma AccessTokenStored(value: string, m: map<string, string>)
    requires ' ' !in value && ';' !in value
    ensures UpdateTokens(Some("access-token=" + value + ";"), Some(m)) == (true, Some(m["access-token" := value]))
  {
    var c := "access-token=" + value + ";";
    AccessPiece(value);
    SplitAbsent(c, ' ');
    ApplyOne(c, m, "access-token", value);
  }

  /** The piece `access-token=value;` has no space, names the access token
      and carries `value`. */
  lemma AccessPiece(value: string)
    requires ' ' !in value && ';' !in value
    ensures var c := "access-token=" + value + ";";
            ' ' !in c && TokenName(c) == Some("access-token") && CookieValue(c) == Some(value)
  {
    AccessPieceNoSpace(value);
    AccessPieceName(value);
    AccessPieceValue(value);
  }

  lemma AccessPieceNoSpace(value: string)
    requires ' ' !in value
    ensures ' ' !in "access-token=" + value + ";"
  {
    var c := "access-token=" + value + ";";
    forall i | 0 <= i < |c| ensures c[i] != ' ' {
      if 13 <= i < 13 + |value| {
        assert c[i] == value[i - 13];
      }
    }
  }

  lemma AccessPieceName(value: string)
    ensures TokenName("access-token=" + value + ";") == Some("access-token")
  {
    var c := "access-token=" + value + ";";
    assert c[..12] == "access-token";
    assert OccursAt(c, "access-token", 0);
  }

  lemma AccessPieceValue(value: string)
    requires ';' !in value
    ensures CookieValue("access-token=" + value + ";") == Some(value)
  {
    assert "access-token=" + value + ";" == "access-token" + "=" + value + ";" + "";
    CookieValueOf("access-token", value, "");
  }

  /** A single piece naming a token with a readable value stores it. */
  lemma ApplyOne(c: string, m: map<string, string>, n: string, v: string)
    requires TokenName(c) == Some(n) && CookieValue(c) == Some(v)
    ensures ApplyCookies([c], Some(m)) == (true, Some(m[n := v]))
  {
    assert [c][1..] == [];
  }

  // ---------------------------------------------------------------------
  // getStoriesData's reel label (main.py:966)

  /** The key a feed's items are filed under in the response: the live feed
      (`highlight_id == pk`) by its bare id, a highlight as `highlight:{id}`. */
  function ReelLabel(pk: nat, highlightId: nat): string {
    (if pk != highlightId then "highlight:" else "") + Dec(highlightId)
  }

  /** Reads a label back into (is a highlight, id). */
  function ParseReelLabel(tag: string): Option<(bool, nat)> {
    if StartsWith(tag, "highlight:") then
      match ParseDec(tag[10..])
      case Some(v) => Some((true, v))
      case None => None
    else
      match ParseDec(tag)
      case Some(v) => Some((false, v))
      case None => None
  }

  /** The label names the feed it was made for, and which kind it is. */
  lemma ReelLabelRoundTrip(pk: nat, highlightId: nat)
    ensures ParseReelLabel(ReelLabel(pk, highlightId)) == Some((pk != highlightId, highlightId))
  {
    var d := Dec(highlightId);
    ParseDecOfDec(highlightId);
    if pk != highlightId {
      assert ReelLabel(pk, highlightId)[10..] == d;
    } else {
      assert ReelLabel(pk, highlightId) == d;
      assert IsDigit(d[0]);
      assert !StartsWith(d, "highlight:") by {
        if |d| >= 10 {
          assert d[..10][0] == d[0];
        }
      }
    }
  }
}

=== FILE: highlights.dfy ===
/** The highlight updater: addCoverHistory (main.py:1120-1173),
    updateSingleHighlight (main.py:1200-1296) and the loop of updateHighlights
    (main.py:1298-1335), over one profile's Highlights folders. */
module Highlights {
  import opened Optional
  import opened Text
  import opened Names
  import opened Catalog
  import opened Archive

  /** addCoverHistory's "No File", "Same" and "Changed". */
  datatype CoverStatus = NoFile | Same | Changed

  /** The position of the first folder `glob("*_{id}")` lists. */
  function FirstMatch(fs: seq<Folder>, id: nat): (r: Option<nat>)
    decreases |fs|
    ensures r.Some? ==> r.value < |fs| && MatchesId(fs[r.value].name, id)
                        && forall j :: 0 <= j < r.value ==> !MatchesId(fs[j].name, id)
    ensures r.None? <==> forall j :: 0 <= j < |fs| ==> !MatchesId(fs[j].name, id)
  {
    if fs == [] then None
    else if MatchesId(fs[0].name, id) then Some(0)
    else match FirstMatch(fs[1..], id)
      case Some(k) => Some(k + 1)
      case None =>
        assert forall j :: 1 <= j < |fs| ==> fs[j] == fs[1..][j - 1];
        None
  }

  /** A file name's extension from its last '.', as `name[name.rindex('.'):]`. */
  function ExtensionOf(name: string): (r: string)
    ensures '.' in name ==> |r| >= 1 && r[0] == '.' && '.' !in r[1..] && EndsWith(name, r)
  {
    match LastIndexOf(name, ".")
    case Some(k) =>
      assert name[k..k + 1] == ".";
      var r := name[k..];
      forall j | 1 <= j < |r| ensures r[j] != '.' {
        assert !OccursAt(name, ".", k + j);
        assert name[k + j..k + j + 1] == [r[j]];
      }
      r
    case None =>
      ContainsChar(name, '.');
      ""
  }

  /** The name the old cover gets in the History folder. */
  function HistoryCover(now: nat, cover: string): string {
    "History/" + Dec(now) + ExtensionOf(cover)
  }

  /** `shutil.move` of a file to another name in the same folder. */
  function Rename(files: seq<string>, from: string, to: string): (r: seq<string>)
    requires from != to
    ensures to in r && from !in r
    ensures forall x :: x in files && x != from ==> x in r
    ensures forall x :: x in r ==> x in files || x == to
  {
    AddFile(RemoveFile(files, from), to)
  }

  /** The moves of a changed cover inside its folder: the cover becomes
      `History/{now}{ext}`, and `Cover_thumbnail.png`, when there, becomes
      `History/{now}_thumbnail.png`. */
  function MoveCover(files: seq<string>, cover: string, now: nat): (r: seq<string>)
    requires StartsWith(cover, "Cover.")
    ensures HistoryCover(now, cover) in r
    ensures cover !in r && "Cover_thumbnail.png" !in r
    ensures forall x :: x in files && x != cover && x != "Cover_thumbnail.png" ==> x in r
    ensures "Cover_thumbnail.png" in files ==> "History/" + Dec(now) + "_thumbnail.png" in r
  {
    var history := HistoryCover(now, cover);
    var thumb := "History/" + Dec(now) + "_thumbnail.png";
    HistoryNamesDistinct(cover, now);
    var moved := Rename(files, cover, history);
    if "Cover_thumbnail.png" in moved then Rename(moved, "Cover_thumbnail.png", thumb) else moved
  }

  /** The four names the cover move deals with are pairwise distinct where
      it matters. */
  lemma HistoryNamesDistinct(cover: string, now: nat)
    requires StartsWith(cover, "Cover.")
    ensures var history := HistoryCover(now, cover);
            var thumb := "History/" + Dec(now) + "_thumbnail.png";
            && cover != "Cover_thumbnail.png" && history != "Cover_thumbnail.png" && history != cover
            && thumb != cover && thumb != "Cover_thumbnail.png" && thumb != history
  {
    var d := Dec(now);
    var ext := ExtensionOf(cover);
    var history := "History/" + d + ext;
    var thumb := "History/" + d + "_thumbnail.png";
    assert cover[5] == '.';
    assert cover != "Cover_thumbnail.png" by { assert "Cover_thumbnail.png"[5] == '_'; }
    assert history[0] == 'H' && thumb[0] == 'H' && cover[0] == 'C';
    assert |ext| >= 1 && ext[0] == '.';
    assert history[8 + |d|] == ext[0];
    assert thumb[8 + |d|] == '_';
  }

  /** addCoverHistory: compares the first listed folder's first `Cover.*`
      with the new cover (`probe`: `None` when fetching it fails, else
      whether the bytes are equal) and, when they differ, moves the old
      cover and its thumbnail to History under the clock reading `now` and
      records (highlight_id, now). A failing insert is rolled back; the
      status is still "Changed". */
  function AddCoverHistory(c: Catalog, fs: seq<Folder>, highlightId: nat, probe: Option<bool>, now: nat)
    : (r: (Option<CoverStatus>, Catalog, seq<Folder>))
    ensures r.0 == Some(NoFile) <==> FirstMatch(fs, highlightId).None?
                                     || |ListedIn(fs[FirstMatch(fs, highlightId).value], "Cover.")| == 0
    ensures r.0.None? <==> r.0 != Some(NoFile) && probe.None?
    ensures r.0 == Some(Same) <==> r.0 != Some(NoFile) && probe == Some(true)
    ensures r.0 != Some(Changed) ==> r.1 == c && r.2 == fs
    ensures |r.2| == |fs| && forall j :: 0 <= j < |fs| ==> r.2[j].name == fs[j].name
    ensures r.1.(coverHistory := c.coverHistory) == c
    ensures c.coverHistory <= r.1.coverHistory
    ensures Consistent(c) ==> Consistent(r.1)
  {
    match FirstMatch(fs, highlightId)
    case None => (Some(NoFile), c, fs)
    case Some(k) =>
      var covers := ListedIn(fs[k], "Cover.");
      if |covers| == 0 then (Some(NoFile), c, fs)
      else
        match probe
        case None => (None, c, fs)
        case Some(same) =>
          if same then (Some(Same), c, fs)
          else
            assert covers[0] in covers;
            (Some(Changed), OrKeep(InsertCoverHistory(c, highlightId, now), c),
             SetFiles(fs, k, MoveCover(fs[k].files, covers[0], now)))
  }

  /** A changed cover: the old one is in History and gone from its place,
      every other file stays, no other folder is touched, and the change is
      recorded when the highlight is stored. */
  lemma ChangedCoverMoved(c: Catalog, fs: seq<Folder>, highlightId: nat, now: nat)
    requires FirstMatch(fs, highlightId).Some?
    requires |ListedIn(fs[FirstMatch(fs, highlightId).value], "Cover.")| > 0
    ensures var r := AddCoverHistory(c, fs, highlightId, Some(false), now);
            var k := FirstMatch(fs, highlightId).value;
            var cover := ListedIn(fs[k], "Cover.")[0];
            && r.0 == Some(Changed)
            && (forall j :: 0 <= j < |fs| && j != k ==> r.2[j] == fs[j])
            && HistoryCover(now, cover) in r.2[k].files
            && cover !in r.2[k].files
            && (forall x :: x in fs[k].files && x != cover && x != "Cover_thumbnail.png" ==> x in r.2[k].files)
            && r.1.coverHistory == (if highlightId in c.highlights then c.coverHistory + {(highlightId, now)} else c.coverHistory)
  {
    var k := FirstMatch(fs, highlightId).value;
    var covers := ListedIn(fs[k], "Cover.");
    assert covers[0] in covers;
    var r := AddCoverHistory(c, fs, highlightId, Some(false), now);
    assert r.2 == SetFiles(fs, k, MoveCover(fs[k].files, covers[0], now));
  }

  /** A cover that has not changed is left where it is and nothing is
      recorded. */
  lemma UnchangedCoverKept(c: Catalog, fs: seq<Folder>, highlightId: nat, now: nat)
    ensures var r := AddCoverHistory(c, fs, highlightId, Some(true), now);
            r.1 == c && r.2 == fs && r.0 != Some(Changed)
  {
  }

  /** A folder whose name holds a `[...]` pair hides its cover from the
      cover glob: highlight 5 titled "T [1]" keeps `Cover.jpg` in its folder
      `T [1]_5`, which the folder glob lists, yet the status is "No File",
      so the cover is fetched again even when it has not changed. */
  lemma BracketFolderCoverUnseen(c: Catalog, now: nat)
    ensures var fs := [Folder("T [1]_5", ["Cover.jpg"])];
            && FirstMatch(fs, 5) == Some(0)
            && AddCoverHistory(c, fs, 5, Some(true), now).0 == Some(NoFile)
  {
    var name := "T [1]_5";
    assert Dec(5) == [DigitChar(5)] == "5";
    assert name[2] == '[' && name[3] == '1' && name[4] == ']';
    assert GlobHides(name);
  }

  /** The folder called `name`, made by `os.mkdir`; `None` where a folder of
      that name exists. */
  function Mkdir(fs: seq<Folder>, name: string): (r: Option<seq<Folder>>)
    ensures r.Some? <==> !HasFolder(fs, name)
    ensures r.Some? ==> HasFolder(r.value, name) && forall f :: f in fs ==> f in r.value
  {
    if HasFolder(fs, name) then None
    else
      var r := fs + [Folder(name, [])];
      assert r[|fs|].name == name;
      Some(r)
  }

  /** tryDownloading of the cover as `{name}/Cover{ext}` and its thumbnail
      `Cover_thumbnail.png`, made when exactly one `Cover.*` file is there.
      `saved` is the extension the download was saved under, `None` when it
      failed; a missing folder makes every attempt fail. */
  function DownloadCover(fs: seq<Folder>, name: string, saved: Option<string>, thumbnailOk: bool): (r: seq<Folder>)
    ensures |r| == |fs| && forall j :: 0 <= j < |fs| ==> r[j].name == fs[j].name
    ensures forall j, x :: 0 <= j < |fs| && x in fs[j].files ==> x in r[j].files
    ensures r != fs ==> HasFolder(fs, name) && saved.Some?
    ensures HasFolder(fs, name) && saved.Some? ==>
              "Cover" + saved.value in r[FolderNamed(fs, name).value].files
  {
    match FolderNamed(fs, name)
    case None => fs
    case Some(k) =>
      match saved
      case None => fs
      case Some(ext) =>
        var files := AddFile(fs[k].files, "Cover" + ext);
        var files2 := if |ListedIn(Folder(name, files), "Cover.")| == 1 && thumbnailOk then AddFile(files, "Cover_thumbnail.png") else files;
        SetFiles(fs, k, files2)
  }

  /** What the world does during one highlight update: whether the SQL
      statement carrying the title goes through, the cover probe, the clock,
      and the cover download and thumbnail outcomes. */
  datatype Effects = Effects(titleSqlOk: bool, probe: Option<bool>, now: nat, coverSaved: Option<string>, thumbnailOk: bool)

  /** The cover is fetched again when addCoverHistory found no cover file or
      a changed one; an unchanged cover, or a failed check, is left alone. */
  predicate DownloadsCover(c: Catalog, fs: seq<Folder>, highlightId: nat, e: Effects) {
    var st := AddCoverHistory(c, fs, highlightId, e.probe, e.now).0;
    st == Some(NoFile) || st == Some(Changed)
  }

  /** The cover step shared by both branches: `false` first when
      addCoverHistory failed (the update then returns True at once). */
  function CoverStage(c: Catalog, fs: seq<Folder>, highlightId: nat, name: string, e: Effects)
    : (r: (bool, Catalog, seq<Folder>))
    ensures !r.0 <==> AddCoverHistory(c, fs, highlightId, e.probe, e.now).0.None?
    ensures |r.2| == |fs| && forall j :: 0 <= j < |fs| ==> r.2[j].name == fs[j].name
    ensures r.1.(coverHistory := c.coverHistory) == c
    ensures c.coverHistory <= r.1.coverHistory
    ensures Consistent(c) ==> Consistent(r.1)
    ensures !DownloadsCover(c, fs, highlightId, e) ==> r.1 == c && r.2 == fs
    ensures DownloadsCover(c, fs, highlightId, e) && HasFolder(fs, name) && e.coverSaved.Some? ==>
              "Cover" + e.coverSaved.value in r.2[FolderNamed(fs, name).value].files
  {
    var st := AddCoverHistory(c, fs, highlightId, e.probe, e.now);
    if st.0.None? then (false, st.1, st.2)
    else if st.0 == Some(Same) then (true, st.1, st.2)
    else
      FolderNamedByNames(fs, st.2, name);
      (true, st.1, DownloadCover(st.2, name, e.coverSaved, e.thumbnailOk))
  }

  /** The highlight's fields the updater reads; `coverLink` is `None` when
      the cropped-cover URL is missing. */
  datatype HighlightData = HighlightData(id: string, title: string, coverLink: Option<string>)

  /** A row of `SELECT * FROM Highlight WHERE pk = ...`. */
  datatype HighlightRow = HighlightRow(id: nat, pk: nat, title: string, numberOfItems: nat)

  /** updateSingleHighlight's result, and the folders, catalog and row list
      after it. */
  datatype Update = Update(ok: bool, catalog: Catalog, folders: seq<Folder>, rows: seq<HighlightRow>)

  /** The first row for highlight `id`. */
  function FindRow(rows: seq<HighlightRow>, id: nat): (r: Option<nat>)
    decreases |rows|
    ensures r.Some? ==> r.value < |rows| && rows[r.value].id == id
    ensures r.None? <==> forall j :: 0 <= j < |rows| ==> rows[j].id != id
  {
    if rows == [] then None
    else if rows[0].id == id then Some(0)
    else match FindRow(rows[1..], id)
      case Some(k) => Some(k + 1)
      case None =>
        assert forall j :: 1 <= j < |rows| ==> rows[j] == rows[1..][j - 1];
        None
  }

  /** The folder a highlight is kept in. */
  function FolderName(title: string, id: nat): string {
    MakeFilenameFriendly(title) + "_" + Dec(id)
  }

  /** `UPDATE Highlight SET title = ... WHERE highlight_id = id`. */
  function SetTitle(c: Catalog, id: nat, title: string): (r: Catalog)
    ensures id in c.highlights ==> r.highlights == c.highlights[id := c.highlights[id].(title := title)]
    ensures id !in c.highlights ==> r == c
    ensures r.(highlights := c.highlights) == c
    ensures Consistent(c) ==> Consistent(r)
  {
    if id in c.highlights then c.(highlights := c.highlights[id := c.highlights[id].(title := title)]) else c
  }

  /** The end of the known-highlight branch: the cover step, then the row
      taken off the list, except that after a title change with two or more
      folders (`split`) the reused loop variable makes that step raise, so
      the update reports failure after doing all its work. */
  function FinishKnown(c: Catalog, fs: seq<Folder>, id: nat, name: string,
                       rows: seq<HighlightRow>, i: nat, split: bool, e: Effects): (r: Update)
    requires i < |rows|
    ensures r.rows == rows || (r.ok && r.rows == rows[..i] + rows[i + 1..])
    ensures r.ok && r.rows == rows <==> e.probe.None? && FirstMatch(fs, id).Some?
                                        && |ListedIn(fs[FirstMatch(fs, id).value], "Cover.")| > 0
    ensures split ==> r.rows == rows
    ensures |r.folders| == |fs| && forall j :: 0 <= j < |fs| ==> r.folders[j].name == fs[j].name
    ensures HasFolder(fs, name) ==> HasFolder(r.folders, name)
    ensures r.catalog.profiles == c.profiles && r.catalog.posts == c.posts && r.catalog.stories == c.stories
    ensures r.catalog.(coverHistory := c.coverHistory) == c
    ensures r.catalog.highlights == c.highlights
    ensures c.coverHistory <= r.catalog.coverHistory
    ensures Consistent(c) ==> Consistent(r.catalog)
  {
    var cover := CoverStage(c, fs, id, name, e);
    assert HasFolder(fs, name) ==> HasFolder(cover.2, name) by {
      if HasFolder(fs, name) {
        var k :| 0 <= k < |fs| && fs[k].name == name;
        assert cover.2[k].name == name;
      }
    }
    if !cover.0 then Update(true, cover.1, cover.2, rows)
    else if split then Update(false, cover.1, cover.2, rows)
    else Update(true, cover.1, cover.2, rows[..i] + rows[i + 1..])
  }

  /** A known highlight whose title is unchanged: a folder is made only
      when none is listed. */
  function SameTitle(c: Catalog, fs: seq<Folder>, id: nat, title: string,
                     rows: seq<HighlightRow>, i: nat, e: Effects): (r: Update)
    requires i < |rows|
    ensures r.rows == rows || (r.ok && r.rows == rows[..i] + rows[i + 1..])
    ensures !r.ok <==> |Glob(fs, id)| == 0 && HasFolder(fs, FolderName(title, id))
    ensures r.catalog.highlights == c.highlights
    ensures r.catalog.profiles == c.profiles && r.catalog.posts == c.posts && r.catalog.stories == c.stories
    ensures r.catalog.(coverHistory := c.coverHistory) == c
    ensures c.coverHistory <= r.catalog.coverHistory
    ensures Consistent(c) ==> Consistent(r.catalog)
  {
    var name := FolderName(title, id);
    var folders := if |Glob(fs, id)| == 0 then Mkdir(fs, name) else Some(fs);
    if folders.None? then Update(false, c, fs, rows)
    else FinishKnown(c, folders.value, id, name, rows, i, false, e)
  }

  /** A known highlight whose title changed, once its folders are merged
      into `folders`: the title is stored, and a failing UPDATE ends the
      update with True. `split` says two or more folders were listed. */
  function StoreTitle(c: Catalog, folders: seq<Folder>, id: nat, title: string, name: string,
                      rows: seq<HighlightRow>, i: nat, split: bool, e: Effects): (r: Update)
    requires i < |rows| && HasFolder(folders, name)
    ensures r.rows == rows || (r.ok && r.rows == rows[..i] + rows[i + 1..])
    ensures HasFolder(r.folders, name)
    ensures e.titleSqlOk ==> r.catalog.highlights == SetTitle(c, id, title).highlights
    ensures !e.titleSqlOk ==> r == Update(true, c, folders, rows)
    ensures split ==> r.rows == rows
    ensures r.catalog.highlights.Keys == c.highlights.Keys
    ensures r.catalog.profiles == c.profiles && r.catalog.posts == c.posts && r.catalog.stories == c.stories
    ensures r.catalog.(highlights := c.highlights, coverHistory := c.coverHistory) == c
    ensures c.coverHistory <= r.catalog.coverHistory
    ensures Consistent(c) ==> Consistent(r.catalog)
  {
    if !e.titleSqlOk then Update(true, c, folders, rows)
    else FinishKnown(SetTitle(c, id, title), folders, id, name, rows, i, split, e)
  }

  /** A known highlight whose title changed: its folders are merged and
      renamed after the sanitised title, then the title is stored. */
  function Retitled(c: Catalog, fs: seq<Folder>, id: nat, title: string,
                    rows: seq<HighlightRow>, i: nat, e: Effects): (r: Update)
    requires i < |rows|
    ensures r.rows == rows || (r.ok && r.rows == rows[..i] + rows[i + 1..])
    ensures MergeInto(fs, id, FolderName(title, id)).None? ==> r == Update(false, c, Gathered(fs, id), rows)
    ensures MergeInto(fs, id, FolderName(title, id)).Some? ==>
              && HasFolder(r.folders, FolderName(title, id))
              && (e.titleSqlOk ==> r.catalog.highlights == SetTitle(c, id, title).highlights)
              && (!e.titleSqlOk ==> r.ok && r.rows == rows && r.catalog == c)
    ensures |Glob(fs, id)| >= 2 ==> r.rows == rows
    ensures r.catalog.highlights.Keys == c.highlights.Keys
    ensures r.catalog.profiles == c.profiles && r.catalog.posts == c.posts && r.catalog.stories == c.stories
    ensures r.catalog.(highlights := c.highlights, coverHistory := c.coverHistory) == c
    ensures c.coverHistory <= r.catalog.coverHistory
    ensures Consistent(c) ==> Consistent(r.catalog)
  {
    var name := FolderName(title, id);
    match MergeInto(fs, id, name)
    case None => Update(false, c, Gathered(fs, id), rows)
    case Some(folders) => StoreTitle(c, folders, id, title, name, rows, i, |Glob(fs, id)| >= 2, e)
  }

  /** The branch of updateSingleHighlight for a highlight not in the row
      list: folders merged and renamed, the row inserted with no items, then
      the cover. */
  function NewHighlight(c: Catalog, fs: seq<Folder>, pk: nat, id: nat, title: string, e: Effects): (r: Update)
    ensures r.ok <==> MergeInto(fs, id, FolderName(title, id)).Some? && e.titleSqlOk
                      && InsertHighlight(c, id, Highlight(pk, title, 0)).Some?
    ensures r.ok ==> && id !in c.highlights
                     && r.catalog.highlights == c.highlights[id := Highlight(pk, title, 0)]
                     && HasFolder(r.folders, FolderName(title, id))
    ensures !r.ok ==> r.catalog == c
    ensures r.rows == []
    ensures c.coverHistory <= r.catalog.coverHistory
    ensures r.catalog.profiles == c.profiles && r.catalog.posts == c.posts && r.catalog.stories == c.stories
    ensures r.catalog.(highlights := c.highlights, coverHistory := c.coverHistory) == c
    ensures Consistent(c) ==> Consistent(r.catalog)
  {
    var name := FolderName(title, id);
    match MergeInto(fs, id, name)
    case None => Update(false, c, Gathered(fs, id), [])
    case Some(folders) =>
      if !e.titleSqlOk then Update(false, c, folders, [])
      else
        match InsertHighlight(c, id, Highlight(pk, title, 0))
        case None => Update(false, c, folders, [])
        case Some(c1) =>
          var cover := CoverStage(c1, folders, id, name, e);
          Update(true, cover.1, cover.2, [])
  }

  /** updateSingleHighlight for a highlight of profile `pk`, given the rows
      read for the profile; `False` where the id is not a numeral or the
      cover link is missing. */
  function UpdateSingleHighlight(c: Catalog, fs: seq<Folder>, pk: nat, data: HighlightData,
                                 rows: seq<HighlightRow>, e: Effects): (r: Update)
    ensures ParseDec(data.id).None? || data.coverLink.None? ==> r == Update(false, c, fs, rows)
    ensures r.rows == rows || exists i :: 0 <= i < |rows| && ParseDec(data.id) == Some(rows[i].id) && r.ok
                                          && r.rows == rows[..i] + rows[i + 1..]
    ensures ParseDec(data.id).Some? && data.coverLink.Some? && FindRow(rows, ParseDec(data.id).value).None? ==>
              var id := ParseDec(data.id).value;
              && (r.ok <==> MergeInto(fs, id, FolderName(data.title, id)).Some? && e.titleSqlOk
                            && InsertHighlight(c, id, Highlight(pk, data.title, 0)).Some?)
              && (r.ok ==> id !in c.highlights && r.catalog.highlights == c.highlights[id := Highlight(pk, data.title, 0)]
                           && HasFolder(r.folders, FolderName(data.title, id)))
    ensures ParseDec(data.id).Some? && data.coverLink.Some? && FindRow(rows, ParseDec(data.id).value).Some? ==>
              var id := ParseDec(data.id).value;
              var row := rows[FindRow(rows, id).value];
              && (row.title == data.title ==> r.catalog.highlights == c.highlights)
              && (row.title != data.title && MergeInto(fs, id, FolderName(data.title, id)).Some? ==>
                    HasFolder(r.folders, FolderName(data.title, id))
                    && (e.titleSqlOk ==> r.catalog.highlights == SetTitle(c, id, data.title).highlights))
    ensures c.highlights.Keys <= r.catalog.highlights.Keys
    ensures r.catalog.profiles == c.profiles && r.catalog.posts == c.posts && r.catalog.stories == c.stories
    ensures r.catalog.(highlights := c.highlights, coverHistory := c.coverHistory) == c
    ensures c.coverHistory <= r.catalog.coverHistory
    ensures Consistent(c) ==> Consistent(r.catalog)
  {
    match ParseDec(data.id)
    case None => Update(false, c, fs, rows)
    case Some(id) =>
      if data.coverLink.None? then Update(false, c, fs, rows)
      else
        match FindRow(rows, id)
        case Some(i) =>
          if rows[i].title == data.title then SameTitle(c, fs, id, data.title, rows, i, e)
          else Retitled(c, fs, id, data.title, rows, i, e)
        case None => NewHighlight(c, fs, pk, id, data.title, e).(rows := rows)
  }

  /** A title change over two or more folders: the folders are merged and
      the title stored, yet the update reports failure and the row stays on
      the list. */
  lemma RenamedSplitHighlightReportsFailure(c: Catalog, fs: seq<Folder>, id: nat, title: string,
                                            rows: seq<HighlightRow>, i: nat, e: Effects)
    requires i < |rows| && rows[i].id == id && rows[i].title != title
    requires |Glob(fs, id)| >= 2 && MergeInto(fs, id, FolderName(title, id)).Some?
    requires e.titleSqlOk && e.probe.Some?
    ensures var r := Retitled(c, fs, id, title, rows, i, e);
            !r.ok && r.rows == rows && (id in c.highlights ==> r.catalog.highlights[id].title == title)
  {
  }

  /** A title change over one folder ends with the row taken off the list. */
  lemma RenamedHighlightDone(c: Catalog, fs: seq<Folder>, id: nat, title: string,
                             rows: seq<HighlightRow>, i: nat, e: Effects)
    requires i < |rows| && rows[i].id == id && rows[i].title != title
    requires |Glob(fs, id)| == 1 && MergeInto(fs, id, FolderName(title, id)).Some?
    requires e.titleSqlOk && e.probe.Some?
    ensures var r := Retitled(c, fs, id, title, rows, i, e);
            r.ok && r.rows == rows[..i] + rows[i + 1..] && HasFolder(r.folders, FolderName(title, id))
  {
  }

  /** The effects the first update of the loop sees, and those left for
      the rest. */
  function FirstEffects(effects: seq<Effects>): Effects {
    if |effects| > 0 then effects[0] else Effects(false, None, 0, None, false)
  }

  function LaterEffects(effects: seq<Effects>): seq<Effects> {
    if |effects| > 0 then effects[1..] else []
  }

  /** The loop of updateHighlights: every highlight of the feed is updated
      in order against the row list as the earlier updates left it;
      `effects[k]` is what the world does during the k-th update, and
      updates past its end see every effect fail. */
  function UpdateAll(c: Catalog, fs: seq<Folder>, pk: nat, data: seq<HighlightData>,
                     rows: seq<HighlightRow>, effects: seq<Effects>): (r: (seq<bool>, Catalog, seq<Folder>))
    decreases |data|
    ensures |r.0| == |data|
    ensures c.highlights.Keys <= r.1.highlights.Keys
    ensures r.1.profiles == c.profiles && r.1.posts == c.posts && r.1.stories == c.stories
    ensures r.1.(highlights := c.highlights, coverHistory := c.coverHistory) == c
    ensures c.coverHistory <= r.1.coverHistory
    ensures Consistent(c) ==> Consistent(r.1)
  {
    if data == [] then ([], c, fs)
    else
      var u := UpdateSingleHighlight(c, fs, pk, data[0], rows, FirstEffects(effects));
      var rest := UpdateAll(u.catalog, u.folders, pk, data[1..], u.rows, LaterEffects(effects));
      ([u.ok] + rest.0, rest.1, rest.2)
  }

  /** updateHighlights: `data` is the feed (`None` when it could not be
      fetched) and `rows` the profile's Highlight rows (`None` when the
      SELECT fails). Gives one state per updated highlight. */
  function UpdateHighlights(c: Catalog, fs: seq<Folder>, pk: nat, data: Option<seq<HighlightData>>,
                            rows: Option<seq<HighlightRow>>, effects: seq<Effects>): (r: (seq<bool>, Catalog, seq<Folder>))
    ensures data.None? || rows.None? ==> r == ([], c, fs)
    ensures data.Some? && rows.Some? ==> |r.0| == |data.value|
    ensures c.highlights.Keys <= r.1.highlights.Keys
    ensures r.1.profiles == c.profiles && r.1.posts == c.posts && r.1.stories == c.stories
    ensures r.1.(highlights := c.highlights, coverHistory := c.coverHistory) == c
    ensures c.coverHistory <= r.1.coverHistory
    ensures Consistent(c) ==> Consistent(r.1)
  {
    match data
    case None => ([], c, fs)
    case Some(hs) =>
      match rows
      case None => ([], c, fs)
      case Some(rs) => UpdateAll(c, fs, pk, hs, rs, effects)
  }

  /** A highlight listed twice in one feed: the first update takes its row
      off the list, so the second treats it as new and fails on the insert
      of a row that exists. */
  lemma RepeatedHighlightFailsSecondTime(c: Catalog, fs: seq<Folder>, pk: nat, data: HighlightData,
                                         rows: seq<HighlightRow>, e: Effects)
    requires ParseDec(data.id).Some? && data.coverLink.Some?
    requires var u := UpdateSingleHighlight(c, fs, pk, data, rows, e);
             u.ok && u.rows != rows
    requires forall j, k :: 0 <= j < k < |rows| ==> rows[j].id != rows[k].id
    requires forall j :: 0 <= j < |rows| ==> rows[j].id in c.highlights
    ensures var u := UpdateSingleHighlight(c, fs, pk, data, rows, e);
            !UpdateSingleHighlight(u.catalog, u.folders, pk, data, u.rows, e).ok
  {
    var id := ParseDec(data.id).value;
    var u := UpdateSingleHighlight(c, fs, pk, data, rows, e);
    var i :| 0 <= i < |rows| && Some(id) == Some(rows[i].id) && u.rows == rows[..i] + rows[i + 1..];
    RemovedRowGone(rows, i);
    KnownIdNotNew(u.catalog, u.folders, pk, data, u.rows, e);
  }

  /** Taking a row off a list of distinct ids leaves no row with its id. */
  lemma RemovedRowGone(rows: seq<HighlightRow>, i: nat)
    requires i < |rows|
    requires forall j, k :: 0 <= j < k < |rows| ==> rows[j].id != rows[k].id
    ensures FindRow(rows[..i] + rows[i + 1..], rows[i].id).None?
  {
    var rest := rows[..i] + rows[i + 1..];
    forall j | 0 <= j < |rest| ensures rest[j].id != rows[i].id {
      if j < i { assert rest[j] == rows[j]; } else { assert rest[j] == rows[j + 1]; }
    }
  }

  /** An id without a row but with a Highlight record is taken for new, and
      its insert fails. */
  lemma KnownIdNotNew(c: Catalog, fs: seq<Folder>, pk: nat, data: HighlightData, rows: seq<HighlightRow>, e: Effects)
    requires ParseDec(data.id).Some? && data.coverLink.Some?
    requires FindRow(rows, ParseDec(data.id).value).None? && ParseDec(data.id).value in c.highlights
    ensures !UpdateSingleHighlight(c, fs, pk, data, rows, e).ok
  {
  }

  /** Some folder's name ends in `_{id}`, whether the glob lists it or not. */
  predicate HoldsFolderFor(fs: seq<Folder>, id: nat) {
    exists j :: 0 <= j < |fs| && EndsWith(fs[j].name, "_" + Dec(id))
  }

  /** A highlight's folder name carries its id. */
  lemma FolderNameCarriesId(title: string, id: nat)
    ensures EndsWith(FolderName(title, id), "_" + Dec(id))
  {
    var a := MakeFilenameFriendly(title);
    assert (a + ("_" + Dec(id)))[|a|..] == "_" + Dec(id);
    assert FolderName(title, id) == a + ("_" + Dec(id));
  }

  /** Of two suffixes `_x` and `_y` of one name, a shorter `x` puts the
      underscore of `_x` inside `y`. */
  lemma ShorterSuffixUnderscore(name: string, x: string, y: string)
    requires EndsWith(name, "_" + x) && EndsWith(name, "_" + y)
    ensures |x| < |y| ==> '_' in y
  {
    if |x| < |y| {
      var sx := "_" + x;
      var sy := "_" + y;
      assert sy[|sy| - |sx|] == name[|name| - |sx|] == sx[0];
      assert y[|sy| - |sx| - 1] == sy[|sy| - |sx|];
    }
  }

  /** Of two id suffixes of one name, the later id's numeral is no longer,
      since numerals hold no underscore. */
  lemma SuffixNumeralsNoLonger(name: string, a: nat, b: nat)
    requires EndsWith(name, "_" + Dec(a)) && EndsWith(name, "_" + Dec(b))
    ensures |Dec(b)| <= |Dec(a)|
  {
    ShorterSuffixUnderscore(name, Dec(a), Dec(b));
    DecHasNo(b, '_');
  }

  /** A name ends in `_{id}` for at most one id, since numerals hold no
      underscore. */
  lemma SuffixNamesOneId(name: string, a: nat, b: nat)
    requires EndsWith(name, "_" + Dec(a)) && EndsWith(name, "_" + Dec(b))
    ensures a == b
  {
    SuffixNumeralsNoLonger(name, a, b);
    SuffixNumeralsNoLonger(name, b, a);
    var sa := "_" + Dec(a);
    var sb := "_" + Dec(b);
    assert sa == sb;
    assert Dec(a) == sa[1..] && Dec(b) == sb[1..];
    DecInjective(a, b);
  }

  /** A folder whose name ends in the suffix of another id is one the glob
      for `id` does not list. */
  lemma OtherIdUnlisted(name: string, other: nat, id: nat)
    requires EndsWith(name, "_" + Dec(other)) && other != id
    ensures !MatchesId(name, id)
  {
    if MatchesId(name, id) {
      SuffixNamesOneId(name, other, id);
    }
  }

  /** Folder names kept position by position keep every name. */
  lemma NamesKeptInPlace(fs: seq<Folder>, gs: seq<Folder>, name: string)
    requires |gs| == |fs| && forall j :: 0 <= j < |fs| ==> gs[j].name == fs[j].name
    requires HasFolder(fs, name)
    ensures HasFolder(gs, name)
  {
    FolderNamedByNames(fs, gs, name);
  }

  /** A folder kept as a member keeps its name. */
  lemma NameKeptAsMember(fs: seq<Folder>, gs: seq<Folder>, id: nat, name: string)
    requires forall f :: f in fs && !MatchesId(f.name, id) ==> f in gs
    requires HasFolder(fs, name) && !MatchesId(name, id)
    ensures HasFolder(gs, name)
  {
    var k :| 0 <= k < |fs| && fs[k].name == name;
    assert fs[k] in fs;
    var j :| 0 <= j < |gs| && gs[j] == fs[k];
  }

  /** One update keeps, by name, every folder the glob for its id does not
      list: the merge leaves them alone and the cover steps rename nothing. */
  lemma SingleKeepsUnlisted(c: Catalog, fs: seq<Folder>, pk: nat, data: HighlightData,
                            rows: seq<HighlightRow>, e: Effects, name: string)
    requires ParseDec(data.id).Some? && HasFolder(fs, name) && !MatchesId(name, ParseDec(data.id).value)
    ensures HasFolder(UpdateSingleHighlight(c, fs, pk, data, rows, e).folders, name)
  {
    var id := ParseDec(data.id).value;
    var r := UpdateSingleHighlight(c, fs, pk, data, rows, e);
    if data.coverLink.Some? {
      var i := FindRow(rows, id);
      if i.Some? && rows[i.value].title == data.title {
        assert r == SameTitle(c, fs, id, data.title, rows, i.value, e);
        SameTitleKeepsUnlisted(c, fs, id, data.title, rows, i.value, e, name);
      } else if i.Some? {
        assert r == Retitled(c, fs, id, data.title, rows, i.value, e);
        RetitledKeepsUnlisted(c, fs, id, data.title, rows, i.value, e, name);
      } else {
        assert r.folders == NewHighlight(c, fs, pk, id, data.title, e).folders;
        NewKeepsUnlisted(c, fs, pk, id, data.title, e, name);
      }
    }
  }

  lemma SameTitleKeepsUnlisted(c: Catalog, fs: seq<Folder>, id: nat, title: string,
                               rows: seq<HighlightRow>, i: nat, e: Effects, name: string)
    requires i < |rows| && HasFolder(fs, name) && !MatchesId(name, id)
    ensures HasFolder(SameTitle(c, fs, id, title, rows, i, e).folders, name)
  {
    var fname := FolderName(title, id);
    var r := SameTitle(c, fs, id, title, rows, i, e);
    if |Glob(fs, id)| > 0 {
      assert r == FinishKnown(c, fs, id, fname, rows, i, false, e);
      NamesKeptInPlace(fs, r.folders, name);
    } else if Mkdir(fs, fname).Some? {
      var folders := Mkdir(fs, fname).value;
      assert r == FinishKnown(c, folders, id, fname, rows, i, false, e);
      NameKeptAsMember(fs, folders, id, name);
      NamesKeptInPlace(folders, r.folders, name);
    }
  }

  lemma RetitledKeepsUnlisted(c: Catalog, fs: seq<Folder>, id: nat, title: string,
                              rows: seq<HighlightRow>, i: nat, e: Effects, name: string)
    requires i < |rows| && HasFolder(fs, name) && !MatchesId(name, id)
    ensures HasFolder(Retitled(c, fs, id, title, rows, i, e).folders, name)
  {
    var fname := FolderName(title, id);
    match MergeInto(fs, id, fname)
    case None =>
      NameKeptAsMember(fs, Gathered(fs, id), id, name);
    case Some(folders) =>
      NameKeptAsMember(fs, folders, id, name);
      if e.titleSqlOk {
        var split := |Glob(fs, id)| >= 2;
        NamesKeptInPlace(folders, FinishKnown(SetTitle(c, id, title), folders, id, fname, rows, i, split, e).folders, name);
      }
  }

  lemma NewKeepsUnlisted(c: Catalog, fs: seq<Folder>, pk: nat, id: nat, title: string, e: Effects, name: string)
    requires HasFolder(fs, name) && !MatchesId(name, id)
    ensures HasFolder(NewHighlight(c, fs, pk, id, title, e).folders, name)
  {
    var fname := FolderName(title, id);
    var r := NewHighlight(c, fs, pk, id, title, e);
    var m := MergeInto(fs, id, fname);
    var folders := if m.Some? then m.value else Gathered(fs, id);
    NameKeptAsMember(fs, folders, id, name);
    if m.Some? && e.titleSqlOk && InsertHighlight(c, id, Highlight(pk, title, 0)).Some? {
      var c1 := InsertHighlight(c, id, Highlight(pk, title, 0)).value;
      assert r.folders == CoverStage(c1, folders, id, fname, e).2;
      NamesKeptInPlace(folders, r.folders, name);
    } else {
      assert r.folders == folders;
    }
  }

  /** An update that reports True leaves a folder carrying its id: the one
      the glob listed, the one it made, or the one it merged into. */
  lemma SingleTrueHoldsFolder(c: Catalog, fs: seq<Folder>, pk: nat, data: HighlightData,
                              rows: seq<HighlightRow>, e: Effects)
    requires UpdateSingleHighlight(c, fs, pk, data, rows, e).ok
    ensures ParseDec(data.id).Some? && data.coverLink.Some?
    ensures HoldsFolderFor(UpdateSingleHighlight(c, fs, pk, data, rows, e).folders, ParseDec(data.id).value)
  {
    var id := ParseDec(data.id).value;
    var title := data.title;
    var fname := FolderName(title, id);
    var r := UpdateSingleHighlight(c, fs, pk, data, rows, e);
    FolderNameCarriesId(title, id);
    match FindRow(rows, id)
    case Some(i) =>
      if rows[i].title == title {
        var folders := if |Glob(fs, id)| == 0 then Mkdir(fs, fname) else Some(fs);
        var k: nat;
        if |Glob(fs, id)| == 0 {
          k := FolderNamed(folders.value, fname).value;
        } else {
          var g := Glob(fs, id)[0];
          assert g in Glob(fs, id);
          k :| 0 <= k < |fs| && fs[k] == g;
        }
        assert r == FinishKnown(c, folders.value, id, fname, rows, i, false, e);
        assert r.folders[k].name == folders.value[k].name;
      } else {
        var j := FolderNamed(r.folders, fname).value;
      }
    case None =>
      var j := FolderNamed(r.folders, fname).value;
  }

  /** Updates for other ids keep a folder carrying `id`. */
  lemma {:induction false} UpdateAllKeepsFolder(c: Catalog, fs: seq<Folder>, pk: nat, data: seq<HighlightData>,
                                                rows: seq<HighlightRow>, effects: seq<Effects>, id: nat)
    requires forall j :: 0 <= j < |data| ==> ParseDec(data[j].id) != Some(id)
    requires HoldsFolderFor(fs, id)
    ensures HoldsFolderFor(UpdateAll(c, fs, pk, data, rows, effects).2, id)
    decreases |data|
  {
    if data != [] {
      var e := FirstEffects(effects);
      var u := UpdateSingleHighlight(c, fs, pk, data[0], rows, e);
      UpdateAllStep(c, fs, pk, data, rows, effects);
      var k :| 0 <= k < |fs| && EndsWith(fs[k].name, "_" + Dec(id));
      if ParseDec(data[0].id).Some? {
        OtherIdUnlisted(fs[k].name, id, ParseDec(data[0].id).value);
        SingleKeepsUnlisted(c, fs, pk, data[0], rows, e, fs[k].name);
        var j :| 0 <= j < |u.folders| && u.folders[j].name == fs[k].name;
      }
      assert HoldsFolderFor(u.folders, id);
      UpdateAllKeepsFolder(u.catalog, u.folders, pk, data[1..], u.rows, LaterEffects(effects), id);
    }
  }

  /** One turn of the loop, unfolded. */
  lemma UpdateAllStep(c: Catalog, fs: seq<Folder>, pk: nat, data: seq<HighlightData>,
                      rows: seq<HighlightRow>, effects: seq<Effects>)
    requires data != []
    ensures var u := UpdateSingleHighlight(c, fs, pk, data[0], rows, FirstEffects(effects));
            var rest := UpdateAll(u.catalog, u.folders, pk, data[1..], u.rows, LaterEffects(effects));
            UpdateAll(c, fs, pk, data, rows, effects) == ([u.ok] + rest.0, rest.1, rest.2)
  {
  }

  /** Only a highlight with a numeric id and a cover link gets True. */
  lemma {:induction false} TrueParsedAt(c: Catalog, fs: seq<Folder>, pk: nat, data: seq<HighlightData>,
                                        rows: seq<HighlightRow>, effects: seq<Effects>, k: nat)
    requires k < |data| && UpdateAll(c, fs, pk, data, rows, effects).0[k]
    ensures ParseDec(data[k].id).Some? && data[k].coverLink.Some?
    decreases k, 1
  {
    UpdateAllStep(c, fs, pk, data, rows, effects);
    if k == 0 {
      SingleTrueHoldsFolder(c, fs, pk, data[0], rows, FirstEffects(effects));
    } else {
      TrueParsedLater(c, fs, pk, data, rows, effects, k);
    }
  }

  lemma {:induction false} TrueParsedLater(c: Catalog, fs: seq<Folder>, pk: nat, data: seq<HighlightData>,
                                           rows: seq<HighlightRow>, effects: seq<Effects>, k: nat)
    requires 0 < k < |data| && UpdateAll(c, fs, pk, data, rows, effects).0[k]
    ensures ParseDec(data[k].id).Some? && data[k].coverLink.Some?
    decreases k, 0
  {
    var u := UpdateSingleHighlight(c, fs, pk, data[0], rows, FirstEffects(effects));
    var rest := UpdateAll(u.catalog, u.folders, pk, data[1..], u.rows, LaterEffects(effects));
    UpdateAllStep(c, fs, pk, data, rows, effects);
    assert rest.0[k - 1];
    TrueParsedAt(u.catalog, u.folders, pk, data[1..], u.rows, LaterEffects(effects), k - 1);
    assert data[k] == data[1..][k - 1];
  }

  /** The first highlight of the loop, when it gets True and no later entry
      has its id, leaves a folder carrying its id. */
  lemma HeadHoldsFolder(c: Catalog, fs: seq<Folder>, pk: nat, data: seq<HighlightData>,
                        rows: seq<HighlightRow>, effects: seq<Effects>)
    requires data != [] && UpdateAll(c, fs, pk, data, rows, effects).0[0]
    requires LastOfId(data, 0)
    ensures ParseDec(data[0].id).Some?
    ensures HoldsFolderFor(UpdateAll(c, fs, pk, data, rows, effects).2, ParseDec(data[0].id).value)
  {
    var u := UpdateSingleHighlight(c, fs, pk, data[0], rows, FirstEffects(effects));
    UpdateAllStep(c, fs, pk, data, rows, effects);
    SingleTrueHoldsFolder(c, fs, pk, data[0], rows, FirstEffects(effects));
    var id := ParseDec(data[0].id).value;
    forall j | 0 <= j < |data[1..]| ensures ParseDec(data[1..][j].id) != Some(id) {
      assert data[1..][j] == data[j + 1];
    }
    UpdateAllKeepsFolder(u.catalog, u.folders, pk, data[1..], u.rows, LaterEffects(effects), id);
  }

  /** No entry of the feed after the k-th has the k-th's id. */
  predicate LastOfId(data: seq<HighlightData>, k: nat)
    requires k < |data|
  {
    forall j :: k < j < |data| ==> ParseDec(data[j].id) != ParseDec(data[k].id)
  }

  /** A highlight that gets True, with no later entry of its id, leaves a
      folder carrying its id. */
  lemma {:induction false} FolderHeldAt(c: Catalog, fs: seq<Folder>, pk: nat, data: seq<HighlightData>,
                                        rows: seq<HighlightRow>, effects: seq<Effects>, k: nat)
    requires k < |data| && UpdateAll(c, fs, pk, data, rows, effects).0[k] && LastOfId(data, k)
    ensures ParseDec(data[k].id).Some?
    ensures HoldsFolderFor(UpdateAll(c, fs, pk, data, rows, effects).2, ParseDec(data[k].id).value)
    decreases k, 1
  {
    if k == 0 {
      HeadHoldsFolder(c, fs, pk, data, rows, effects);
    } else {
      FolderHeldLater(c, fs, pk, data, rows, effects, k);
    }
  }

  lemma {:induction false} FolderHeldLater(c: Catalog, fs: seq<Folder>, pk: nat, data: seq<HighlightData>,
                                           rows: seq<HighlightRow>, effects: seq<Effects>, k: nat)
    requires 0 < k < |data| && UpdateAll(c, fs, pk, data, rows, effects).0[k] && LastOfId(data, k)
    ensures ParseDec(data[k].id).Some?
    ensures HoldsFolderFor(UpdateAll(c, fs, pk, data, rows, effects).2, ParseDec(data[k].id).value)
    decreases k, 0
  {
    var u := UpdateSingleHighlight(c, fs, pk, data[0], rows, FirstEffects(effects));
    var rest := UpdateAll(u.catalog, u.folders, pk, data[1..], u.rows, LaterEffects(effects));
    UpdateAllStep(c, fs, pk, data, rows, effects);
    assert rest.0[k - 1];
    assert data[k] == data[1..][k - 1];
    LastOfIdTail(data, k);
    FolderHeldAt(u.catalog, u.folders, pk, data[1..], u.rows, LaterEffects(effects), k - 1);
    assert HoldsFolderFor(rest.2, ParseDec(data[k].id).value);
  }

  /** The verdicts of the loop: a highlight whose id is not a numeral or
      whose cover link is missing gets False, and one that gets True leaves
      a folder carrying its id unless a later entry of the feed has the same
      id. */
  lemma UpdateAllVerdicts(c: Catalog, fs: seq<Folder>, pk: nat, data: seq<HighlightData>,
                          rows: seq<HighlightRow>, effects: seq<Effects>)
    ensures var r := UpdateAll(c, fs, pk, data, rows, effects);
            forall k :: 0 <= k < |data| && r.0[k] ==> ParseDec(data[k].id).Some? && data[k].coverLink.Some?
    ensures var r := UpdateAll(c, fs, pk, data, rows, effects);
            forall k :: 0 <= k < |data| && r.0[k] && LastOfId(data, k) ==> HoldsFolderFor(r.2, ParseDec(data[k].id).value)
  {
    var r := UpdateAll(c, fs, pk, data, rows, effects);
    forall k | 0 <= k < |data| && r.0[k] ensures ParseDec(data[k].id).Some? && data[k].coverLink.Some? {
      TrueParsedAt(c, fs, pk, data, rows, effects, k);
    }
    forall k | 0 <= k < |data| && r.0[k] && LastOfId(data, k) ensures HoldsFolderFor(r.2, ParseDec(data[k].id).value) {
      FolderHeldAt(c, fs, pk, data, rows, effects, k);
    }
  }

  lemma LastOfIdTail(data: seq<HighlightData>, k: nat)
    requires 0 < k < |data| && LastOfId(data, k)
    ensures LastOfId(data[1..], k - 1)
  {
    forall j | k - 1 < j < |data[1..]| ensures ParseDec(data[1..][j].id) != ParseDec(data[1..][k - 1].id) {
      assert data[1..][j] == data[j + 1];
    }
  }

  /** updateHighlights' verdicts, as the loop gives them. */
  lemma UpdateHighlightsVerdicts(c: Catalog, fs: seq<Folder>, pk: nat, data: Option<seq<HighlightData>>,
                                 rows: Option<seq<HighlightRow>>, effects: seq<Effects>)
    requires data.Some?
    ensures var r := UpdateHighlights(c, fs, pk, data, rows, effects);
            forall k :: 0 <= k < |r.0| ==> k < |data.value| && (r.0[k] ==> ParseDec(data.value[k].id).Some? && data.value[k].coverLink.Some?)
    ensures var r := UpdateHighlights(c, fs, pk, data, rows, effects);
            forall k :: 0 <= k < |r.0| && r.0[k] && LastOfId(data.value, k) ==>
                          HoldsFolderFor(r.2, ParseDec(data.value[k].id).value)
  {
    if rows.Some? {
      UpdateAllVerdicts(c, fs, pk, data.value, rows.value, effects);
    }
  }
}

=== FILE: names.dfy ===
/** The name and path helpers of main.py: the folder-name sanitiser, the
    History rename of old profile pictures, the thumbnail file name and the
    centre-crop box of makeThumbnail. */
module Names {
  import opened Optional
  import opened Text

  /** The characters main.py refuses in a folder name (main.py:15), in the
      order the sanitiser visits them. */
  const InvalidCharacters: seq<char> := ['/', '\\', ':', '*', '?', '"', '<', '>', '|']

  /** What one invalid character is replaced with: `' ' + str(ord(c)) + ' '`. */
  function Escape(c: char): string {
    " " + Dec(c as int) + " "
  }

  /** The characters an escape is made of. */
  predicate EscapeChar(x: char) {
    x == ' ' || IsDigit(x)
  }

  predicate NoEscapeChars(cs: seq<char>) {
    forall y :: y in cs ==> !EscapeChar(y)
  }

  /** The sanitiser's loop: for each character of `cs` in turn, replace every
      occurrence of it in the text built so far. */
  function ReplaceEach(text: string, cs: seq<char>): string
    decreases |cs|
  {
    if cs == [] then text
    else ReplaceEach(Replace(text, [cs[0]], Escape(cs[0])), cs[1..])
  }

  /** Independent reading of the sanitiser: one pass over the text, each
      character of `cs` becoming its escape and every other character kept,
      in order. */
  function EscapeWith(text: string, cs: seq<char>): string
    decreases |text|
  {
    if text == [] then []
    else (if text[0] in cs then Escape(text[0]) else [text[0]]) + EscapeWith(text[1..], cs)
  }

  lemma EscapeIsSpacesAndDigits(c: char)
    ensures forall i :: 0 <= i < |Escape(c)| ==> EscapeChar(Escape(c)[i])
  {
    var d := Dec(c as int);
    assert forall i :: 0 <= i < |d| ==> IsDigit(d[i]);
    assert forall i :: 1 <= i < |Escape(c)| - 1 ==> Escape(c)[i] == d[i - 1];
  }

  lemma {:induction false} EscapeWithAppend(a: string, b: string, cs: seq<char>)
    ensures EscapeWith(a + b, cs) == EscapeWith(a, cs) + EscapeWith(b, cs)
    decreases |a|
  {
    if a == [] {
      assert a + b == b;
    } else {
      assert (a + b)[1..] == a[1..] + b;
      EscapeWithAppend(a[1..], b, cs);
    }
  }

  /** Text free of the escaped characters passes through unchanged. */
  lemma {:induction false} EscapeWithUntouched(s: string, cs: seq<char>)
    requires forall i :: 0 <= i < |s| ==> s[i] !in cs
    ensures EscapeWith(s, cs) == s
    decreases |s|
  {
    if s != [] {
      EscapeWithUntouched(s[1..], cs);
    }
  }

  /** No character of `cs` survives the escaping. */
  lemma {:induction false} EscapeWithAvoids(t: string, cs: seq<char>)
    requires NoEscapeChars(cs)
    ensures forall i :: 0 <= i < |EscapeWith(t, cs)| ==> EscapeWith(t, cs)[i] !in cs
    decreases |t|
  {
    if t != [] {
      EscapeIsSpacesAndDigits(t[0]);
      EscapeWithAvoids(t[1..], cs);
      var head := if t[0] in cs then Escape(t[0]) else [t[0]];
      assert EscapeWith(t, cs) == head + EscapeWith(t[1..], cs);
      assert forall i :: 0 <= i < |head| ==> head[i] !in cs;
    }
  }

  /** Replacing one character and then escaping the rest is escaping all. */
  lemma {:induction false} SubstThenEscape(t: string, c: char, rest: seq<char>)
    requires NoEscapeChars(rest)
    ensures EscapeWith(SubstChar(t, c, Escape(c)), rest) == EscapeWith(t, [c] + rest)
    decreases |t|
  {
    if t != [] {
      var head := if t[0] == c then Escape(c) else [t[0]];
      assert SubstChar(t, c, Escape(c)) == head + SubstChar(t[1..], c, Escape(c));
      EscapeWithAppend(head, SubstChar(t[1..], c, Escape(c)), rest);
      SubstThenEscape(t[1..], c, rest);
      if t[0] == c {
        EscapeIsSpacesAndDigits(c);
        EscapeWithUntouched(Escape(c), rest);
      } else {
        assert EscapeWith(head, rest) == (if t[0] in rest then Escape(t[0]) else [t[0]]) + EscapeWith([], rest);
      }
    }
  }

  lemma {:induction false} ReplaceEachIsEscape(t: string, cs: seq<char>)
    requires NoEscapeChars(cs)
    ensures ReplaceEach(t, cs) == EscapeWith(t, cs)
    decreases |cs|
  {
    if cs == [] {
      EscapeWithUntouched(t, cs);
    } else {
      ReplaceOneChar(t, cs[0], Escape(cs[0]));
      ReplaceEachIsEscape(SubstChar(t, cs[0], Escape(cs[0])), cs[1..]);
      SubstThenEscape(t, cs[0], cs[1..]);
      assert [cs[0]] + cs[1..] == cs;
    }
  }

  /** MakeFilenameFriendly (main.py:187-201). */
  function MakeFilenameFriendly(text: string): (r: string)
    ensures r == EscapeWith(text, InvalidCharacters)
    ensures forall i :: 0 <= i < |r| ==> r[i] !in InvalidCharacters
  {
    assert NoEscapeChars(InvalidCharacters);
    ReplaceEachIsEscape(text, InvalidCharacters);
    EscapeWithAvoids(text, InvalidCharacters);
    ReplaceEach(text, InvalidCharacters)
  }

  /** Sanitising a sanitised name changes nothing, and a name without invalid
      characters is already sanitised. */
  lemma FriendlyIdempotent(text: string)
    ensures MakeFilenameFriendly(MakeFilenameFriendly(text)) == MakeFilenameFriendly(text)
    ensures (forall i :: 0 <= i < |text| ==> text[i] !in InvalidCharacters) ==> MakeFilenameFriendly(text) == text
  {
    EscapeWithUntouched(MakeFilenameFriendly(text), InvalidCharacters);
    if forall i :: 0 <= i < |text| ==> text[i] !in InvalidCharacters {
      EscapeWithUntouched(text, InvalidCharacters);
    }
  }

  lemma FriendlyExample()
    ensures EscapeWith("a:b", InvalidCharacters) == "a 58 b"
  {
    assert ':' as int == 58;
    assert Dec(5) == [DigitChar(5)] == "5";
    assert Dec(58) == Dec(5) + [DigitChar(8)] == "58";
    assert Escape(':') == " 58 ";
    var t := "a:b";
    assert t[1..] == ":b" && t[1..][1..] == "b";
    assert EscapeWith("b", InvalidCharacters) == "b" + EscapeWith([], InvalidCharacters);
    assert EscapeWith(":b", InvalidCharacters) == " 58 " + EscapeWith("b", InvalidCharacters);
    assert EscapeWith(t, InvalidCharacters) == "a" + EscapeWith(":b", InvalidCharacters);
  }

  // ---------------------------------------------------------------------
  // moveProfileHistory naming (main.py:355-357)

  /** The History name of one current profile-picture file: the path split at
      its last "Profile", rejoined with `/History/{profile_id}`. `None` where
      Python's `rsplit` gives one part and the indexing raises. */
  function HistoryName(file: string, profileId: nat): (r: Option<string>)
    ensures r.None? <==> !Contains(file, "Profile")
    ensures r.Some? ==> exists k :: OccursAt(file, "Profile", k)
                          && (forall j :: k < j ==> !OccursAt(file, "Profile", j))
                          && r.value == file[..k] + "/History/" + Dec(profileId) + file[k + 7..]
  {
    match LastIndexOf(file, "Profile")
    case None => None
    case Some(k) =>
      Some(file[..k] + "/History/" + Dec(profileId) + file[k + 7..])
  }

  /** A file named `Profile{tail}` in a folder `dir` goes to
      `dir/History/{profile_id}{tail}`; the earlier "Profiles" folder name
      is not the one replaced. */
  lemma HistoryNameOfProfileFile(dir: string, tail: string, profileId: nat)
    requires !Contains(tail, "Profile")
    ensures HistoryName(dir + "Profile" + tail, profileId) == Some(dir + "/History/" + Dec(profileId) + tail)
  {
    var f := dir + "Profile" + tail;
    var n := |dir|;
    assert f[n..n + 7] == "Profile";
    assert OccursAt(f, "Profile", n);
    forall j | n < j && j + 7 <= |f| ensures !OccursAt(f, "Profile", j) {
      if j < n + 7 {
        assert f[j..j + 7][0] == f[j] == "Profile"[j - n];
      } else {
        var t := j - n - 7;
        assert 0 <= t <= |tail| - 7;
        assert f[j..j + 7] == tail[t..t + 7];
        assert !OccursAt(tail, "Profile", t);
      }
    }
    var r := LastIndexOf(f, "Profile");
    assert r == Some(n);
    assert f[..n] == dir;
    assert f[n + 7..] == tail;
  }

  // ---------------------------------------------------------------------
  // makeThumbnail (main.py:142-148, 155-159)

  /** The thumbnail path makeThumbnail saves beside a media file: `_temp` is
      dropped from the file name, then everything from the path's last '.'
      is replaced by `_thumbnail.png`. `None` where Python raises. */
  function ThumbnailName(file: string): (r: Option<string>)
    ensures r.Some? ==> EndsWith(r.value, "_thumbnail.png")
    ensures '/' !in file ==> r.None?
  {
    ContainsChar(file, '/');
    match LastIndexOf(file, "/")
    case None => None
    case Some(k) =>
      var named := file[..k] + "/" + Replace(file[k + 1..], "_temp", "");
      match LastIndexOf(named, ".")
      case None => None
      case Some(d) => Some(named[..d] + "_thumbnail.png")
  }

  /** A media file `stem.ext` gets its thumbnail `stem_thumbnail.png` in the
      same folder. */
  lemma ThumbnailBesideMedia(dir: string, stem: string, ext: string)
    requires '/' !in stem + ext && !Contains(stem + ext, "_temp") && '.' !in stem
    requires |ext| >= 1 && ext[0] == '.' && '.' !in ext[1..]
    ensures ThumbnailName(dir + "/" + stem + ext) == Some(dir + "/" + stem + "_thumbnail.png")
  {
    var name := stem + ext;
    var f := dir + "/" + name;
    var n := |dir|;
    assert f[n + 1..] == name;
    LastCharAt(f, '/', n);
    assert f[..n] == dir;
    ReplaceAbsent(name, "_temp", "");
    var d := n + 1 + |stem|;
    assert f[d + 1..] == ext[1..];
    LastCharAt(f, '.', d);
    assert f[..d] == dir + "/" + stem;
    var named := f[..n] + "/" + Replace(f[n + 1..], "_temp", "");
    assert named == f;
    assert ThumbnailName(f) == Some(f[..d] + "_thumbnail.png");
    assert dir + "/" + stem + ext == f;
  }

  /** The square makeThumbnail crops a non-square image to, as PIL's
      (left, upper, right, lower). */
  datatype Box = Box(left: nat, upper: nat, right: nat, lower: nat)

  /** The crop of main.py:142-148; `None` when the image is already square
      and is not cropped. */
  function CropBox(height: nat, width: nat): (b: Option<Box>)
    ensures b.None? <==> height == width
    ensures b.Some? ==> b.value.left <= b.value.right <= width && b.value.upper <= b.value.lower <= height
    ensures b.Some? ==> b.value.right - b.value.left == b.value.lower - b.value.upper
    ensures b.Some? ==> b.value.right - b.value.left == (if height < width then height else width)
    ensures b.Some? ==> b.value.left <= width - b.value.right <= b.value.left + 1
    ensures b.Some? ==> b.value.upper <= height - b.value.lower <= b.value.upper + 1
  {
    if height == width then None
    else
      var side := if height < width then height else width;
      var hOff := (height - side) / 2;
      var wOff := (width - side) / 2;
      Some(Box(wOff, hOff, wOff + side, hOff + side))
  }
}

=== FILE: optional.dfy ===
/** The absent-or-present value the archiver uses wherever Python returns
    `None` for "could not", and wherever a catalog column may be NULL. */
module Optional {

  datatype Option<+T> = None | Some(value: T) {

    /** The value, or `default` when absent. */
    function GetOr(default: T): T {
      match this
      case Some(v) => v
      case None => default
    }
  }
}

=== FILE: posts.dfy ===
/** The post crawler: addSinglePost (main.py:1529-1546), the watermark scan
    of addPostsCodes (main.py:1548-1655) and the row completion of
    downloadSinglePost (main.py:1762-1807). Pages arrive already parsed;
    a `None` item is one whose code could not be read. */
module Posts {
  import opened Optional
  import opened Text
  import opened Catalog

  /** A post known only by its code. */
  const Placeholder := Post(None, None, None)

  /** addSinglePost: record the post as a placeholder unless it is already
      there. Statements on a key in `faulty` raise (lock, disk), and so does
      an insert whose profile is missing. */
  function AddSinglePost(c: Catalog, key: PostKey, faulty: set<PostKey>): (r: (bool, Catalog))
    ensures r.0 <==> key !in faulty && (key in c.posts || key.pk in c.profiles)
    ensures r.1.posts.Keys == c.posts.Keys + (if r.0 then {key} else {})
    ensures forall k :: k in c.posts ==> r.1.posts[k] == c.posts[k]
    ensures key in r.1.posts && key !in c.posts ==> r.1.posts[key].IsPlaceholder()
    ensures r.1.(posts := c.posts) == c
    ensures Consistent(c) ==> Consistent(r.1)
  {
    if key in faulty then (false, c)
    else if key in c.posts then (true, c)
    else
      match InsertPost(c, key, Placeholder)
      case None => (false, c)
      case Some(c1) => (true, c1)
  }

  /** Adding the same post twice is adding it once. */
  lemma AddSinglePostIdempotent(c: Catalog, key: PostKey, faulty: set<PostKey>)
    ensures var r := AddSinglePost(c, key, faulty); AddSinglePost(r.1, key, faulty) == r
  {
  }

  /** The code in a post link: between the first "p/" and the last '/'
      (empty when those are out of order, as Python slicing gives). */
  function PostCodeOfHref(href: string): (r: Option<string>)
    ensures r.None? <==> !Contains(href, "p/") || !Contains(href, "/")
  {
    match IndexOf(href, "p/")
    case None => None
    case Some(a) =>
      match LastIndexOf(href, "/")
      case None => None
      case Some(b) => Some(if a + 2 <= b then href[a + 2..b] else "")
  }

  /** A link `{prefix}p/{code}/{query}` yields `code`. */
  lemma PostCodeOfLink(prefix: string, code: string, query: string)
    requires !Contains(prefix + "p", "p/") && '/' !in code + query
    ensures PostCodeOfHref(prefix + "p/" + code + "/" + query) == Some(code)
  {
    var h := prefix + "p/" + code + "/" + query;
    var a := |prefix|;
    var b := a + 2 + |code|;
    assert h[..a + 2] == prefix + "p/";
    FirstPostMarker(h, prefix);
    LinkLastSlash(prefix + "p/", code, query);
    assert h[a + 2..b] == code;
  }

  /** The first "p/" of a link that starts `{prefix}p/` is the one after
      `prefix`, when `prefix` does not end an earlier one. */
  lemma FirstPostMarker(h: string, prefix: string)
    requires StartsWith(h, prefix + "p/") && !Contains(prefix + "p", "p/")
    ensures IndexOf(h, "p/") == Some(|prefix|)
  {
    var a := |prefix|;
    forall j | 0 <= j < a ensures !OccursAt(h, "p/", j) {
      if OccursAt(h, "p/", j) {
        assert h[j..j + 2] == (prefix + "p")[j..j + 2];
        assert OccursAt(prefix + "p", "p/", j);
      }
    }
    assert h[a..a + 2] == (prefix + "p/")[a..a + 2];
    assert OccursAt(h, "p/", a);
  }

  /** The last '/' of `{head}{code}/{query}` is the one after `code`. */
  lemma LinkLastSlash(head: string, code: string, query: string)
    requires '/' !in code + query
    ensures LastIndexOf(head + code + "/" + query, "/") == Some(|head| + |code|)
  {
    var h := head + code + "/" + query;
    var b := |head| + |code|;
    assert h[b] == '/';
    assert h[b + 1..] == query;
    assert '/' !in query by {
      forall i | 0 <= i < |query| ensures query[i] != '/' {
        assert query[i] == (code + query)[|code| + i];
      }
    }
    LastCharAt(h, '/', b);
  }

  // ---------------------------------------------------------------------
  // The page scan of addPostsCodes

  /** How the scan of one page ended: at an unreadable item, at the stored
      watermark, or at the end of the page. */
  datatype ScanEnd = Unreadable(at: nat) | Reached(at: nat) | Exhausted

  datatype Scan = Scan(catalog: Catalog, newLast: Option<string>, end: ScanEnd)

  /** The items a scan handed to addSinglePost: up to and including the
      item that reached the watermark. */
  function Scanned(end: ScanEnd, n: nat): nat {
    match end
    case Unreadable(at) => at
    case Reached(at) => at + 1
    case Exhausted => n
  }

  /** The item that sets the watermark on the first page: the first tagged
      post, or the fourth post (the first that cannot be pinned). */
  predicate Marks(firstPage: bool, isTag: bool, i: nat) {
    firstPage && (if isTag then i == 0 else i == 3)
  }

  /** Whether meeting the stored watermark at item `i` ends the crawl: on the
      first page of normal posts the first three items may be pinned. */
  predicate MayStop(firstPage: bool, isTag: bool, i: nat) {
    !firstPage || isTag || i > 2
  }

  /** Where the scan of a page stops, from item `i` on: at the first
      unreadable item, or at the first item that meets the stored watermark
      where it may stop, or at the end. It depends on the codes only. */
  function ScanStop(isTag: bool, firstPage: bool, codes: seq<Option<string>>, i: nat, last: Option<string>): (r: ScanEnd)
    requires i <= |codes|
    decreases |codes| - i
    ensures i <= Scanned(r, |codes|) <= |codes|
    ensures !r.Exhausted? ==> r.at < |codes|
    ensures r.Unreadable? ==> codes[r.at].None?
    ensures r.Reached? ==> codes[r.at].Some? && codes[r.at] == last && MayStop(firstPage, isTag, r.at)
    ensures forall j :: i <= j < Scanned(r, |codes|) ==> codes[j].Some?
    ensures forall j :: i <= j < Scanned(r, |codes|) && (r.Reached? ==> j < r.at) ==>
              !(MayStop(firstPage, isTag, j) && codes[j] == last)
  {
    if i == |codes| then Exhausted
    else
      match codes[i]
      case None => Unreadable(i)
      case Some(x) =>
        if MayStop(firstPage, isTag, i) && last == Some(x) then Reached(i)
        else ScanStop(isTag, firstPage, codes, i + 1, last)
  }

  /** The inner loop over a page's items, from item `i` on. */
  function ScanPage(c: Catalog, pk: nat, isTag: bool, firstPage: bool, codes: seq<Option<string>>, i: nat,
                    last: Option<string>, newLast: Option<string>, faulty: set<PostKey>): (r: Scan)
    requires i <= |codes|
    decreases |codes| - i
    ensures r.end == ScanStop(isTag, firstPage, codes, i, last)
    ensures r.newLast == newLast || r.newLast.Some?
    ensures c.posts.Keys <= r.catalog.posts.Keys && forall k :: k in c.posts ==> r.catalog.posts[k] == c.posts[k]
    ensures r.catalog.profiles == c.profiles && r.catalog.highlights == c.highlights && r.catalog.stories == c.stories
    ensures r.catalog.profileHistory == c.profileHistory && r.catalog.coverHistory == c.coverHistory
    ensures Consistent(c) ==> Consistent(r.catalog)
  {
    if i == |codes| then Scan(c, newLast, Exhausted)
    else
      match codes[i]
      case None => Scan(c, newLast, Unreadable(i))
      case Some(x) =>
        var step := AddSinglePost(c, PostKey(pk, x, isTag), faulty);
        var nl := if !step.0 || Marks(firstPage, isTag, i) then Some(x) else newLast;
        if MayStop(firstPage, isTag, i) && last == Some(x) then Scan(step.1, nl, Reached(i))
        else ScanPage(step.1, pk, isTag, firstPage, codes, i + 1, last, nl, faulty)
  }

  /** One step of the scan past an item that does not stop it. */
  lemma ScanPageStep(c: Catalog, pk: nat, isTag: bool, firstPage: bool, codes: seq<Option<string>>,
                     i: nat, last: Option<string>, newLast: Option<string>, faulty: set<PostKey>)
    requires i < |codes| && codes[i].Some? && !(MayStop(firstPage, isTag, i) && last == codes[i])
    ensures var step := AddSinglePost(c, PostKey(pk, codes[i].value, isTag), faulty);
            ScanPage(c, pk, isTag, firstPage, codes, i, last, newLast, faulty)
            == ScanPage(step.1, pk, isTag, firstPage, codes, i + 1, last,
                        if !step.0 || Marks(firstPage, isTag, i) then codes[i] else newLast, faulty)
  {
  }

  /** Each scanned item whose insert could succeed is in the catalog after
      the scan. */
  lemma {:induction false} ScanInserted(c: Catalog, pk: nat, isTag: bool, firstPage: bool, codes: seq<Option<string>>,
                                        i: nat, last: Option<string>, newLast: Option<string>, faulty: set<PostKey>, j: nat)
    requires i <= j < |codes| && j < Scanned(ScanStop(isTag, firstPage, codes, i, last), |codes|)
    requires pk in c.profiles && PostKey(pk, codes[j].value, isTag) !in faulty
    decreases j - i
    ensures PostKey(pk, codes[j].value, isTag) in ScanPage(c, pk, isTag, firstPage, codes, i, last, newLast, faulty).catalog.posts
  {
    var x := codes[i].value;
    var step := AddSinglePost(c, PostKey(pk, x, isTag), faulty);
    var nl := if !step.0 || Marks(firstPage, isTag, i) then Some(x) else newLast;
    if MayStop(firstPage, isTag, i) && last == Some(x) {
      assert ScanPage(c, pk, isTag, firstPage, codes, i, last, newLast, faulty).catalog == step.1;
    } else {
      ScanPageStep(c, pk, isTag, firstPage, codes, i, last, newLast, faulty);
      if i < j {
        ScanInserted(step.1, pk, isTag, firstPage, codes, i + 1, last, nl, faulty, j);
      }
    }
  }

  /** Whether addSinglePost fails for `key`, judged on the catalog the crawl
      started from: the key is faulty, or it is new and its profile missing. */
  predicate Fails(c0: Catalog, key: PostKey, faulty: set<PostKey>) {
    key in faulty || (key !in c0.posts && key.pk !in c0.profiles)
  }

  /** Item `j` assigns the new watermark: its insert failed, or it is the
      marking item. */
  predicate Assigns(c0: Catalog, pk: nat, isTag: bool, firstPage: bool, codes: seq<Option<string>>, j: nat, faulty: set<PostKey>) {
    j < |codes| && codes[j].Some?
    && (Fails(c0, PostKey(pk, codes[j].value, isTag), faulty) || Marks(firstPage, isTag, j))
  }

  /** The catalog `c` grew from `c0` by crawl inserts only. */
  predicate GrownFrom(c0: Catalog, c: Catalog) {
    && c.profiles == c0.profiles
    && c0.posts.Keys <= c.posts.Keys
    && (forall k :: k in c.posts && k !in c0.posts ==> k.pk in c0.profiles)
  }

  /** The reference reading of the watermark rule: the code of the last
      item in `[lo, hi)` that assigns it, or `init` when none does. */
  function LastAssigned(c0: Catalog, pk: nat, isTag: bool, firstPage: bool, codes: seq<Option<string>>,
                        lo: nat, hi: nat, init: Option<string>, faulty: set<PostKey>): Option<string>
    decreases hi
  {
    if hi <= lo then init
    else if Assigns(c0, pk, isTag, firstPage, codes, hi - 1, faulty) then codes[hi - 1]
    else LastAssigned(c0, pk, isTag, firstPage, codes, lo, hi - 1, init, faulty)
  }

  /** `LastAssigned` is the last assigning item's code, or `init`. */
  lemma {:induction false} LastAssignedMeaning(c0: Catalog, pk: nat, isTag: bool, firstPage: bool, codes: seq<Option<string>>,
                                               lo: nat, hi: nat, init: Option<string>, faulty: set<PostKey>)
    decreases hi
    ensures var r := LastAssigned(c0, pk, isTag, firstPage, codes, lo, hi, init, faulty);
            (r == init && forall j :: lo <= j < hi ==> !Assigns(c0, pk, isTag, firstPage, codes, j, faulty))
            || (exists j :: lo <= j < hi && Assigns(c0, pk, isTag, firstPage, codes, j, faulty) && r == codes[j]
                 && forall j' :: j < j' < hi ==> !Assigns(c0, pk, isTag, firstPage, codes, j', faulty))
  {
    if hi > lo && !Assigns(c0, pk, isTag, firstPage, codes, hi - 1, faulty) {
      LastAssignedMeaning(c0, pk, isTag, firstPage, codes, lo, hi - 1, init, faulty);
    }
  }

  /** Peeling the first item off the range folds it into `init`. */
  lemma {:induction false} LastAssignedPeel(c0: Catalog, pk: nat, isTag: bool, firstPage: bool, codes: seq<Option<string>>,
                                            lo: nat, hi: nat, init: Option<string>, faulty: set<PostKey>)
    requires lo < hi
    decreases hi
    ensures LastAssigned(c0, pk, isTag, firstPage, codes, lo, hi, init, faulty)
         == LastAssigned(c0, pk, isTag, firstPage, codes, lo + 1, hi,
                         if Assigns(c0, pk, isTag, firstPage, codes, lo, faulty) then codes[lo] else init, faulty)
  {
    if lo + 1 < hi && !Assigns(c0, pk, isTag, firstPage, codes, hi - 1, faulty) {
      LastAssignedPeel(c0, pk, isTag, firstPage, codes, lo, hi - 1, init, faulty);
    }
  }

  /** One addSinglePost of a crawl fails exactly as `Fails` predicts. */
  lemma CrawlStep(c0: Catalog, c: Catalog, key: PostKey, faulty: set<PostKey>)
    requires GrownFrom(c0, c)
    ensures AddSinglePost(c, key, faulty).0 == !Fails(c0, key, faulty)
    ensures GrownFrom(c0, AddSinglePost(c, key, faulty).1)
  {
  }

  /** The watermark after one scanned item is what `Assigns` predicts, and
      the catalog still grew by crawl inserts only. */
  lemma AssignsStep(c0: Catalog, c: Catalog, pk: nat, isTag: bool, firstPage: bool, codes: seq<Option<string>>,
                    i: nat, newLast: Option<string>, faulty: set<PostKey>)
    requires i < |codes| && codes[i].Some? && GrownFrom(c0, c)
    ensures var step := AddSinglePost(c, PostKey(pk, codes[i].value, isTag), faulty);
            && (if !step.0 || Marks(firstPage, isTag, i) then codes[i] else newLast)
               == (if Assigns(c0, pk, isTag, firstPage, codes, i, faulty) then codes[i] else newLast)
            && GrownFrom(c0, step.1)
  {
    CrawlStep(c0, c, PostKey(pk, codes[i].value, isTag), faulty);
  }

  /** The new watermark a page scan leaves is the code of the last scanned
      item that assigned it (failed insert or marking item), or the value it
      came in with when none did. */
  lemma {:induction false} ScanWatermark(c0: Catalog, c: Catalog, pk: nat, isTag: bool, firstPage: bool,
                                         codes: seq<Option<string>>, i: nat, last: Option<string>,
                                         newLast: Option<string>, faulty: set<PostKey>)
    requires i <= |codes| && GrownFrom(c0, c)
    decreases |codes| - i
    ensures var r := ScanPage(c, pk, isTag, firstPage, codes, i, last, newLast, faulty);
            r.newLast == LastAssigned(c0, pk, isTag, firstPage, codes, i, Scanned(r.end, |codes|), newLast, faulty)
  {
    if i < |codes| && codes[i].Some? {
      var x := codes[i].value;
      var step := AddSinglePost(c, PostKey(pk, x, isTag), faulty);
      var nl := if !step.0 || Marks(firstPage, isTag, i) then Some(x) else newLast;
      AssignsStep(c0, c, pk, isTag, firstPage, codes, i, newLast, faulty);
      var r := ScanPage(c, pk, isTag, firstPage, codes, i, last, newLast, faulty);
      if MayStop(firstPage, isTag, i) && last == Some(x) {
        ScanWatermarkReached(c0, c, pk, isTag, firstPage, codes, i, last, newLast, faulty);
      } else {
        ScanPageStep(c, pk, isTag, firstPage, codes, i, last, newLast, faulty);
        ScanWatermark(c0, step.1, pk, isTag, firstPage, codes, i + 1, last, nl, faulty);
        LastAssignedPeel(c0, pk, isTag, firstPage, codes, i, Scanned(r.end, |codes|), newLast, faulty);
      }
    }
  }

  /** The scan's watermark where it stops on the stored one at item `i`. */
  lemma ScanWatermarkReached(c0: Catalog, c: Catalog, pk: nat, isTag: bool, firstPage: bool,
                             codes: seq<Option<string>>, i: nat, last: Option<string>,
                             newLast: Option<string>, faulty: set<PostKey>)
    requires i < |codes| && codes[i].Some? && GrownFrom(c0, c)
    requires MayStop(firstPage, isTag, i) && last == codes[i]
    ensures var r := ScanPage(c, pk, isTag, firstPage, codes, i, last, newLast, faulty);
            r.newLast == LastAssigned(c0, pk, isTag, firstPage, codes, i, Scanned(r.end, |codes|), newLast, faulty)
  {
    var x := codes[i].value;
    var step := AddSinglePost(c, PostKey(pk, x, isTag), faulty);
    var nl := if !step.0 || Marks(firstPage, isTag, i) then Some(x) else newLast;
    AssignsStep(c0, c, pk, isTag, firstPage, codes, i, newLast, faulty);
    var r := ScanPage(c, pk, isTag, firstPage, codes, i, last, newLast, faulty);
    assert r.newLast == nl && r.end == Reached(i);
    LastAssignedPeel(c0, pk, isTag, firstPage, codes, i, i + 1, newLast, faulty);
  }

  // ---------------------------------------------------------------------
  // addPostsCodes

  /** The first page as parsed: its items, and whether it carried a
      load-more cursor. */
  datatype FirstPage = FirstPage(codes: seq<Option<string>>, hasCursor: bool)

  /** A cursor page: its items and `hasNext`. */
  datatype Page = Page(codes: seq<Option<string>>, hasNext: bool)

  /** The crawl's verdict, the catalog after it, and the watermark written
      (`None` when no UPDATE took effect). */
  datatype Crawl = Crawl(ok: bool, catalog: Catalog, written: Option<string>)

  /** last_post_code or last_tagged_post_code. */
  function Watermark(p: Profile, isTag: bool): Option<string> {
    if isTag then p.lastTaggedPostCode else p.lastPostCode
  }

  /** `UPDATE Profile SET <watermark> = code WHERE username = ...`. */
  function SetWatermark(c: Catalog, username: string, isTag: bool, code: string): (r: Catalog)
    ensures r.profiles.Keys == c.profiles.Keys && r.(profiles := c.profiles) == c
    ensures forall p :: p in c.profiles && c.profiles[p].username == username ==>
              Watermark(r.profiles[p], isTag) == Some(code) && Watermark(r.profiles[p], !isTag) == Watermark(c.profiles[p], !isTag)
              && r.profiles[p].username == username && r.profiles[p].profileId == c.profiles[p].profileId
    ensures forall p :: p in c.profiles && c.profiles[p].username != username ==> r.profiles[p] == c.profiles[p]
    ensures Consistent(c) ==> Consistent(r)
    ensures UniqueUsernames(c) ==> UniqueUsernames(r)
  {
    c.(profiles := map p | p in c.profiles ::
         if c.profiles[p].username != username then c.profiles[p]
         else if isTag then c.profiles[p].(lastTaggedPostCode := Some(code))
         else c.profiles[p].(lastPostCode := Some(code)))
  }

  /** The closing UPDATE, run only when the watermark moved; a failing one
      is rolled back and the crawl still reports success. */
  function Settle(c: Catalog, username: string, isTag: bool, last: Option<string>, newLast: Option<string>,
                  writeOk: bool): (r: Crawl)
    ensures r.written.Some? ==> r.written == newLast && newLast != last
                                && r.catalog == SetWatermark(c, username, isTag, r.written.value)
    ensures r.written.None? ==> r.catalog == c
    ensures r.written.Some? <==> newLast.Some? && newLast != last && writeOk
    ensures r.ok
  {
    match newLast
    case Some(code) =>
      if newLast != last && writeOk then Crawl(true, SetWatermark(c, username, isTag, code), newLast)
      else Crawl(true, c, None)
    case None => Crawl(true, c, None)
  }

  /** The `while True` loop over cursor pages, from page `k`. Pages past
      the end of `pages`, and `None` ones, are failed fetches: the loop
      stops and nothing is written. */
  function FollowPages(c: Catalog, pk: nat, username: string, isTag: bool, pages: seq<Option<Page>>, k: nat,
                       last: Option<string>, newLast: Option<string>, faulty: set<PostKey>, writeOk: bool): (r: Crawl)
    requires k <= |pages|
    decreases |pages| - k
    ensures r.written.Some? ==> r.written != last
    ensures c.posts.Keys <= r.catalog.posts.Keys && forall q :: q in c.posts ==> r.catalog.posts[q] == c.posts[q]
    ensures r.written.None? ==> r.catalog.profiles == c.profiles
    ensures r.catalog.profiles.Keys == c.profiles.Keys
    ensures r.written.Some? ==> forall p :: p in c.profiles && c.profiles[p].username == username ==>
              Watermark(r.catalog.profiles[p], isTag) == r.written
    ensures r.catalog.(posts := c.posts, profiles := c.profiles) == c
    ensures Consistent(c) ==> Consistent(r.catalog)
  {
    if k == |pages| || pages[k].None? then Crawl(true, c, None)
    else
      var page := pages[k].value;
      var s := ScanPage(c, pk, isTag, false, page.codes, 0, last, newLast, faulty);
      match s.end
      case Unreadable(_) => Crawl(false, s.catalog, None)
      case Reached(_) => Settle(s.catalog, username, isTag, last, s.newLast, writeOk)
      case Exhausted =>
        if page.hasNext then FollowPages(s.catalog, pk, username, isTag, pages, k + 1, last, s.newLast, faulty, writeOk)
        else Settle(s.catalog, username, isTag, last, s.newLast, writeOk)
  }

  /** addPostsCodes. `first` is the parsed first page (`None` when it could
      not be fetched); `pages` the cursor pages in order; `writeOk` whether
      the watermark UPDATE goes through. */
  ghost function AddPostsCodes(c: Catalog, pk: nat, username: string, isTag: bool, first: Option<FirstPage>,
                               pages: seq<Option<Page>>, faulty: set<PostKey>, writeOk: bool): (r: Crawl)
    ensures first.None? || PkOfUsername(c, username).None? ==> r == Crawl(false, c, None)
    ensures r.catalog.profiles.Keys == c.profiles.Keys
    ensures r.written.Some? ==> var owner := PkOfUsername(c, username).value;
                                && r.written != Watermark(c.profiles[owner], isTag)
                                && Watermark(r.catalog.profiles[owner], isTag) == r.written
    ensures r.written.None? ==> r.catalog.profiles == c.profiles
    ensures c.posts.Keys <= r.catalog.posts.Keys && forall q :: q in c.posts ==> r.catalog.posts[q] == c.posts[q]
    ensures r.catalog.(posts := c.posts, profiles := c.profiles) == c
    ensures Consistent(c) ==> Consistent(r.catalog)
  {
    match first
    case None => Crawl(false, c, None)
    case Some(fp) =>
      match PkOfUsername(c, username)
      case None => Crawl(false, c, None)
      case Some(owner) =>
        var last := Watermark(c.profiles[owner], isTag);
        var s := ScanPage(c, pk, isTag, true, fp.codes, 0, last, last, faulty);
        match s.end
        case Unreadable(_) => Crawl(false, s.catalog, None)
        case Reached(_) => Settle(s.catalog, username, isTag, last, s.newLast, writeOk)
        case Exhausted =>
          if !fp.hasCursor then
            if s.newLast == last then Crawl(true, s.catalog, None)
            else if writeOk then Crawl(true, SetWatermark(s.catalog, username, isTag, s.newLast.value), s.newLast)
            else Crawl(false, s.catalog, None)
          else FollowPages(s.catalog, pk, username, isTag, pages, 0, last, s.newLast, faulty, writeOk)
  }

  // ---------------------------------------------------------------------
  // The crawl, read without the catalog

  /** The cursor page the `while True` loop stops on, from page `k`: the
      first whose fetch fails, or whose scan does not run off its end, or
      that has no next page; `|pages|` when the pages run out, which is a
      failed fetch too. It depends on the codes only. */
  function StopPage(isTag: bool, pages: seq<Option<Page>>, k: nat, last: Option<string>): (r: nat)
    requires k <= |pages|
    decreases |pages| - k
    ensures k <= r <= |pages|
    ensures forall j :: k <= j < r ==>
              pages[j].Some? && pages[j].value.hasNext && ScanStop(isTag, false, pages[j].value.codes, 0, last).Exhausted?
    ensures r < |pages| ==>
              pages[r].None? || !pages[r].value.hasNext || !ScanStop(isTag, false, pages[r].value.codes, 0, last).Exhausted?
  {
    if k == |pages| || pages[k].None? then k
    else if pages[k].value.hasNext && ScanStop(isTag, false, pages[k].value.codes, 0, last).Exhausted? then
      StopPage(isTag, pages, k + 1, last)
    else k
  }

  /** The reference watermark of the cursor pages from `k`: the page-wise
      `LastAssigned` over the items each page scans, carried from page to
      page up to the stop page. */
  function CrawlMark(c0: Catalog, pk: nat, isTag: bool, pages: seq<Option<Page>>, k: nat, last: Option<string>,
                     init: Option<string>, faulty: set<PostKey>): Option<string>
    requires k <= |pages|
    decreases |pages| - k
  {
    if k == |pages| || pages[k].None? then init
    else
      var codes := pages[k].value.codes;
      var end := ScanStop(isTag, false, codes, 0, last);
      var m := LastAssigned(c0, pk, isTag, false, codes, 0, Scanned(end, |codes|), init, faulty);
      if pages[k].value.hasNext && end.Exhausted? then CrawlMark(c0, pk, isTag, pages, k + 1, last, m, faulty)
      else m
  }

  /** A page scan keeps the catalog grown by crawl inserts only. */
  lemma {:induction false} ScanGrown(c0: Catalog, c: Catalog, pk: nat, isTag: bool, firstPage: bool,
                                     codes: seq<Option<string>>, i: nat, last: Option<string>,
                                     newLast: Option<string>, faulty: set<PostKey>)
    requires i <= |codes| && GrownFrom(c0, c)
    decreases |codes| - i
    ensures GrownFrom(c0, ScanPage(c, pk, isTag, firstPage, codes, i, last, newLast, faulty).catalog)
  {
    if i < |codes| && codes[i].Some? {
      var x := codes[i].value;
      var step := AddSinglePost(c, PostKey(pk, x, isTag), faulty);
      CrawlStep(c0, c, PostKey(pk, x, isTag), faulty);
      if !(MayStop(firstPage, isTag, i) && last == Some(x)) {
        var nl := if !step.0 || Marks(firstPage, isTag, i) then Some(x) else newLast;
        ScanPageStep(c, pk, isTag, firstPage, codes, i, last, newLast, faulty);
        ScanGrown(c0, step.1, pk, isTag, firstPage, codes, i + 1, last, nl, faulty);
      }
    }
  }

  /** One page of the cursor loop. */
  lemma FollowPagesStep(c: Catalog, pk: nat, username: string, isTag: bool, pages: seq<Option<Page>>, k: nat,
                        last: Option<string>, newLast: Option<string>, faulty: set<PostKey>, writeOk: bool)
    requires k < |pages| && pages[k].Some?
    ensures var s := ScanPage(c, pk, isTag, false, pages[k].value.codes, 0, last, newLast, faulty);
            FollowPages(c, pk, username, isTag, pages, k, last, newLast, faulty, writeOk)
            == if s.end.Unreadable? then Crawl(false, s.catalog, None)
               else if s.end.Exhausted? && pages[k].value.hasNext then
                 FollowPages(s.catalog, pk, username, isTag, pages, k + 1, last, s.newLast, faulty, writeOk)
               else Settle(s.catalog, username, isTag, last, s.newLast, writeOk)
  {
  }

  /** A crawl result `r` fails exactly on an unreadable item, and writes
      `mark` exactly when the stop page was fetched and read, the UPDATE
      goes through, and `mark` moved from `last`. */
  predicate Concludes(r: Crawl, fetched: bool, unreadable: bool, writeOk: bool, mark: Option<string>, last: Option<string>) {
    && (r.ok <==> !unreadable)
    && (r.written.Some? <==> fetched && !unreadable && writeOk && mark.Some? && mark != last)
    && (r.written.Some? ==> r.written == mark)
  }

  /** The cursor loop's outcome: it fails exactly when its stop page was
      fetched and holds an unreadable item before the watermark; it writes
      exactly when the stop page was fetched and read, the UPDATE goes
      through, and the reference watermark moved; and what it writes is
      the reference watermark. */
  lemma {:induction false} FollowPagesMeaning(c0: Catalog, c: Catalog, pk: nat, username: string, isTag: bool,
                                              pages: seq<Option<Page>>, k: nat, last: Option<string>,
                                              newLast: Option<string>, faulty: set<PostKey>, writeOk: bool)
    requires k <= |pages| && GrownFrom(c0, c)
    decreases |pages| - k, 1
    ensures var j := StopPage(isTag, pages, k, last);
            var fetched := j < |pages| && pages[j].Some?;
            Concludes(FollowPages(c, pk, username, isTag, pages, k, last, newLast, faulty, writeOk),
                      fetched, fetched && ScanStop(isTag, false, pages[j].value.codes, 0, last).Unreadable?,
                      writeOk, CrawlMark(c0, pk, isTag, pages, k, last, newLast, faulty), last)
  {
    if k < |pages| && pages[k].Some? {
      var page := pages[k].value;
      if page.hasNext && ScanStop(isTag, false, page.codes, 0, last).Exhausted? {
        FollowPagesOn(c0, c, pk, username, isTag, pages, k, last, newLast, faulty, writeOk);
      } else {
        FollowPagesLast(c0, c, pk, username, isTag, pages, k, last, newLast, faulty, writeOk);
      }
    }
  }

  /** The cursor loop past a page it runs off and that has a next page. */
  lemma {:induction false} FollowPagesOn(c0: Catalog, c: Catalog, pk: nat, username: string, isTag: bool,
                                         pages: seq<Option<Page>>, k: nat, last: Option<string>,
                                         newLast: Option<string>, faulty: set<PostKey>, writeOk: bool)
    requires k < |pages| && pages[k].Some? && GrownFrom(c0, c)
    requires pages[k].value.hasNext && ScanStop(isTag, false, pages[k].value.codes, 0, last).Exhausted?
    decreases |pages| - k, 0
    ensures var j := StopPage(isTag, pages, k, last);
            var fetched := j < |pages| && pages[j].Some?;
            Concludes(FollowPages(c, pk, username, isTag, pages, k, last, newLast, faulty, writeOk),
                      fetched, fetched && ScanStop(isTag, false, pages[j].value.codes, 0, last).Unreadable?,
                      writeOk, CrawlMark(c0, pk, isTag, pages, k, last, newLast, faulty), last)
  {
    var page := pages[k].value;
    var s := ScanPage(c, pk, isTag, false, page.codes, 0, last, newLast, faulty);
    FollowPagesStep(c, pk, username, isTag, pages, k, last, newLast, faulty, writeOk);
    ScanWatermark(c0, c, pk, isTag, false, page.codes, 0, last, newLast, faulty);
    ScanGrown(c0, c, pk, isTag, false, page.codes, 0, last, newLast, faulty);
    FollowPagesMeaning(c0, s.catalog, pk, username, isTag, pages, k + 1, last, s.newLast, faulty, writeOk);
  }

  /** The cursor loop on its stop page. */
  lemma FollowPagesLast(c0: Catalog, c: Catalog, pk: nat, username: string, isTag: bool,
                        pages: seq<Option<Page>>, k: nat, last: Option<string>,
                        newLast: Option<string>, faulty: set<PostKey>, writeOk: bool)
    requires k < |pages| && pages[k].Some? && GrownFrom(c0, c)
    requires !(pages[k].value.hasNext && ScanStop(isTag, false, pages[k].value.codes, 0, last).Exhausted?)
    ensures StopPage(isTag, pages, k, last) == k
    ensures var codes := pages[k].value.codes;
            var end := ScanStop(isTag, false, codes, 0, last);
            CrawlMark(c0, pk, isTag, pages, k, last, newLast, faulty)
              == LastAssigned(c0, pk, isTag, false, codes, 0, Scanned(end, |codes|), newLast, faulty)
            && Concludes(FollowPages(c, pk, username, isTag, pages, k, last, newLast, faulty, writeOk),
                         true, end.Unreadable?, writeOk, CrawlMark(c0, pk, isTag, pages, k, last, newLast, faulty), last)
  {
    var page := pages[k].value;
    FollowPagesStep(c, pk, username, isTag, pages, k, last, newLast, faulty, writeOk);
    ScanWatermark(c0, c, pk, isTag, false, page.codes, 0, last, newLast, faulty);
  }

  /** The watermark the first page's scan leaves, by the reference rule. */
  function FirstMark(c0: Catalog, pk: nat, isTag: bool, codes: seq<Option<string>>, last: Option<string>,
                     faulty: set<PostKey>): Option<string> {
    LastAssigned(c0, pk, isTag, true, codes, 0, Scanned(ScanStop(isTag, true, codes, 0, last), |codes|), last, faulty)
  }

  /** addPostsCodes for a known profile, by how its first page ends: an
      unreadable item fails with nothing written; reaching the watermark
      succeeds and writes the reference watermark when it moved and the
      UPDATE goes through; running off a page with no cursor does the same,
      but a failing UPDATE there fails the crawl; with a cursor, the cursor
      loop decides, carrying the first page's watermark. */
  lemma CrawlOutcome(c: Catalog, pk: nat, username: string, isTag: bool, fp: FirstPage, pages: seq<Option<Page>>,
                     faulty: set<PostKey>, writeOk: bool, owner: nat, last: Option<string>)
    requires PkOfUsername(c, username) == Some(owner) && last == Watermark(c.profiles[owner], isTag)
    ensures var r := AddPostsCodes(c, pk, username, isTag, Some(fp), pages, faulty, writeOk);
            var end := ScanStop(isTag, true, fp.codes, 0, last);
            var m := FirstMark(c, pk, isTag, fp.codes, last, faulty);
            && (end.Unreadable? ==> !r.ok && r.written.None?)
            && (end.Reached? ==> r.ok && (r.written.Some? <==> writeOk && m.Some? && m != last))
            && (end.Exhausted? && !fp.hasCursor ==>
                  (r.ok <==> m == last || writeOk) && (r.written.Some? <==> writeOk && m != last))
            && (!end.Exhausted? || !fp.hasCursor ==> r.written.Some? ==> r.written == m)
    ensures var r := AddPostsCodes(c, pk, username, isTag, Some(fp), pages, faulty, writeOk);
            var end := ScanStop(isTag, true, fp.codes, 0, last);
            var m := FirstMark(c, pk, isTag, fp.codes, last, faulty);
            var j := StopPage(isTag, pages, 0, last);
            var fetched := j < |pages| && pages[j].Some?;
            end.Exhausted? && fp.hasCursor ==>
              Concludes(r, fetched, fetched && ScanStop(isTag, false, pages[j].value.codes, 0, last).Unreadable?,
                        writeOk, CrawlMark(c, pk, isTag, pages, 0, last, m, faulty), last)
  {
    var s := ScanPage(c, pk, isTag, true, fp.codes, 0, last, last, faulty);
    ScanWatermark(c, c, pk, isTag, true, fp.codes, 0, last, last, faulty);
    assert s.newLast == FirstMark(c, pk, isTag, fp.codes, last, faulty);
    if s.end.Exhausted? && fp.hasCursor {
      ScanGrown(c, c, pk, isTag, true, fp.codes, 0, last, last, faulty);
      FollowPagesMeaning(c, s.catalog, pk, username, isTag, pages, 0, last, s.newLast, faulty, writeOk);
    }
  }

  /** Every item of the first page that the scan reaches is stored after the
      crawl, unless its insert is made to fail. */
  lemma CrawlKeepsFirstPage(c: Catalog, pk: nat, username: string, isTag: bool, fp: FirstPage, pages: seq<Option<Page>>,
                            faulty: set<PostKey>, writeOk: bool, owner: nat, last: Option<string>, j: nat)
    requires PkOfUsername(c, username) == Some(owner) && last == Watermark(c.profiles[owner], isTag)
    requires j < Scanned(ScanStop(isTag, true, fp.codes, 0, last), |fp.codes|)
    requires pk in c.profiles && PostKey(pk, fp.codes[j].value, isTag) !in faulty
    ensures PostKey(pk, fp.codes[j].value, isTag) in AddPostsCodes(c, pk, username, isTag, Some(fp), pages, faulty, writeOk).catalog.posts
  {
    var s := ScanPage(c, pk, isTag, true, fp.codes, 0, last, last, faulty);
    ScanInserted(c, pk, isTag, true, fp.codes, 0, last, last, faulty, j);
  }

  // ---------------------------------------------------------------------
  // Properties of the crawl

  /** The first page of the scenario below. */
  const ScenarioPage: seq<Option<string>> := [Some("p9"), Some("p8"), Some("p7"), Some("p6"), Some("p5"), Some("p4")]

  lemma ScenarioEnd(c: Catalog, pk: nat)
    ensures ScanPage(c, pk, false, true, ScenarioPage, 0, Some("p5"), Some("p5"), {}).end == Reached(4)
  {
    var codes := ScenarioPage;
    assert codes[4] == Some("p5") && MayStop(true, false, 4);
    assert forall j :: 0 <= j < 4 ==> codes[j].Some? && codes[j] != Some("p5");
    ScanStopsAt(false, true, codes, 0, Some("p5"), 4);
  }

  /** A scan over readable items stops at the first one that meets the
      stored watermark where it may stop. */
  lemma {:induction false} ScanStopsAt(isTag: bool, firstPage: bool, codes: seq<Option<string>>, i: nat,
                                       last: Option<string>, k: nat)
    requires i <= k < |codes| && codes[k].Some? && codes[k] == last && MayStop(firstPage, isTag, k)
    requires forall j :: i <= j < k ==> codes[j].Some? && !(MayStop(firstPage, isTag, j) && codes[j] == last)
    decreases k - i
    ensures ScanStop(isTag, firstPage, codes, i, last) == Reached(k)
  {
    if i < k {
      ScanStopsAt(isTag, firstPage, codes, i + 1, last, k);
    }
  }

  lemma ScenarioWatermark(c: Catalog, pk: nat)
    requires pk in c.profiles
    ensures ScanPage(c, pk, false, true, ScenarioPage, 0, Some("p5"), Some("p5"), {}).newLast == Some("p6")
  {
    var r := ScanPage(c, pk, false, true, ScenarioPage, 0, Some("p5"), Some("p5"), {});
    ScenarioEnd(c, pk);
    assert Scanned(r.end, |ScenarioPage|) == 5;
    ScanWatermark(c, c, pk, false, true, ScenarioPage, 0, Some("p5"), Some("p5"), {});
    ScenarioLastAssigned(c, pk);
  }

  /** In the scenario's first five items, the fourth is the last to assign
      the watermark. */
  lemma ScenarioLastAssigned(c: Catalog, pk: nat)
    requires pk in c.profiles
    ensures LastAssigned(c, pk, false, true, ScenarioPage, 0, 5, Some("p5"), {}) == Some("p6")
  {
    var codes := ScenarioPage;
    assert !Assigns(c, pk, false, true, codes, 4, {});
    assert Assigns(c, pk, false, true, codes, 3, {});
  }

  lemma ScenarioScan(c: Catalog, pk: nat)
    requires pk in c.profiles
    ensures var s := ScanPage(c, pk, false, true, ScenarioPage, 0, Some("p5"), Some("p5"), {});
            && s.end == Reached(4) && s.newLast == Some("p6")
            && PostKey(pk, "p9", false) in s.catalog.posts && PostKey(pk, "p5", false) in s.catalog.posts
  {
    ScenarioEnd(c, pk);
    ScenarioWatermark(c, pk);
    ScanInserted(c, pk, false, true, ScenarioPage, 0, Some("p5"), Some("p5"), {}, 0);
    ScanInserted(c, pk, false, true, ScenarioPage, 0, Some("p5"), Some("p5"), {}, 4);
    assert ScenarioPage[0].value == "p9" && ScenarioPage[4].value == "p5";
  }

  /** The first page of normal posts `p9 … p4` against stored watermark
      `p5`: the crawl stops at `p5`, and the fourth post `p6` becomes the new
      watermark. */
  lemma FirstPageScenario(c: Catalog, pk: nat, username: string)
    requires PkOfUsername(c, username) == Some(pk) && c.profiles[pk].lastPostCode == Some("p5")
    ensures var r := AddPostsCodes(c, pk, username, false, Some(FirstPage(ScenarioPage, true)), [], {}, true);
            && r.ok && r.written == Some("p6")
            && r.catalog.profiles[pk].lastPostCode == Some("p6")
            && PostKey(pk, "p9", false) in r.catalog.posts && PostKey(pk, "p5", false) in r.catalog.posts
  {
    ScenarioScan(c, pk);
  }

  /** A tagged crawl whose first item is the stored watermark stops there and
      writes nothing. */
  lemma TaggedStopsAtWatermark(c: Catalog, pk: nat, username: string, w: string, rest: seq<Option<string>>,
                               hasCursor: bool, pages: seq<Option<Page>>, faulty: set<PostKey>, writeOk: bool)
    requires PkOfUsername(c, username) == Some(pk) && c.profiles[pk].lastTaggedPostCode == Some(w)
    ensures var r := AddPostsCodes(c, pk, username, true, Some(FirstPage([Some(w)] + rest, hasCursor)), pages, faulty, writeOk);
            r.ok && r.written.None? && r.catalog.profiles == c.profiles
  {
    var codes := [Some(w)] + rest;
    var s := ScanPage(c, pk, true, true, codes, 0, Some(w), Some(w), faulty);
    assert s.end == Reached(0) && s.newLast == Some(w);
  }

  /** On the first page of normal posts, meeting the watermark among the
      first three items does not stop the crawl: with no later match and
      every item readable, the whole page is scanned. */
  lemma PinnedMatchIgnored(c: Catalog, pk: nat, codes: seq<Option<string>>, last: Option<string>, faulty: set<PostKey>)
    requires forall j :: 0 <= j < |codes| ==> codes[j].Some?
    requires forall j :: 3 <= j < |codes| ==> codes[j] != last
    ensures ScanPage(c, pk, false, true, codes, 0, last, last, faulty).end == Exhausted
  {
    ScanToEnd(false, true, codes, 0, last);
  }

  /** A scan over readable items none of which may stop it runs to the end
      of the page. */
  lemma {:induction false} ScanToEnd(isTag: bool, firstPage: bool, codes: seq<Option<string>>, i: nat, last: Option<string>)
    requires i <= |codes|
    requires forall j :: i <= j < |codes| ==> codes[j].Some? && !(MayStop(firstPage, isTag, j) && codes[j] == last)
    decreases |codes| - i
    ensures ScanStop(isTag, firstPage, codes, i, last) == Exhausted
  {
    if i < |codes| {
      ScanToEnd(isTag, firstPage, codes, i + 1, last);
    }
  }

  /** A cursor page that cannot be fetched ends the crawl with success but no
      watermark write; the placeholders of the first page stay. */
  lemma FetchFailureKeepsPlaceholders(c: Catalog, pk: nat, username: string, isTag: bool, codes: seq<Option<string>>,
                                      faulty: set<PostKey>, writeOk: bool)
    requires PkOfUsername(c, username) == Some(pk)
    requires forall j :: 0 <= j < |codes| ==> codes[j].Some? && codes[j] != Watermark(c.profiles[pk], isTag)
    ensures var r := AddPostsCodes(c, pk, username, isTag, Some(FirstPage(codes, true)), [None], faulty, writeOk);
            && r.ok && r.written.None? && r.catalog.profiles == c.profiles
            && forall j :: 0 <= j < |codes| && PostKey(pk, codes[j].value, isTag) !in faulty ==>
                 PostKey(pk, codes[j].value, isTag) in r.catalog.posts
  {
    var last := Watermark(c.profiles[pk], isTag);
    var s := ScanPage(c, pk, isTag, true, codes, 0, last, last, faulty);
    ScanToEnd(isTag, true, codes, 0, last);
    forall j | 0 <= j < |codes| && PostKey(pk, codes[j].value, isTag) !in faulty
      ensures PostKey(pk, codes[j].value, isTag) in s.catalog.posts
    {
      ScanInserted(c, pk, isTag, true, codes, 0, last, last, faulty, j);
    }
  }

  // ---------------------------------------------------------------------
  // downloadSinglePost

  /** One media item of a post page: its address and whether it is a video. */
  datatype PostMedia = PostMedia(link: string, isVideo: bool)

  /** getSinglePostData's result. */
  datatype PostData = PostData(caption: Option<string>, timestamp: int, media: seq<PostMedia>)

  /** Every one of the first `n` items was saved. */
  predicate AllSaved(saved: seq<bool>, n: nat) {
    n <= |saved| && forall i :: 0 <= i < n ==> saved[i]
  }

  /** The per-item loop: item `i` is saved (downloaded and thumbnailed) when
      `saved[i]`; the loop gives up at the first item that is not. */
  method SaveMedia(saved: seq<bool>, n: nat) returns (ok: bool, tried: nat)
    ensures tried <= n
    ensures ok <==> AllSaved(saved, n)
    ensures ok ==> tried == n
    ensures !ok ==> 1 <= tried && !(tried - 1 < |saved| && saved[tried - 1]) && AllSaved(saved, tried - 1)
  {
    ok := true;
    tried := 0;
    while tried < n
      invariant tried <= n
      invariant AllSaved(saved, tried)
    {
      tried := tried + 1;
      if !(tried - 1 < |saved| && saved[tried - 1]) {
        ok := false;
        return;
      }
    }
  }

  /** The columns a downloaded post gets: its item count, its caption
      (NULL when missing or empty) and its timestamp. */
  function Completed(d: PostData): (p: Post)
    ensures !p.IsPlaceholder()
    ensures p.numberOfItems == Some(|d.media|) && p.timestamp == Some(d.timestamp)
    ensures p.caption.None? <==> d.caption.None? || d.caption == Some("")
  {
    Post(Some(|d.media|), if d.caption == Some("") then None else d.caption, Some(d.timestamp))
  }

  /** downloadSinglePost. The UPDATE matches on code and tag flag only, so it
      completes that post's row under every profile that has one. */
  function DownloadSinglePost(c: Catalog, code: string, isTag: bool, fetched: Option<PostData>,
                              saved: seq<bool>, updateOk: bool): (r: (bool, Catalog))
    ensures r.0 <==> fetched.Some? && updateOk && AllSaved(saved, |fetched.value.media|)
    ensures !r.0 ==> r.1 == c
    ensures r.0 ==> r.1.posts.Keys == c.posts.Keys
                    && forall k :: k in c.posts ==>
                         r.1.posts[k] == (if k.code == code && k.isTag == isTag then Completed(fetched.value) else c.posts[k])
    ensures r.1.(posts := c.posts) == c
    ensures Consistent(c) ==> Consistent(r.1)
  {
    match fetched
    case None => (false, c)
    case Some(d) =>
      if !AllSaved(saved, |d.media|) || !updateOk then (false, c)
      else
        (true, c.(posts := map k | k in c.posts ::
                           if k.code == code && k.isTag == isTag then Completed(d) else c.posts[k]))
  }

  /** A post code shared by two profiles is completed under both by one
      download. */
  lemma CompletionCrossesProfiles(c: Catalog, code: string, isTag: bool, d: PostData, saved: seq<bool>, pk1: nat, pk2: nat)
    requires PostKey(pk1, code, isTag) in c.posts && PostKey(pk2, code, isTag) in c.posts
    requires AllSaved(saved, |d.media|)
    ensures var r := DownloadSinglePost(c, code, isTag, Some(d), saved, true);
            r.0 && r.1.posts[PostKey(pk1, code, isTag)] == r.1.posts[PostKey(pk2, code, isTag)] == Completed(d)
  {
  }
}

=== FILE: profiles.dfy ===
/** Profiles: what getProfileData keeps of the userInfo response
    (main.py:473-515), and the catalog side of addProfile (main.py:519-613)
    and updateProfile (main.py:615-716). Network, picture download and
    thumbnail are reduced to whether they succeeded. */
module Profiles {
  import opened Optional
  import opened Text
  import opened Catalog

  /** The fields of the userInfo response the archiver reads;
      `profilePicId` is absent for a profile showing the default icon. */
  datatype UserInfo = UserInfo(
    pk: nat,
    username: string,
    fullName: string,
    pageName: Option<string>,
    biography: string,
    isPrivate: bool,
    publicEmail: Option<string>,
    mediaCount: int,
    followerCount: int,
    followingCount: int,
    profilePicId: Option<string>)

  /** getProfileData's result. */
  datatype ProfileData = ProfileData(
    pk: nat,
    username: string,
    fullName: string,
    pageName: Option<string>,
    biography: string,
    isPrivate: bool,
    publicEmail: Option<string>,
    mediaCount: int,
    followerCount: int,
    followingCount: int,
    profileId: nat)

  /** The picture id: the digits of `profile_pic_id` before its first '_';
      the pk when there is no picture. `None` where `index` or `int` raises. */
  function ProfileIdOf(pk: nat, profilePicId: Option<string>): (r: Option<nat>)
    ensures profilePicId.None? ==> r == Some(pk)
    ensures profilePicId.Some? && !Contains(profilePicId.value, "_") ==> r.None?
  {
    match profilePicId
    case None => Some(pk)
    case Some(s) =>
      match IndexOf(s, "_")
      case None => None
      case Some(k) => ParseDec(s[..k])
  }

  /** A picture id `{n}_{rest}` names picture `n`. */
  lemma ProfileIdOfPicId(pk: nat, n: nat, rest: string)
    ensures ProfileIdOf(pk, Some(Dec(n) + "_" + rest)) == Some(n)
  {
    var s := Dec(n) + "_" + rest;
    var d := Dec(n);
    DecHasNo(n, '_');
    assert s[..|d|] == d && s[|d|] == '_';
    FirstCharAt(s, '_', |d|);
    ParseDecOfDec(n);
  }

  /** An empty string stored as NULL. */
  function NullIfEmpty(s: string): (r: Option<string>)
    ensures r.None? <==> s == ""
    ensures r.Some? ==> r.value == s
  {
    if s == "" then None else Some(s)
  }

  /** getProfileData: the public e-mail is NULL when absent or empty;
      `None` when the picture id cannot be read. */
  function ProfileDataOf(u: UserInfo): (r: Option<ProfileData>)
    ensures r.Some? <==> ProfileIdOf(u.pk, u.profilePicId).Some?
    ensures r.Some? ==> r.value.pk == u.pk && r.value.username == u.username
                        && r.value.profileId == ProfileIdOf(u.pk, u.profilePicId).value
                        && (r.value.publicEmail.None? <==> u.publicEmail.None? || u.publicEmail == Some(""))
  {
    match ProfileIdOf(u.pk, u.profilePicId)
    case None => None
    case Some(id) =>
      var email := match u.publicEmail case Some(e) => NullIfEmpty(e) case None => None;
      Some(ProfileData(u.pk, u.username, u.fullName, u.pageName, u.biography, u.isPrivate, email,
                       u.mediaCount, u.followerCount, u.followingCount, id))
  }

  /** The row addProfile stores: biography NULL when empty, no post
      watermarks yet. */
  function NewProfile(d: ProfileData): (p: Profile)
    ensures p.username == d.username && p.profileId == d.profileId
    ensures p.lastPostCode.None? && p.lastTaggedPostCode.None?
    ensures p.biography == NullIfEmpty(d.biography)
  {
    Profile(d.username, d.fullName, d.pageName, NullIfEmpty(d.biography), d.isPrivate, d.publicEmail,
            d.mediaCount, d.followerCount, d.followingCount, d.profileId, None, None)
  }

  /** The live story feed of a profile is filed as a highlight whose id is
      the profile's pk. */
  function StoriesHighlight(pk: nat): Highlight {
    Highlight(pk, "Stories", 0)
  }

  /** addProfile's catalog step: a username already stored is refused; then
      (when the data was fetched and the picture saved) the profile row and
      its "Stories" highlight are inserted in one transaction. */
  ghost function AddProfile(c: Catalog, username: string, fetched: Option<ProfileData>, filesOk: bool): (r: (bool, Catalog))
    ensures !r.0 ==> r.1 == c
    ensures r.0 <==> PkOfUsername(c, username).None? && fetched.Some? && filesOk
                     && fetched.value.pk !in c.profiles && fetched.value.pk !in c.highlights
    ensures r.0 ==> var pk := fetched.value.pk;
                    && r.1.profiles == c.profiles[pk := NewProfile(fetched.value)]
                    && r.1.highlights == c.highlights[pk := Highlight(pk, "Stories", 0)]
                    && r.1.posts == c.posts && r.1.stories == c.stories
    ensures r.0 ==> r.1.(profiles := c.profiles, highlights := c.highlights) == c
    ensures Consistent(c) ==> Consistent(r.1)
    ensures UniqueUsernames(c) && (fetched.Some? ==> fetched.value.username == username) ==> UniqueUsernames(r.1)
  {
    if PkOfUsername(c, username).Some? || fetched.None? || !filesOk then (false, c)
    else
      var d := fetched.value;
      match InsertProfile(c, d.pk, NewProfile(d))
      case None => (false, c)
      case Some(c1) =>
        match InsertHighlight(c1, d.pk, StoriesHighlight(d.pk))
        case None => (false, c)
        case Some(c2) => (true, c2)
  }

  /** profile_changed (main.py:637): the picture id moved and the stored one
      was not the default icon, whose id is the pk. */
  predicate ProfileChanged(storedPk: nat, storedId: nat, newId: nat) {
    storedId != newId && storedPk != storedId
  }

  /** The columns updateProfile overwrites; the username and the post
      watermarks are left alone. */
  function Refreshed(p: Profile, d: ProfileData): (q: Profile)
    ensures q.username == p.username && q.lastPostCode == p.lastPostCode && q.lastTaggedPostCode == p.lastTaggedPostCode
    ensures q.profileId == d.profileId && q.biography == NullIfEmpty(d.biography)
  {
    p.(fullName := d.fullName, pageName := d.pageName, biography := NullIfEmpty(d.biography),
       isPrivate := d.isPrivate, publicEmail := d.publicEmail, mediaCount := d.mediaCount,
       followerCount := d.followerCount, followingCount := d.followingCount, profileId := d.profileId)
  }

  /** What updateProfile did: its verdict, the catalog after it, and the id
      the previous picture files were moved to History under, if they were. */
  datatype ProfileUpdate = ProfileUpdate(ok: bool, catalog: Catalog, archivedAs: Option<nat>)

  /** updateProfile. `profilesDir` says whether the Profiles folder existed
      (when it did not, it is made and nothing is moved); `moveOk`,
      `downloadOk`, `thumbnailOk` are the outcomes of moveProfileHistory,
      tryDownloading and makeThumbnail. The UPDATE addresses the row by the
      fetched pk; the ProfileHistory insert shares its transaction. */
  ghost function UpdateProfile(c: Catalog, username: string, fetched: Option<ProfileData>,
                               profilesDir: bool, moveOk: bool, downloadOk: bool, thumbnailOk: bool): (r: ProfileUpdate)
    ensures !r.ok ==> r.catalog == c
    ensures r.archivedAs.Some? ==> profilesDir && fetched.Some? && PkOfUsername(c, username).Some?
                                   && var pk := PkOfUsername(c, username).value;
                                      r.archivedAs.value == c.profiles[pk].profileId
                                      && ProfileChanged(pk, c.profiles[pk].profileId, fetched.value.profileId)
    ensures r.archivedAs.Some? <==> PkOfUsername(c, username).Some? && fetched.Some? && profilesDir && moveOk
                                    && var pk := PkOfUsername(c, username).value;
                                       ProfileChanged(pk, c.profiles[pk].profileId, fetched.value.profileId)
    ensures r.ok <==> PkOfUsername(c, username).Some? && fetched.Some? && downloadOk && thumbnailOk
                      && var pk := PkOfUsername(c, username).value;
                         var storedId := c.profiles[pk].profileId;
                         var d := fetched.value;
                         && (profilesDir && ProfileChanged(pk, storedId, d.profileId) ==> moveOk)
                         && (ProfileChanged(pk, storedId, d.profileId) ==> d.pk in c.profiles && (d.pk, storedId) !in c.profileHistory)
    ensures r.ok ==> fetched.Some? && PkOfUsername(c, username).Some?
    ensures r.ok ==> var pk := PkOfUsername(c, username).value;
                     var old_ := c.profiles[pk];
                     var d := fetched.value;
                     && r.catalog.posts == c.posts && r.catalog.stories == c.stories
                     && r.catalog.highlights == c.highlights
                     && (d.pk in c.profiles ==> r.catalog.profiles == c.profiles[d.pk := Refreshed(c.profiles[d.pk], d)])
                     && (ProfileChanged(pk, old_.profileId, d.profileId) <==> (d.pk, old_.profileId) in r.catalog.profileHistory - c.profileHistory)
    ensures r.catalog.(profiles := c.profiles, profileHistory := c.profileHistory) == c
    ensures c.profileHistory <= r.catalog.profileHistory
    ensures r.ok ==> var pk := PkOfUsername(c, username).value;
                     r.catalog.profileHistory <= c.profileHistory + {(fetched.value.pk, c.profiles[pk].profileId)}
    ensures fetched.Some? && fetched.value.pk !in c.profiles ==> r.catalog.profiles == c.profiles
    ensures Consistent(c) ==> Consistent(r.catalog)
  {
    match PkOfUsername(c, username)
    case None => ProfileUpdate(false, c, None)
    case Some(pk) =>
      match fetched
      case None => ProfileUpdate(false, c, None)
      case Some(d) =>
        var storedId := c.profiles[pk].profileId;
        var changed := ProfileChanged(pk, storedId, d.profileId);
        var moved := profilesDir && changed;
        if moved && !moveOk then ProfileUpdate(false, c, None)
        else
          var archived := if moved then Some(storedId) else None;
          if !downloadOk || !thumbnailOk then ProfileUpdate(false, c, archived)
          else
            var c1 := if d.pk in c.profiles then c.(profiles := c.profiles[d.pk := Refreshed(c.profiles[d.pk], d)]) else c;
            if !changed then ProfileUpdate(true, c1, archived)
            else
              match InsertProfileHistory(c1, d.pk, storedId)
              case None => ProfileUpdate(false, c, archived)
              case Some(c2) => ProfileUpdate(true, c2, archived)
  }

  /** A profile that still showed the default icon never archives a picture,
      whatever it shows now. */
  lemma DefaultIconNotArchived(c: Catalog, username: string, d: ProfileData,
                               profilesDir: bool, moveOk: bool, downloadOk: bool, thumbnailOk: bool)
    requires PkOfUsername(c, username).Some?
    requires var pk := PkOfUsername(c, username).value; c.profiles[pk].profileId == pk
    ensures var r := UpdateProfile(c, username, Some(d), profilesDir, moveOk, downloadOk, thumbnailOk);
            r.archivedAs.None? && r.catalog.profileHistory == c.profileHistory
  {
  }

  /** Profile 100 whose picture id goes from 5 to 9: the old picture is
      archived as 5 and ProfileHistory(100, 5) is recorded. */
  lemma PictureChangeRecorded(c: Catalog, d: ProfileData)
    requires Consistent(c) && UniqueUsernames(c)
    requires 100 in c.profiles && c.profiles[100].profileId == 5 && c.profiles[100].username == "alice"
    requires d.pk == 100 && d.profileId == 9 && (100, 5) !in c.profileHistory
    ensures var r := UpdateProfile(c, "alice", Some(d), true, true, true, true);
            && r.ok && r.archivedAs == Some(5)
            && r.catalog.profiles[100].profileId == 9
            && r.catalog.profileHistory == c.profileHistory + {(100, 5)}
  {
    assert PkOfUsername(c, "alice") == Some(100);
  }
}

=== FILE: stories.dfy ===
/** The story reconciler: checkDuplicateStories (main.py:718-799),
    getSingleStory (main.py:980-1026), getStories (main.py:1028-1070),
    downloadStories (main.py:1072-1118) and the item-count update of
    downloadSingleHighlightStories (main.py:1400-1413). A feed is either the
    live stories (`highlightId == pk`) or one highlight. */
module Stories {
  import opened Optional
  import opened Text
  import opened Names
  import opened Catalog
  import opened Archive

  /** A row of `SELECT * FROM Story WHERE pk = ...`. */
  datatype StoryRow = StoryRow(key: StoryKey, timestamp: int)

  /** checkDuplicateStories' True, False and None. */
  datatype Duplicate = Found | NotFound | Unknown

  datatype Check = Check(result: Duplicate, catalog: Catalog, archive: Archive)

  /** The first row with story pk `spk`: the loop's `break` means no later
      row is looked at. */
  function FirstWith(rows: seq<StoryRow>, spk: nat): (r: Option<nat>)
    decreases |rows|
    ensures r.Some? ==> r.value < |rows| && rows[r.value].key.storyPk == spk
                        && forall j :: 0 <= j < r.value ==> rows[j].key.storyPk != spk
    ensures r.None? <==> forall j :: 0 <= j < |rows| ==> rows[j].key.storyPk != spk
  {
    if rows == [] then None
    else if rows[0].key.storyPk == spk then Some(0)
    else match FirstWith(rows[1..], spk)
      case Some(k) => Some(k + 1)
      case None =>
        assert forall j :: 1 <= j < |rows| ==> rows[j] == rows[1..][j - 1];
        None
  }

  /** Where the live-feed branch copies to: the highlight's address without
      the storage prefix, so an absolute folder outside the archive. */
  function LiveCopyDestination(username: string, title: string, highlightId: nat): string {
    "/" + username + "/Highlights/" + title + "_" + Dec(highlightId)
  }

  /** The copy of the highlight branch: into the folder named with the raw
      title when the feed is a highlight, into Stories when it is the live
      feed. `None` when the target folder does not exist. */
  function CopyFromHighlight(a: Archive, pk: nat, highlightId: nat, title: string, files: seq<string>): (r: Option<Archive>)
    ensures r.Some? ==> r.value.outside == a.outside
    ensures pk != highlightId ==> (r.Some? <==> HasFolder(a.highlights, title + "_" + Dec(highlightId)))
    ensures pk == highlightId ==> r == Some(a.(stories := AddFiles(a.stories, files)))
  {
    if pk != highlightId then
      match FolderNamed(a.highlights, title + "_" + Dec(highlightId))
      case None => None
      case Some(k) => Some(a.(highlights := SetFiles(a.highlights, k, AddFiles(a.highlights[k].files, files))))
    else Some(a.(stories := AddFiles(a.stories, files)))
  }

  /** checkDuplicateStories for story `spk` of feed `highlightId`. `rows` is
      the profile's Story rows as read at the start of the pass; `readOk`
      whether the exact-row SELECT goes through. */
  function CheckDuplicateStories(c: Catalog, a: Archive, pk: nat, username: string, spk: nat, highlightId: nat,
                                 title: string, rows: seq<StoryRow>, readOk: bool): (r: Check)
    ensures r.result == Unknown <==> !readOk
    ensures r.result == Unknown ==> r.catalog == c && r.archive == a
    ensures readOk && StoryKey(pk, spk, highlightId) in c.stories ==> r == Check(Found, c, a)
    ensures r.result != Found ==> r.catalog == c
    ensures r.result == Found && StoryKey(pk, spk, highlightId) !in c.stories ==>
              && FirstWith(rows, spk).Some?
              && var row := rows[FirstWith(rows, spk).value];
                 && r.catalog.stories == c.stories[StoryKey(row.key.pk, spk, highlightId) := row.timestamp]
                 && StoryKey(row.key.pk, spk, highlightId) !in c.stories
                 && (row.key.highlightId == pk ==> |WithPrefix(a.stories, Dec(spk))| == 2)
                 && (row.key.highlightId != pk ==>
                       |Glob(a.highlights, row.key.highlightId)| == 1
                       && |ListedIn(Glob(a.highlights, row.key.highlightId)[0], Dec(spk))| == 2)
    ensures c.stories.Keys <= r.catalog.stories.Keys
    ensures forall k :: k in r.catalog.stories && k !in c.stories ==> k.highlightId == highlightId
    ensures forall k :: k in r.catalog.stories && k !in c.stories ==> FirstWith(rows, k.storyPk).Some?
    ensures r.catalog.(stories := c.stories) == c
    ensures Consistent(c) ==> Consistent(r.catalog)
  {
    if !readOk then Check(Unknown, c, a)
    else if StoryKey(pk, spk, highlightId) in c.stories then Check(Found, c, a)
    else
      match FirstWith(rows, spk)
      case None => Check(NotFound, c, a)
      case Some(i) => CheckRow(c, a, pk, username, spk, highlightId, title, rows[i])
  }

  /** The part of checkDuplicateStories that follows the first row for the
      story: the copy from that row's feed and the insert under this one. */
  function CheckRow(c: Catalog, a: Archive, pk: nat, username: string, spk: nat, highlightId: nat,
                    title: string, row: StoryRow): Check
  {
    var key := StoryKey(row.key.pk, spk, highlightId);
    if row.key.highlightId == pk then
      var files := WithPrefix(a.stories, Dec(spk));
      var dest := LiveCopyDestination(username, title, highlightId);
      if |files| != 2 || dest !in a.outside then Check(NotFound, c, a)
      else
        var a1 := a.(outside := a.outside[dest := AddFiles(a.outside[dest], files)]);
        match InsertStory(c, key, row.timestamp)
        case None => Check(NotFound, c, a1)
        case Some(c1) => Check(Found, c1, a1)
    else
      var folders := Glob(a.highlights, row.key.highlightId);
      if |folders| != 1 then Check(NotFound, c, a)
      else
        var files := ListedIn(folders[0], Dec(spk));
        if |files| != 2 then Check(NotFound, c, a)
        else
          match CopyFromHighlight(a, pk, highlightId, title, files)
          case None => Check(NotFound, c, a)
          case Some(a1) =>
            match InsertStory(c, key, row.timestamp)
            case None => Check(NotFound, c, a1)
            case Some(c1) => Check(Found, c1, a1)
  }

  /** Where checkDuplicateStories copies a story found under another feed:
      an absolute folder outside the storage root, or a folder of the
      archive. */
  datatype CopyTarget = OutsideFolder(path: string) | ArchiveFolder(folder: Destination)

  /** The target for a row of feed `rowFeed`: the live-feed branch builds
      an address without the storage prefix; the highlight branch uses the
      raw title for a highlight feed and Stories for the live feed. */
  function CopyTargetOf(pk: nat, username: string, highlightId: nat, title: string, rowFeed: nat): CopyTarget {
    if rowFeed == pk then OutsideFolder(LiveCopyDestination(username, title, highlightId))
    else if pk != highlightId then ArchiveFolder(HighlightFolder(title + "_" + Dec(highlightId)))
    else ArchiveFolder(StoriesFolder)
  }

  /** The story's files where the row says it was saved: the `{story_pk}*`
      files of Stories for a live row, of the one folder listed for the
      row's highlight otherwise (none when that folder's name hides them
      from glob); `None` when the folder glob lists no folder or several. */
  function CopySource(a: Archive, pk: nat, spk: nat, rowFeed: nat): (r: Option<seq<string>>)
    ensures r.Some? ==> forall x :: x in r.value ==> StartsWith(x, Dec(spk))
  {
    if rowFeed == pk then Some(WithPrefix(a.stories, Dec(spk)))
    else
      var folders := Glob(a.highlights, rowFeed);
      if |folders| == 1 then Some(ListedIn(folders[0], Dec(spk))) else None
  }

  /** The copy target exists. */
  predicate TargetExists(a: Archive, t: CopyTarget) {
    match t
    case OutsideFolder(path) => path in a.outside
    case ArchiveFolder(d) => FilesOf(a, d).Some?
  }

  /** `a1` is `a` with `added` copied into target `t` and nothing else
      changed. */
  ghost predicate CopiedInto(a: Archive, a1: Archive, t: CopyTarget, added: seq<string>) {
    match t
    case OutsideFolder(path) =>
      && path in a.outside && path in a1.outside
      && a1.stories == a.stories && a1.highlights == a.highlights
      && a1.outside.Keys == a.outside.Keys
      && (forall q :: q in a.outside && q != path ==> a1.outside[q] == a.outside[q])
      && forall x :: x in a1.outside[path] <==> x in a.outside[path] || x in added
    case ArchiveFolder(d) => WrittenInto(a, a1, d, added)
  }

  /** What checkDuplicateStories does with a story not stored under its
      exact key: with no row for its pk, nothing; with a first row whose
      feed still holds exactly two files of the story and whose copy target
      exists, those files are copied there, and the answer is True exactly
      when the row under the current feed can be inserted; otherwise
      nothing. */
  lemma CheckDuplicateCopies(c: Catalog, a: Archive, pk: nat, username: string, spk: nat, highlightId: nat,
                             title: string, rows: seq<StoryRow>)
    requires StoryKey(pk, spk, highlightId) !in c.stories
    ensures var r := CheckDuplicateStories(c, a, pk, username, spk, highlightId, title, rows, true);
            match FirstWith(rows, spk)
            case None => r == Check(NotFound, c, a)
            case Some(i) =>
              var row := rows[i];
              var src := CopySource(a, pk, spk, row.key.highlightId);
              var t := CopyTargetOf(pk, username, highlightId, title, row.key.highlightId);
              var ins := InsertStory(c, StoryKey(row.key.pk, spk, highlightId), row.timestamp);
              if src.Some? && |src.value| == 2 && TargetExists(a, t) then
                && CopiedInto(a, r.archive, t, src.value)
                && (r.result == Found <==> ins.Some?)
                && r.catalog == ins.GetOr(c)
              else r == Check(NotFound, c, a)
  {
    match FirstWith(rows, spk)
    case None =>
    case Some(i) =>
      if rows[i].key.highlightId == pk {
        CheckLiveRow(c, a, pk, username, spk, highlightId, title, rows, i);
      } else {
        CheckHighlightRow(c, a, pk, username, spk, highlightId, title, rows, i);
      }
  }

  lemma CheckLiveRow(c: Catalog, a: Archive, pk: nat, username: string, spk: nat, highlightId: nat,
                     title: string, rows: seq<StoryRow>, i: nat)
    requires StoryKey(pk, spk, highlightId) !in c.stories && FirstWith(rows, spk) == Some(i)
    requires rows[i].key.highlightId == pk
    ensures var r := CheckDuplicateStories(c, a, pk, username, spk, highlightId, title, rows, true);
            var row := rows[i];
            var src := WithPrefix(a.stories, Dec(spk));
            var dest := LiveCopyDestination(username, title, highlightId);
            var ins := InsertStory(c, StoryKey(row.key.pk, spk, highlightId), row.timestamp);
            if |src| == 2 && dest in a.outside then
              && CopiedInto(a, r.archive, OutsideFolder(dest), src)
              && (r.result == Found <==> ins.Some?)
              && r.catalog == ins.GetOr(c)
            else r == Check(NotFound, c, a)
  {
  }

  lemma CheckHighlightRow(c: Catalog, a: Archive, pk: nat, username: string, spk: nat, highlightId: nat,
                          title: string, rows: seq<StoryRow>, i: nat)
    requires StoryKey(pk, spk, highlightId) !in c.stories && FirstWith(rows, spk) == Some(i)
    requires rows[i].key.highlightId != pk
    ensures var r := CheckDuplicateStories(c, a, pk, username, spk, highlightId, title, rows, true);
            var row := rows[i];
            var src := CopySource(a, pk, spk, row.key.highlightId);
            var t := CopyTargetOf(pk, username, highlightId, title, row.key.highlightId);
            var ins := InsertStory(c, StoryKey(row.key.pk, spk, highlightId), row.timestamp);
            if src.Some? && |src.value| == 2 && TargetExists(a, t) then
              && CopiedInto(a, r.archive, t, src.value)
              && (r.result == Found <==> ins.Some?)
              && r.catalog == ins.GetOr(c)
            else r == Check(NotFound, c, a)
  {
    var row := rows[i];
    var src := CopySource(a, pk, spk, row.key.highlightId);
    var t := CopyTargetOf(pk, username, highlightId, title, row.key.highlightId);
    if src.Some? && |src.value| == 2 {
      CopyFromHighlightInto(a, pk, highlightId, title, src.value);
    }
  }

  /** A story whose first row points at a highlight folder with a `[...]`
      pair in its name is not copied: the file glob inside that folder lists
      nothing, so the check reports NotFound and the story is downloaded
      afresh. */
  lemma HiddenSourceNotCopied(c: Catalog, a: Archive, pk: nat, username: string, spk: nat, highlightId: nat,
                              title: string, rows: seq<StoryRow>, i: nat)
    requires StoryKey(pk, spk, highlightId) !in c.stories && FirstWith(rows, spk) == Some(i)
    requires rows[i].key.highlightId != pk
    requires |Glob(a.highlights, rows[i].key.highlightId)| == 1
    requires GlobHides(Glob(a.highlights, rows[i].key.highlightId)[0].name)
    ensures CheckDuplicateStories(c, a, pk, username, spk, highlightId, title, rows, true) == Check(NotFound, c, a)
  {
  }

  /** The highlight branch's copy writes the files into its target folder
      exactly when that folder exists. */
  lemma CopyFromHighlightInto(a: Archive, pk: nat, highlightId: nat, title: string, files: seq<string>)
    ensures var d := if pk != highlightId then HighlightFolder(title + "_" + Dec(highlightId)) else StoriesFolder;
            var r := CopyFromHighlight(a, pk, highlightId, title, files);
            && (r.Some? <==> FilesOf(a, d).Some?)
            && (r.Some? ==> WrittenInto(a, r.value, d, files))
  {
    var d := if pk != highlightId then HighlightFolder(title + "_" + Dec(highlightId)) else StoriesFolder;
    if FilesOf(a, d).Some? {
      WithFilesWrites(a, d, files);
      assert CopyFromHighlight(a, pk, highlightId, title, files) == Some(WithFiles(a, d, AddFiles(FilesOf(a, d).value, files)));
    }
  }

  /** Only the first row with the story's pk is consulted: rows after it
      change nothing. */
  lemma FirstRowDecides(c: Catalog, a: Archive, pk: nat, username: string, spk: nat, highlightId: nat, title: string,
                        rows: seq<StoryRow>, rows2: seq<StoryRow>, i: nat, readOk: bool)
    requires FirstWith(rows, spk) == Some(i)
    requires i < |rows2| && rows2[..i + 1] == rows[..i + 1]
    ensures CheckDuplicateStories(c, a, pk, username, spk, highlightId, title, rows2, readOk)
         == CheckDuplicateStories(c, a, pk, username, spk, highlightId, title, rows, readOk)
  {
    SamePrefixFirstWith(rows, rows2, spk, i);
  }

  /** Two row lists that agree up to the first row for `spk` find the same
      row for it. */
  lemma SamePrefixFirstWith(rows: seq<StoryRow>, rows2: seq<StoryRow>, spk: nat, i: nat)
    requires FirstWith(rows, spk) == Some(i)
    requires i < |rows2| && rows2[..i + 1] == rows[..i + 1]
    ensures FirstWith(rows2, spk) == Some(i) && rows2[i] == rows[i]
  {
    assert forall j :: 0 <= j <= i ==> rows2[j] == rows2[..i + 1][j] == rows[..i + 1][j] == rows[j];
    var f := FirstWith(rows2, spk);
    assert f.Some?;
    assert f.value == i;
  }

  /** When the first row is a live-feed story, nothing lands in the archive:
      the copy goes to a folder outside the storage root or does not happen. */
  lemma LiveFeedCopyLeavesArchive(c: Catalog, a: Archive, pk: nat, username: string, spk: nat, highlightId: nat,
                                  title: string, rows: seq<StoryRow>, readOk: bool)
    requires FirstWith(rows, spk).Some? && rows[FirstWith(rows, spk).value].key.highlightId == pk
    ensures var r := CheckDuplicateStories(c, a, pk, username, spk, highlightId, title, rows, readOk);
            r.archive.stories == a.stories && r.archive.highlights == a.highlights
  {
  }

  /** A highlight title holding a character that file names may not hold is
      never matched by the raw-title copy: when every highlight folder has a
      clean name, the highlight branch reports the story as not found and
      leaves catalog and archive alone. */
  lemma UnsafeTitleNotCopied(c: Catalog, a: Archive, pk: nat, username: string, spk: nat, highlightId: nat,
                             title: string, rows: seq<StoryRow>, ch: char)
    requires pk != highlightId && StoryKey(pk, spk, highlightId) !in c.stories
    requires ch in title && ch in InvalidCharacters
    requires forall k :: 0 <= k < |a.highlights| ==> forall x :: x in a.highlights[k].name ==> x !in InvalidCharacters
    requires FirstWith(rows, spk).Some? && rows[FirstWith(rows, spk).value].key.highlightId != pk
    ensures CheckDuplicateStories(c, a, pk, username, spk, highlightId, title, rows, true) == Check(NotFound, c, a)
  {
    var name := title + "_" + Dec(highlightId);
    assert ch in name by {
      var t :| 0 <= t < |title| && title[t] == ch;
      assert name[t] == ch;
    }
    assert !HasFolder(a.highlights, name);
  }

  // ---------------------------------------------------------------------
  // getSingleStory

  /** The fields of one feed item the archiver reads. `videos` is `None`
      when the item has no `video_versions`. */
  datatype StoryItem = StoryItem(id: string, takenAt: Option<int>, videos: Option<seq<string>>, images: seq<string>)

  /** The story pk: the digits of the item id before its first '_'. With no
      '_', `find` gives -1 and the slice drops the last character. */
  function StoryPkOf(id: string): Option<nat> {
    match IndexOf(id, "_")
    case Some(k) => ParseDec(id[..k])
    case None => if |id| == 0 then None else ParseDec(id[..|id| - 1])
  }

  /** Item ids `{story_pk}_{pk}` give the story pk back. */
  lemma StoryPkOfId(spk: nat, pk: nat)
    ensures StoryPkOf(Dec(spk) + "_" + Dec(pk)) == Some(spk)
  {
    var id := Dec(spk) + "_" + Dec(pk);
    var d := Dec(spk);
    DecHasNo(spk, '_');
    assert id[..|d|] == d && id[|d|] == '_';
    FirstCharAt(id, '_', |d|);
    ParseDecOfDec(spk);
  }

  /** An id without '_' loses its last digit. */
  lemma StoryPkOfBareId(n: nat)
    requires n >= 10
    ensures StoryPkOf(Dec(n)) == Some(n / 10)
  {
    DecHasNo(n, '_');
    ContainsChar(Dec(n), '_');
    assert Dec(n)[..|Dec(n)| - 1] == Dec(n / 10);
    ParseDecOfDec(n / 10);
  }

  /** The media to fetch: the first video version when the item has video
      versions, else the first image candidate. */
  function MediaOf(item: StoryItem): (r: Option<(string, bool)>)
    ensures r.Some? ==> (r.value.1 <==> item.videos.Some?)
    ensures r.Some? && r.value.1 ==> r.value.0 in item.videos.value
    ensures r.Some? && !r.value.1 ==> r.value.0 in item.images
    ensures r.Some? && r.value.1 ==> |item.videos.value| > 0 && r.value.0 == item.videos.value[0]
    ensures r.Some? && !r.value.1 ==> |item.images| > 0 && r.value.0 == item.images[0]
    ensures item.videos.Some? ==> (r.None? <==> item.videos.value == [])
    ensures item.videos.None? ==> (r.None? <==> item.images == [])
  {
    match item.videos
    case Some(vs) => if |vs| > 0 then Some((vs[0], true)) else None
    case None => if |item.images| > 0 then Some((item.images[0], false)) else None
  }

  /** The folder a story of feed `highlightId` is saved in. */
  datatype Destination = StoriesFolder | HighlightFolder(name: string)

  function DestinationOf(pk: nat, highlightId: nat, title: string): (d: Destination)
    ensures d.HighlightFolder? <==> pk != highlightId
    ensures d.HighlightFolder? ==> EndsWith(d.name, "_" + Dec(highlightId))
  {
    if pk != highlightId then
      var m := MakeFilenameFriendly(title);
      var tail := "_" + Dec(highlightId);
      var n := m + tail;
      assert n[|m|..] == tail;
      HighlightFolder(n)
    else StoriesFolder
  }

  /** Whatever the title, the part of a highlight folder's name before its
      id holds no character a file name may not hold. */
  lemma DestinationIsSafe(pk: nat, highlightId: nat, title: string)
    requires pk != highlightId
    ensures var n := DestinationOf(pk, highlightId, title).name;
            forall i :: 0 <= i < |n| - |Dec(highlightId)| - 1 ==> n[i] !in InvalidCharacters
  {
    var m := MakeFilenameFriendly(title);
    var n := m + "_" + Dec(highlightId);
    assert DestinationOf(pk, highlightId, title).name == n;
    assert forall i :: 0 <= i < |m| ==> n[i] == m[i];
  }

  /** getSingleStory's `media_address`. */
  function MediaAddress(username: string, d: Destination, spk: nat): string {
    match d
    case StoriesFolder => "/" + username + "/Stories/" + Dec(spk)
    case HighlightFolder(n) => "/" + username + "/Highlights/" + n + "/" + Dec(spk)
  }

  /** A live story is addressed under Stories. */
  lemma LiveStoryAddress(username: string, pk: nat, title: string, spk: nat)
    ensures MediaAddress(username, DestinationOf(pk, pk, title), spk) == "/" + username + "/Stories/" + Dec(spk)
  {
    assert DestinationOf(pk, pk, title) == StoriesFolder;
  }

  /** A highlight story is addressed under the highlight's folder, whose name
      is the sanitised title and the highlight id. */
  lemma HighlightStoryAddress(username: string, pk: nat, highlightId: nat, title: string, spk: nat)
    requires pk != highlightId
    ensures MediaAddress(username, DestinationOf(pk, highlightId, title), spk)
         == "/" + username + "/Highlights/" + (MakeFilenameFriendly(title) + "_" + Dec(highlightId)) + "/" + Dec(spk)
  {
    HighlightDestination(pk, highlightId, title);
    FolderAddress(username, MakeFilenameFriendly(title) + "_" + Dec(highlightId), spk);
  }

  lemma HighlightDestination(pk: nat, highlightId: nat, title: string)
    requires pk != highlightId
    ensures DestinationOf(pk, highlightId, title) == HighlightFolder(MakeFilenameFriendly(title) + "_" + Dec(highlightId))
  {
    JoinAssociates(MakeFilenameFriendly(title), "_", Dec(highlightId));
  }

  /** String concatenation regroups freely. */
  lemma JoinAssociates(x: string, y: string, z: string)
    ensures x + y + z == x + (y + z)
  {
  }

  lemma FolderAddress(username: string, name: string, spk: nat)
    ensures MediaAddress(username, HighlightFolder(name), spk) == "/" + username + "/Highlights/" + name + "/" + Dec(spk)
  {
  }

  /** A story queued for download. */
  datatype Pending = Pending(key: StoryKey, timestamp: int, link: string, destination: Destination, isVideo: bool)

  /** getSingleStory: `None` skips the item (already there, copied, or not
      checkable, or its data unreadable). */
  function GetSingleStory(c: Catalog, a: Archive, pk: nat, username: string, item: StoryItem, highlightId: nat,
                          title: string, rows: seq<StoryRow>, readOk: bool): (r: (Option<Pending>, Catalog, Archive))
    ensures r.0.Some? <==> && StoryPkOf(item.id).Some?
                           && CheckDuplicateStories(c, a, pk, username, StoryPkOf(item.id).value, highlightId, title, rows, readOk).result == NotFound
                           && item.takenAt.Some? && MediaOf(item).Some?
    ensures r.0.Some? ==> && r.0.value.key == StoryKey(pk, StoryPkOf(item.id).value, highlightId)
                          && r.0.value.timestamp == item.takenAt.value
                          && (r.0.value.link, r.0.value.isVideo) == MediaOf(item).value
                          && r.0.value.destination == DestinationOf(pk, highlightId, title)
                          && r.1 == c
    ensures c.stories.Keys <= r.1.stories.Keys
    ensures forall k :: k in r.1.stories && k !in c.stories ==> k.highlightId == highlightId
    ensures forall k :: k in r.1.stories && k !in c.stories ==> FirstWith(rows, k.storyPk).Some?
    ensures r.1.(stories := c.stories) == c
    ensures Consistent(c) ==> Consistent(r.1)
    ensures StoryPkOf(item.id).None? ==> r == (None, c, a)
    ensures StoryPkOf(item.id).Some? ==>
              var chk := CheckDuplicateStories(c, a, pk, username, StoryPkOf(item.id).value, highlightId, title, rows, readOk);
              r.1 == chk.catalog && r.2 == chk.archive
  {
    match StoryPkOf(item.id)
    case None => (None, c, a)
    case Some(spk) =>
      var chk := CheckDuplicateStories(c, a, pk, username, spk, highlightId, title, rows, readOk);
      if chk.result != NotFound || item.takenAt.None? || MediaOf(item).None? then (None, chk.catalog, chk.archive)
      else
        var m := MediaOf(item).value;
        (Some(Pending(StoryKey(pk, spk, highlightId), item.takenAt.value, m.0, DestinationOf(pk, highlightId, title), m.1)),
         chk.catalog, chk.archive)
  }

  /** A story stored under its exact key is skipped without a copy. */
  lemma StoredStorySkipped(c: Catalog, a: Archive, pk: nat, username: string, item: StoryItem, spk: nat,
                           highlightId: nat, title: string, rows: seq<StoryRow>)
    requires StoryPkOf(item.id) == Some(spk) && StoryKey(pk, spk, highlightId) in c.stories
    ensures GetSingleStory(c, a, pk, username, item, highlightId, title, rows, true) == (None, c, a)
  {
  }

  /** A video is fetched as its first video version even when it has images. */
  lemma VideoPreferred(item: StoryItem)
    requires item.videos.Some? && |item.videos.value| > 0 && |item.images| > 0
    ensures MediaOf(item) == Some((item.videos.value[0], true))
  {
  }

  /** An item with an empty video list is skipped even when it has images:
      the video branch is taken and indexing its first version raises. */
  lemma EmptyVideoListSkipped(c: Catalog, a: Archive, pk: nat, username: string, item: StoryItem, highlightId: nat,
                              title: string, rows: seq<StoryRow>, readOk: bool)
    requires item.videos == Some([])
    ensures GetSingleStory(c, a, pk, username, item, highlightId, title, rows, readOk).0.None?
  {
  }

  // ---------------------------------------------------------------------
  // getStories and downloadStories

  /** The loop of getStories over the feed items from `i` on. Every item is
      checked against the same `rows`, read once before the loop. */
  function CollectStories(c: Catalog, a: Archive, pk: nat, username: string, items: seq<StoryItem>, i: nat,
                          highlightId: nat, title: string, rows: seq<StoryRow>, unreadable: set<nat>)
    : (r: (seq<Pending>, Catalog, Archive))
    requires i <= |items|
    decreases |items| - i
    ensures |r.0| <= |items| - i
    ensures forall p :: p in r.0 ==> p.key.pk == pk && p.key.highlightId == highlightId
                                     && p.destination == DestinationOf(pk, highlightId, title)
    ensures c.stories.Keys <= r.1.stories.Keys
    ensures forall k :: k in r.1.stories && k !in c.stories ==> k.highlightId == highlightId
    ensures forall k :: k in r.1.stories && k !in c.stories ==> FirstWith(rows, k.storyPk).Some?
    ensures r.1.(stories := c.stories) == c
    ensures Consistent(c) ==> Consistent(r.1)
  {
    if i == |items| then ([], c, a)
    else
      var spk := StoryPkOf(items[i].id);
      var readOk := !(spk.Some? && spk.value in unreadable);
      var one := GetSingleStory(c, a, pk, username, items[i], highlightId, title, rows, readOk);
      var rest := CollectStories(one.1, one.2, pk, username, items, i + 1, highlightId, title, rows, unreadable);
      ((if one.0.Some? then [one.0.value] else []) + rest.0, rest.1, rest.2)
  }

  /** getStories: `data` is the feed (`None` when it could not be fetched),
      `rows` the profile's Story rows (`None` when the SELECT fails), and
      `unreadable` the story pks whose duplicate check raises. Gives the
      stories to download (`None` on failure) and the feed's item count. */
  function GetStories(c: Catalog, a: Archive, pk: nat, username: string, highlightId: nat, title: string,
                      data: Option<seq<StoryItem>>, rows: Option<seq<StoryRow>>, unreadable: set<nat>)
    : (r: (Option<seq<Pending>>, nat, Catalog, Archive))
    ensures data.None? ==> r == (None, 0, c, a)
    ensures data.Some? ==> r.1 == |data.value|
    ensures r.0.None? <==> data.None? || (|data.value| > 0 && rows.None?)
    ensures r.0.Some? ==> |r.0.value| <= r.1
    ensures c.stories.Keys <= r.2.stories.Keys
    ensures forall k :: k in r.2.stories && k !in c.stories ==> k.highlightId == highlightId
    ensures r.2.(stories := c.stories) == c
    ensures Consistent(c) ==> Consistent(r.2)
  {
    match data
    case None => (None, 0, c, a)
    case Some(items) =>
      if |items| == 0 then (Some([]), 0, c, a)
      else
        match rows
        case None => (None, |items|, c, a)
        case Some(rs) =>
          var col := CollectStories(c, a, pk, username, items, 0, highlightId, title, rs, unreadable);
          (Some(col.0), |items|, col.1, col.2)
  }

  /** `p` is what getSingleStory builds for `item`. */
  predicate FromItem(p: Pending, item: StoryItem, pk: nat, highlightId: nat, title: string) {
    && StoryPkOf(item.id).Some?
    && p.key == StoryKey(pk, StoryPkOf(item.id).value, highlightId)
    && item.takenAt == Some(p.timestamp)
    && MediaOf(item) == Some((p.link, p.isVideo))
    && p.destination == DestinationOf(pk, highlightId, title)
  }

  /** A story getSingleStory queues when it is stored nowhere and has no
      row: its pk parses, its SELECT goes through, and it has a time and
      media. */
  predicate Fresh(c: Catalog, item: StoryItem, pk: nat, highlightId: nat, rows: seq<StoryRow>, unreadable: set<nat>) {
    && StoryPkOf(item.id).Some?
    && StoryKey(pk, StoryPkOf(item.id).value, highlightId) !in c.stories
    && FirstWith(rows, StoryPkOf(item.id).value).None?
    && StoryPkOf(item.id).value !in unreadable
    && item.takenAt.Some? && MediaOf(item).Some?
  }

  /** Everything getStories queues is built from one of the feed's items. */
  lemma {:induction false} CollectSound(c: Catalog, a: Archive, pk: nat, username: string, items: seq<StoryItem>, i: nat,
                                        highlightId: nat, title: string, rows: seq<StoryRow>, unreadable: set<nat>)
    requires i <= |items|
    decreases |items| - i
    ensures forall p :: p in CollectStories(c, a, pk, username, items, i, highlightId, title, rows, unreadable).0 ==>
              exists j :: i <= j < |items| && FromItem(p, items[j], pk, highlightId, title)
  {
    if i < |items| {
      var spk := StoryPkOf(items[i].id);
      var one := GetSingleStory(c, a, pk, username, items[i], highlightId, title, rows, !(spk.Some? && spk.value in unreadable));
      var later := CollectStories(one.1, one.2, pk, username, items, i + 1, highlightId, title, rows, unreadable).0;
      CollectStep(c, a, pk, username, items, i, highlightId, title, rows, unreadable);
      CollectSound(one.1, one.2, pk, username, items, i + 1, highlightId, title, rows, unreadable);
      forall p | p in CollectStories(c, a, pk, username, items, i, highlightId, title, rows, unreadable).0
        ensures exists j :: i <= j < |items| && FromItem(p, items[j], pk, highlightId, title)
      {
        if p !in later {
          assert FromItem(p, items[i], pk, highlightId, title);
        }
      }
    }
  }

  /** Every fresh item of the feed is queued: the copies made for earlier
      items only add rows for story pks that have a row, so they never make
      a fresh item look stored. */
  lemma {:induction false} CollectComplete(c: Catalog, a: Archive, pk: nat, username: string, items: seq<StoryItem>, i: nat,
                                           highlightId: nat, title: string, rows: seq<StoryRow>, unreadable: set<nat>, j: nat)
    requires i <= j < |items| && Fresh(c, items[j], pk, highlightId, rows, unreadable)
    decreases j - i
    ensures exists p :: p in CollectStories(c, a, pk, username, items, i, highlightId, title, rows, unreadable).0
                        && FromItem(p, items[j], pk, highlightId, title)
  {
    var spk := StoryPkOf(items[i].id);
    var one := GetSingleStory(c, a, pk, username, items[i], highlightId, title, rows, !(spk.Some? && spk.value in unreadable));
    CollectStep(c, a, pk, username, items, i, highlightId, title, rows, unreadable);
    var out := CollectStories(c, a, pk, username, items, i, highlightId, title, rows, unreadable).0;
    if i == j {
      assert one.0.Some?;
      assert one.0.value in out;
      assert FromItem(one.0.value, items[j], pk, highlightId, title);
    } else {
      assert Fresh(one.1, items[j], pk, highlightId, rows, unreadable);
      CollectComplete(one.1, one.2, pk, username, items, i + 1, highlightId, title, rows, unreadable, j);
      var p :| p in CollectStories(one.1, one.2, pk, username, items, i + 1, highlightId, title, rows, unreadable).0
               && FromItem(p, items[j], pk, highlightId, title);
      assert p in out;
    }
  }

  /** Nothing the getStories loop queues is already stored under its exact
      key in the catalog the loop starts from: such a story is Found by its
      duplicate check, and the catalog only grows along the loop. */
  lemma {:induction false} CollectUnstored(c: Catalog, a: Archive, pk: nat, username: string, items: seq<StoryItem>, i: nat,
                                           highlightId: nat, title: string, rows: seq<StoryRow>, unreadable: set<nat>)
    requires i <= |items|
    decreases |items| - i
    ensures forall p :: p in CollectStories(c, a, pk, username, items, i, highlightId, title, rows, unreadable).0 ==>
              p.key !in c.stories
  {
    if i < |items| {
      var spk := StoryPkOf(items[i].id);
      var one := GetSingleStory(c, a, pk, username, items[i], highlightId, title, rows, !(spk.Some? && spk.value in unreadable));
      CollectStep(c, a, pk, username, items, i, highlightId, title, rows, unreadable);
      CollectUnstored(one.1, one.2, pk, username, items, i + 1, highlightId, title, rows, unreadable);
    }
  }

  /** What getStories queues: every story built from a fresh feed item
      (judged against the catalog it starts from), only stories built from
      some feed item, and never one already stored under its exact key.
      An item that is not fresh can still be queued: a story whose first
      row's copy fails is downloaded again. */
  lemma GetStoriesQueues(c: Catalog, a: Archive, pk: nat, username: string, highlightId: nat, title: string,
                         data: Option<seq<StoryItem>>, rows: Option<seq<StoryRow>>, unreadable: set<nat>)
    ensures var r := GetStories(c, a, pk, username, highlightId, title, data, rows, unreadable);
            r.0.Some? ==> forall p :: p in r.0.value ==>
                            exists j :: 0 <= j < |data.value| && FromItem(p, data.value[j], pk, highlightId, title)
    ensures var r := GetStories(c, a, pk, username, highlightId, title, data, rows, unreadable);
            r.0.Some? && rows.Some? ==> forall j :: 0 <= j < |data.value| && Fresh(c, data.value[j], pk, highlightId, rows.value, unreadable) ==>
                            exists p :: p in r.0.value && FromItem(p, data.value[j], pk, highlightId, title)
    ensures var r := GetStories(c, a, pk, username, highlightId, title, data, rows, unreadable);
            r.0.Some? ==> forall p :: p in r.0.value ==> p.key !in c.stories
  {
    if data.Some? && |data.value| > 0 && rows.Some? {
      CollectSound(c, a, pk, username, data.value, 0, highlightId, title, rows.value, unreadable);
      CollectUnstored(c, a, pk, username, data.value, 0, highlightId, title, rows.value, unreadable);
      forall j | 0 <= j < |data.value| && Fresh(c, data.value[j], pk, highlightId, rows.value, unreadable)
        ensures exists p :: p in CollectStories(c, a, pk, username, data.value, 0, highlightId, title, rows.value, unreadable).0
                            && FromItem(p, data.value[j], pk, highlightId, title)
      {
        CollectComplete(c, a, pk, username, data.value, 0, highlightId, title, rows.value, unreadable, j);
      }
    }
  }

  /** The same story twice in one feed, found nowhere: both copies are
      queued, because no Story row is inserted until the download pass that
      runs after the whole feed is collected. */
  lemma SameStoryQueuedTwice(c: Catalog, a: Archive, pk: nat, username: string, item: StoryItem, highlightId: nat,
                             title: string, rows: seq<StoryRow>)
    requires StoryPkOf(item.id).Some? && item.takenAt.Some? && MediaOf(item).Some?
    requires StoryKey(pk, StoryPkOf(item.id).value, highlightId) !in c.stories
    requires FirstWith(rows, StoryPkOf(item.id).value).None?
    ensures var r := CollectStories(c, a, pk, username, [item, item], 0, highlightId, title, rows, {});
            |r.0| == 2 && r.0[0] == r.0[1]
  {
    FreshPairQueued(c, a, pk, username, [item, item], highlightId, title, rows);
  }

  /** Two equal fresh items: the loop queues the same story for each. */
  lemma FreshPairQueued(c: Catalog, a: Archive, pk: nat, username: string, items: seq<StoryItem>, highlightId: nat,
                        title: string, rows: seq<StoryRow>)
    requires |items| == 2 && items[0] == items[1]
    requires StoryPkOf(items[0].id).Some? && items[0].takenAt.Some? && MediaOf(items[0]).Some?
    requires StoryKey(pk, StoryPkOf(items[0].id).value, highlightId) !in c.stories
    requires FirstWith(rows, StoryPkOf(items[0].id).value).None?
    ensures var r := CollectStories(c, a, pk, username, items, 0, highlightId, title, rows, {});
            |r.0| == 2 && r.0[0] == r.0[1]
  {
    CollectFreshStep(c, a, pk, username, items, 1, highlightId, title, rows);
    CollectFreshStep(c, a, pk, username, items, 0, highlightId, title, rows);
    CollectDone(c, a, pk, username, items, highlightId, title, rows);
  }

  /** Past the last item the loop queues nothing. */
  lemma CollectDone(c: Catalog, a: Archive, pk: nat, username: string, items: seq<StoryItem>,
                    highlightId: nat, title: string, rows: seq<StoryRow>)
    ensures CollectStories(c, a, pk, username, items, |items|, highlightId, title, rows, {}).0 == []
  {
  }

  /** A fresh item at `i` puts its story at the head of what the loop
      queues from `i` on, and leaves the catalog and archive as they were. */
  lemma CollectFreshStep(c: Catalog, a: Archive, pk: nat, username: string, items: seq<StoryItem>, i: nat,
                         highlightId: nat, title: string, rows: seq<StoryRow>)
    requires i < |items|
    requires StoryPkOf(items[i].id).Some? && items[i].takenAt.Some? && MediaOf(items[i]).Some?
    requires StoryKey(pk, StoryPkOf(items[i].id).value, highlightId) !in c.stories
    requires FirstWith(rows, StoryPkOf(items[i].id).value).None?
    ensures var one := GetSingleStory(c, a, pk, username, items[i], highlightId, title, rows, true);
            && one.0.Some?
            && CollectStories(c, a, pk, username, items, i, highlightId, title, rows, {}).0
               == [one.0.value] + CollectStories(c, a, pk, username, items, i + 1, highlightId, title, rows, {}).0
  {
    FreshStoryQueued(c, a, pk, username, items[i], highlightId, title, rows);
    CollectStep(c, a, pk, username, items, i, highlightId, title, rows, {});
  }

  /** A story stored nowhere, with no row, is queued and changes nothing. */
  lemma FreshStoryQueued(c: Catalog, a: Archive, pk: nat, username: string, item: StoryItem, highlightId: nat,
                         title: string, rows: seq<StoryRow>)
    requires StoryPkOf(item.id).Some? && item.takenAt.Some? && MediaOf(item).Some?
    requires StoryKey(pk, StoryPkOf(item.id).value, highlightId) !in c.stories
    requires FirstWith(rows, StoryPkOf(item.id).value).None?
    ensures var one := GetSingleStory(c, a, pk, username, item, highlightId, title, rows, true);
            one.0.Some? && one.1 == c && one.2 == a
  {
  }

  /** One item of the getStories loop: its pending download, if any, comes
      before the rest's. */
  lemma CollectStep(c: Catalog, a: Archive, pk: nat, username: string, items: seq<StoryItem>, i: nat,
                    highlightId: nat, title: string, rows: seq<StoryRow>, unreadable: set<nat>)
    requires i < |items|
    ensures var spk := StoryPkOf(items[i].id);
            var one := GetSingleStory(c, a, pk, username, items[i], highlightId, title, rows,
                                      !(spk.Some? && spk.value in unreadable));
            CollectStories(c, a, pk, username, items, i, highlightId, title, rows, unreadable).0
            == (if one.0.Some? then [one.0.value] else [])
               + CollectStories(one.1, one.2, pk, username, items, i + 1, highlightId, title, rows, unreadable).0
  {
  }

  /** What one download attempt brought: the extension the media was saved
      under (`None` when tryDownloading gave up) and whether makeThumbnail
      produced its image. */
  datatype Outcome = Outcome(saved: Option<string>, thumbnailOk: bool)

  /** The files of a destination folder, `None` when it does not exist. */
  function FilesOf(a: Archive, d: Destination): Option<seq<string>> {
    match d
    case StoriesFolder => Some(a.stories)
    case HighlightFolder(n) =>
      match FolderNamed(a.highlights, n)
      case Some(k) => Some(a.highlights[k].files)
      case None => None
  }

  /** The archive with the destination's files replaced. */
  function WithFiles(a: Archive, d: Destination, files: seq<string>): Archive {
    match d
    case StoriesFolder => a.(stories := files)
    case HighlightFolder(n) =>
      match FolderNamed(a.highlights, n)
      case Some(k) => a.(highlights := SetFiles(a.highlights, k, files))
      case None => a
  }

  /** `a1` is `a` with the files `added` written into the existing folder
      `d`: that folder holds its old files and the new ones, and no other
      folder changes. */
  ghost predicate WrittenInto(a: Archive, a1: Archive, d: Destination, added: seq<string>) {
    && FilesOf(a, d).Some? && FilesOf(a1, d).Some?
    && (forall x :: x in FilesOf(a1, d).value <==> x in FilesOf(a, d).value || x in added)
    && a1.outside == a.outside
    && match d
       case StoriesFolder => a1.highlights == a.highlights
       case HighlightFolder(n) =>
         && a1.stories == a.stories && |a1.highlights| == |a.highlights|
         && forall j :: 0 <= j < |a.highlights| ==>
              && a1.highlights[j].name == a.highlights[j].name
              && (j != FolderNamed(a.highlights, n).value ==> a1.highlights[j] == a.highlights[j])
  }

  /** No folder of `a` is gone from `a1`, and none has lost a file. */
  ghost predicate Grows(a: Archive, a1: Archive) {
    forall d :: FilesOf(a, d).Some? ==>
      FilesOf(a1, d).Some? && forall x :: x in FilesOf(a, d).value ==> x in FilesOf(a1, d).value
  }

  /** Writing files into an existing folder: `WithFiles` does what
      `WrittenInto` describes. */
  lemma WithFilesWrites(a: Archive, d: Destination, added: seq<string>)
    requires FilesOf(a, d).Some?
    ensures FilesOf(WithFiles(a, d, AddFiles(FilesOf(a, d).value, added)), d) == Some(AddFiles(FilesOf(a, d).value, added))
    ensures WrittenInto(a, WithFiles(a, d, AddFiles(FilesOf(a, d).value, added)), d, added)
  {
    var a1 := WithFiles(a, d, AddFiles(FilesOf(a, d).value, added));
    if d.HighlightFolder? {
      var k := FolderNamed(a.highlights, d.name).value;
      FolderNamedByNames(a.highlights, a1.highlights, d.name);
    }
  }

  /** One file written into an existing folder. */
  function WriteFile(a: Archive, d: Destination, name: string): (r: Archive)
    requires FilesOf(a, d).Some?
    ensures FilesOf(r, d) == Some(AddFile(FilesOf(a, d).value, name))
    ensures WrittenInto(a, r, d, [name])
  {
    assert AddFile(FilesOf(a, d).value, name) == AddFiles(FilesOf(a, d).value, [name]);
    WithFilesWrites(a, d, [name]);
    WithFiles(a, d, AddFile(FilesOf(a, d).value, name))
  }

  /** Two writes into the same folder are one write of both. */
  lemma WrittenIntoTwice(a: Archive, b: Archive, c: Archive, d: Destination, xs: seq<string>, ys: seq<string>)
    requires WrittenInto(a, b, d, xs) && WrittenInto(b, c, d, ys)
    ensures WrittenInto(a, c, d, xs + ys)
  {
    if d.HighlightFolder? {
      FolderNamedByNames(a.highlights, b.highlights, d.name);
    }
  }

  lemma WrittenIntoGrows(a: Archive, a1: Archive, d: Destination, added: seq<string>)
    requires WrittenInto(a, a1, d, added)
    ensures Grows(a, a1)
  {
    forall e | FilesOf(a, e).Some?
      ensures FilesOf(a1, e).Some? && forall x :: x in FilesOf(a, e).value ==> x in FilesOf(a1, e).value
    {
      if e != d && e.HighlightFolder? {
        FolderNamedByNames(a.highlights, a1.highlights, e.name);
      }
    }
  }

  lemma GrowsTransitive(a: Archive, b: Archive, c: Archive)
    requires Grows(a, b) && Grows(b, c)
    ensures Grows(a, c)
  {
  }

  /** A story's media and thumbnail are in its folder: the thumbnail under
      its fixed name and at least one `{story_pk}.*` file. */
  predicate HasMedia(a: Archive, p: Pending) {
    var stem := Dec(p.key.storyPk);
    && FilesOf(a, p.destination).Some?
    && stem + "_thumbnail.png" in FilesOf(a, p.destination).value
    && |WithPrefix(FilesOf(a, p.destination).value, stem + ".")| > 0
  }

  lemma HasMediaGrows(a: Archive, a1: Archive, p: Pending)
    requires HasMedia(a, p) && Grows(a, a1)
    ensures HasMedia(a1, p)
  {
    var stem := Dec(p.key.storyPk);
    var ws := WithPrefix(FilesOf(a, p.destination).value, stem + ".");
    assert ws[0] in ws;
    assert ws[0] in WithPrefix(FilesOf(a1, p.destination).value, stem + ".");
  }

  /** The files `glob(folder + "/{prefix}*")` lists in a story folder: the
      Stories folder is read literally, a highlight folder as `ListedIn`
      reads it. */
  function ListedAt(d: Destination, files: seq<string>, prefix: string): (r: seq<string>)
    ensures forall x :: x in r <==> !(d.HighlightFolder? && GlobHides(d.name)) && x in files && StartsWith(x, prefix)
  {
    match d
    case StoriesFolder => WithPrefix(files, prefix)
    case HighlightFolder(name) => ListedIn(Folder(name, files), prefix)
  }

  /** makeThumbnail succeeds: it reported success and its glob lists
      exactly one `{story_pk}.*` file once the media is written. */
  predicate ThumbnailMade(files: seq<string>, p: Pending, o: Outcome)
    requires o.saved.Some?
  {
    var stem := Dec(p.key.storyPk);
    o.thumbnailOk && |ListedAt(p.destination, AddFile(files, stem + o.saved.value), stem + ".")| == 1
  }

  /** One iteration of downloadStories: the media is written as
      `{story_pk}{ext}` into an existing folder; the thumbnail needs exactly
      one `{story_pk}.*` file there; only then is the Story row inserted. */
  function DownloadOne(c: Catalog, a: Archive, p: Pending, o: Outcome): (r: (Catalog, Archive))
    ensures FilesOf(a, p.destination).None? || o.saved.None? ==> r == (c, a)
    ensures FilesOf(a, p.destination).Some? && o.saved.Some? ==>
              var stem := Dec(p.key.storyPk);
              var made := ThumbnailMade(FilesOf(a, p.destination).value, p, o);
              && WrittenInto(a, r.1, p.destination, [stem + o.saved.value] + (if made then [stem + "_thumbnail.png"] else []))
              && (made && p.key !in c.stories && p.key.pk in c.profiles && p.key.highlightId in c.highlights ==>
                    r.0.stories == c.stories[p.key := p.timestamp])
    ensures r.0 != c ==> HasMedia(r.1, p)
    ensures r.0 != c ==> && FilesOf(a, p.destination).Some? && o.saved.Some? && o.thumbnailOk
                         && |ListedAt(p.destination, AddFile(FilesOf(a, p.destination).value, Dec(p.key.storyPk) + o.saved.value), Dec(p.key.storyPk) + ".")| == 1
                         && r.0.stories == c.stories[p.key := p.timestamp] && p.key !in c.stories
    ensures r.0.(stories := c.stories) == c
    ensures Consistent(c) ==> Consistent(r.0)
  {
    match FilesOf(a, p.destination)
    case None => (c, a)
    case Some(files) =>
      match o.saved
      case None => (c, a)
      case Some(ext) =>
        var stem := Dec(p.key.storyPk);
        var files1 := AddFile(files, stem + ext);
        var a1 := WriteFile(a, p.destination, stem + ext);
        if |ListedAt(p.destination, files1, stem + ".")| != 1 || !o.thumbnailOk then (c, a1)
        else
          var a2 := WriteFile(a1, p.destination, stem + "_thumbnail.png");
          WrittenIntoTwice(a, a1, a2, p.destination, [stem + ext], [stem + "_thumbnail.png"]);
          assert ListedAt(p.destination, files1, stem + ".")[0] in WithPrefix(FilesOf(a2, p.destination).value, stem + ".");
          (OrKeep(InsertStory(c, p.key, p.timestamp), c), a2)
  }

  /** A highlight whose folder name holds a `[...]` pair never records a
      story through the download pass: makeThumbnail's glob lists nothing
      in that folder, so the insert that follows the thumbnail never runs. */
  lemma HiddenFolderStoriesUnrecorded(c: Catalog, a: Archive, p: Pending, o: Outcome)
    requires p.destination.HighlightFolder? && GlobHides(p.destination.name)
    ensures DownloadOne(c, a, p, o).0 == c
  {
  }

  lemma DownloadOneGrows(c: Catalog, a: Archive, p: Pending, o: Outcome)
    ensures Grows(a, DownloadOne(c, a, p, o).1)
  {
    var r := DownloadOne(c, a, p, o);
    if FilesOf(a, p.destination).Some? && o.saved.Some? {
      var stem := Dec(p.key.storyPk);
      var made := ThumbnailMade(FilesOf(a, p.destination).value, p, o);
      WrittenIntoGrows(a, r.1, p.destination, [stem + o.saved.value] + (if made then [stem + "_thumbnail.png"] else []));
    }
  }

  /** downloadStories' loop; outcomes past the end of `outcomes` fail. */
  function DownloadAll(c: Catalog, a: Archive, ps: seq<Pending>, os: seq<Outcome>, ghost highlightId: nat): (r: (Catalog, Archive))
    decreases |ps|
    ensures c.stories.Keys <= r.0.stories.Keys
    ensures forall k :: k in r.0.stories && k !in c.stories ==> exists p :: p in ps && p.key == k
    ensures (forall p :: p in ps ==> p.key.highlightId == highlightId) ==>
              forall k :: k in r.0.stories && k !in c.stories ==> k.highlightId == highlightId
    ensures r.0.(stories := c.stories) == c
    ensures Consistent(c) ==> Consistent(r.0)
  {
    if ps == [] then (c, a)
    else
      var o := if |os| > 0 then os[0] else Outcome(None, false);
      var one := DownloadOne(c, a, ps[0], o);
      var rest := DownloadAll(one.0, one.1, ps[1..], if |os| > 0 then os[1..] else [], highlightId);
      assert forall p :: p in ps[1..] ==> p in ps;
      rest
  }

  /** After downloadStories every folder keeps its files, and every new
      Story row belongs to a queued story whose media and thumbnail are in
      its folder. */
  lemma {:induction false} DownloadAllMedia(c: Catalog, a: Archive, ps: seq<Pending>, os: seq<Outcome>, highlightId: nat)
    decreases |ps|
    ensures var r := DownloadAll(c, a, ps, os, highlightId);
            && Grows(a, r.1)
            && forall k :: k in r.0.stories && k !in c.stories ==> exists p :: p in ps && p.key == k && HasMedia(r.1, p)
  {
    if ps != [] {
      var o := if |os| > 0 then os[0] else Outcome(None, false);
      var one := DownloadOne(c, a, ps[0], o);
      var rest := DownloadAll(one.0, one.1, ps[1..], if |os| > 0 then os[1..] else [], highlightId);
      assert DownloadAll(c, a, ps, os, highlightId) == rest;
      assert forall p :: p in ps[1..] ==> p in ps;
      DownloadAllMedia(one.0, one.1, ps[1..], if |os| > 0 then os[1..] else [], highlightId);
      DownloadOneGrows(c, a, ps[0], o);
      GrowsTransitive(a, one.1, rest.1);
      if one.0 != c {
        HasMediaGrows(one.1, rest.1, ps[0]);
      }
    } else {
      assert Grows(a, a);
    }
  }

  /** The high-water mark of downloadSingleHighlightStories: when the feed
      reported items, the stored count becomes the largest of itself, the
      feed's count and the rows stored for the feed. */
  function RaiseItemCount(c: Catalog, pk: nat, highlightId: nat, n: nat): (r: Catalog)
    ensures r.highlights.Keys == c.highlights.Keys
    ensures highlightId in c.highlights && n > 0 ==>
              var old_ := c.highlights[highlightId].numberOfItems;
              var stored := |StoriesIn(c, pk, highlightId)|;
              r.highlights[highlightId].numberOfItems >= old_
              && r.highlights[highlightId].numberOfItems >= n
              && r.highlights[highlightId].numberOfItems >= stored
              && (r.highlights[highlightId].numberOfItems == old_
                  || r.highlights[highlightId].numberOfItems == n
                  || r.highlights[highlightId].numberOfItems == stored)
    ensures highlightId !in c.highlights || n == 0 ==> r == c
    ensures highlightId in c.highlights ==> r.highlights[highlightId] == c.highlights[highlightId].(numberOfItems := r.highlights[highlightId].numberOfItems)
    ensures forall h :: h in c.highlights && h != highlightId ==> r.highlights[h] == c.highlights[h]
    ensures r.(highlights := c.highlights) == c
    ensures Consistent(c) ==> Consistent(r)
  {
    if n == 0 || highlightId !in c.highlights then c
    else
      var stored := |StoriesIn(c, pk, highlightId)|;
      var m := if n > stored then n else stored;
      if m > c.highlights[highlightId].numberOfItems then
        c.(highlights := c.highlights[highlightId := c.highlights[highlightId].(numberOfItems := m)])
      else c
  }

  /** One story pass over a feed: getStories, downloadStories, then the
      item-count update. */
  function StoryPass(c: Catalog, a: Archive, pk: nat, username: string, highlightId: nat, title: string,
                     data: Option<seq<StoryItem>>, rows: Option<seq<StoryRow>>, unreadable: set<nat>,
                     outcomes: seq<Outcome>): (r: (Catalog, Archive))
    ensures c.stories.Keys <= r.0.stories.Keys
    ensures forall k :: k in r.0.stories && k !in c.stories ==> k.highlightId == highlightId
    ensures r.0.profiles == c.profiles && r.0.posts == c.posts
    ensures r.0.(stories := c.stories, highlights := c.highlights) == c
    ensures r.0.highlights.Keys == c.highlights.Keys
    ensures forall h :: h in c.highlights && h != highlightId ==> r.0.highlights[h] == c.highlights[h]
    ensures highlightId in c.highlights ==>
              r.0.highlights[highlightId] == c.highlights[highlightId].(numberOfItems := r.0.highlights[highlightId].numberOfItems)
    ensures Consistent(c) ==> Consistent(r.0)
  {
    var got := GetStories(c, a, pk, username, highlightId, title, data, rows, unreadable);
    var done := match got.0
      case None => (got.2, got.3)
      case Some(ps) => DownloadAll(got.2, got.3, ps, outcomes, highlightId);
    (RaiseItemCount(done.0, pk, highlightId, got.1), done.1)
  }
}

=== FILE: text.dfy ===
/** The Python string primitives the archiver is written with (`in`, `index`,
    `rindex`, `replace`, `split`, `str(int)`, `int(str)`), each stated over
    `string` with the edge cases Python gives them. */
module Text {
  import opened Optional

  /** `sub` occurs in `s` starting at position `k`. */
  predicate OccursAt(s: string, sub: string, k: int) {
    0 <= k && k + |sub| <= |s| && s[k..k + |sub|] == sub
  }

  /** Python's `sub in s`. */
  predicate Contains(s: string, sub: string) {
    exists k :: 0 <= k <= |s| - |sub| && OccursAt(s, sub, k)
  }

  predicate StartsWith(s: string, prefix: string) {
    |prefix| <= |s| && s[..|prefix|] == prefix
  }

  predicate EndsWith(s: string, suffix: string) {
    |suffix| <= |s| && s[|s| - |suffix|..] == suffix
  }

  /** For one character, occurrence is plain membership. */
  lemma ContainsChar(s: string, c: char)
    ensures Contains(s, [c]) <==> c in s
  {
    if c in s {
      var k :| 0 <= k < |s| && s[k] == c;
      assert s[k..k + 1] == [c];
      assert OccursAt(s, [c], k);
    }
    if Contains(s, [c]) {
      var k :| 0 <= k <= |s| - 1 && OccursAt(s, [c], k);
      assert s[k..k + 1][0] == s[k];
      assert s[k] in s;
    }
  }

  /** The last `c` of a string is found by `rindex`. */
  lemma LastCharAt(s: string, c: char, n: nat)
    requires n < |s| && s[n] == c && c !in s[n + 1..]
    ensures LastIndexOf(s, [c]) == Some(n)
  {
    assert s[n..n + 1] == [c];
    forall j | n < j <= |s| - 1 ensures !OccursAt(s, [c], j) {
      assert s[j..j + 1] == [s[n + 1..][j - n - 1]];
      assert s[n + 1..][j - n - 1] in s[n + 1..];
    }
    var r := LastIndexOf(s, [c]);
    assert OccursAt(s, [c], n);
    assert r.Some? && r.value <= n;
  }

  /** First occurrence of `sub` at or after `k`. */
  function IndexFrom(s: string, sub: string, k: nat): (r: Option<nat>)
    decreases |s| - k
    ensures r.Some? ==> k <= r.value && OccursAt(s, sub, r.value)
    ensures forall j :: k <= j && (r.None? || j < r.value) ==> !OccursAt(s, sub, j)
  {
    if k + |sub| > |s| then None
    else if s[k..k + |sub|] == sub then Some(k)
    else IndexFrom(s, sub, k + 1)
  }

  /** Python's `s.index(sub)` (and `s.find(sub)`), `None` where Python raises
      `ValueError` (or `find` gives -1). */
  function IndexOf(s: string, sub: string): (r: Option<nat>)
    ensures r.Some? ==> OccursAt(s, sub, r.value)
    ensures r.Some? ==> forall j :: 0 <= j < r.value ==> !OccursAt(s, sub, j)
    ensures r.None? <==> !Contains(s, sub)
  {
    IndexFrom(s, sub, 0)
  }

  /** The first `c` of a string is found by `index`. */
  lemma FirstCharAt(s: string, c: char, k: nat)
    requires k < |s| && s[k] == c && c !in s[..k]
    ensures IndexOf(s, [c]) == Some(k)
  {
    assert OccursAt(s, [c], k) by {
      assert s[k..k + 1] == [c];
    }
    forall j | 0 <= j < k ensures !OccursAt(s, [c], j) {
      assert s[j..j + 1] == [s[..k][j]];
    }
  }

  /** Nothing before the first `c` is a `c`. */
  lemma BeforeFirstChar(s: string, c: char, k: nat)
    requires IndexOf(s, [c]) == Some(k)
    ensures k < |s| && s[k] == c && c !in s[..k]
  {
    assert s[k..k + 1][0] == s[k];
    forall j | 0 <= j < k ensures s[..k][j] != c {
      assert s[j..j + 1] == [s[..k][j]];
      assert !OccursAt(s, [c], j);
    }
  }

  /** Nothing after the last `c` is a `c`. */
  lemma AfterLastChar(s: string, c: char, k: nat)
    requires LastIndexOf(s, [c]) == Some(k)
    ensures k < |s| && s[k] == c && c !in s[k + 1..]
  {
    assert s[k..k + 1][0] == s[k];
    var t := s[k + 1..];
    forall j | 0 <= j < |t| ensures t[j] != c {
      assert s[k + 1 + j..k + 2 + j] == [t[j]];
      assert !OccursAt(s, [c], k + 1 + j);
    }
  }

  /** Last occurrence of `sub` at or before `k`. */
  function LastFrom(s: string, sub: string, k: int): (r: Option<nat>)
    decreases k + 1
    ensures r.Some? ==> r.value <= k && OccursAt(s, sub, r.value)
    ensures forall j :: j <= k && (r.None? || r.value < j) ==> !OccursAt(s, sub, j)
  {
    if k < 0 then None
    else if OccursAt(s, sub, k) then Some(k)
    else LastFrom(s, sub, k - 1)
  }

  /** Python's `s.rindex(sub)` (and the split point of `s.rsplit(sub, 1)`). */
  function LastIndexOf(s: string, sub: string): (r: Option<nat>)
    ensures r.Some? ==> OccursAt(s, sub, r.value)
    ensures r.Some? ==> forall j :: r.value < j ==> !OccursAt(s, sub, j)
    ensures r.None? <==> !Contains(s, sub)
  {
    LastFrom(s, sub, |s| - |sub|)
  }

  /** Python's `s.replace(pat, rep)`: one left-to-right pass over `s`,
      replacing non-overlapping occurrences of a non-empty `pat`. */
  function Replace(s: string, pat: string, rep: string): string
    requires pat != []
    decreases |s|
  {
    if |s| < |pat| then s
    else if s[..|pat|] == pat then rep + Replace(s[|pat|..], pat, rep)
    else [s[0]] + Replace(s[1..], pat, rep)
  }

  /** Character-wise substitution: every `c` becomes `rep`, every other
      character stays. The reference meaning of a one-character `Replace`. */
  function SubstChar(s: string, c: char, rep: string): string
    decreases |s|
  {
    if s == [] then []
    else (if s[0] == c then rep else [s[0]]) + SubstChar(s[1..], c, rep)
  }

  lemma {:induction false} ReplaceOneChar(s: string, c: char, rep: string)
    ensures Replace(s, [c], rep) == SubstChar(s, c, rep)
    decreases |s|
  {
    if s != [] {
      assert (s[..1] == [c]) == (s[0] == c);
      ReplaceOneChar(s[1..], c, rep);
    }
  }

  lemma {:induction false} SubstCharAppend(a: string, b: string, c: char, rep: string)
    ensures SubstChar(a + b, c, rep) == SubstChar(a, c, rep) + SubstChar(b, c, rep)
    decreases |a|
  {
    if a == [] {
      assert a + b == b;
    } else {
      assert (a + b)[1..] == a[1..] + b;
      SubstCharAppend(a[1..], b, c, rep);
    }
  }

  /** A pattern that does not occur is left alone. */
  lemma {:induction false} ReplaceAbsent(s: string, pat: string, rep: string)
    requires pat != [] && !Contains(s, pat)
    ensures Replace(s, pat, rep) == s
    decreases |s|
  {
    if |s| >= |pat| {
      assert !OccursAt(s, pat, 0);
      forall k | OccursAt(s[1..], pat, k) ensures OccursAt(s, pat, k + 1) {
        assert s[k + 1..k + 1 + |pat|] == s[1..][k..k + |pat|];
      }
      ReplaceAbsent(s[1..], pat, rep);
      assert s == [s[0]] + s[1..];
    }
  }

  /** Python's `s.split(sep)` for a one-character separator: the pieces
      between separators, empty pieces included. */
  function Split(s: string, sep: char): (parts: seq<string>)
    decreases |s|
    ensures |parts| >= 1
    ensures forall i :: 0 <= i < |parts| ==> sep !in parts[i]
  {
    match IndexOf(s, [sep])
    case None =>
      assert forall j :: 0 <= j < |s| ==> s[j..j + 1] == [s[j]] && !OccursAt(s, [sep], j);
      [s]
    case Some(k) =>
      assert forall j :: 0 <= j < k ==> s[j..j + 1] == [s[j]] && !OccursAt(s, [sep], j);
      assert forall j :: 0 <= j < k ==> s[..k][j] == s[j];
      [s[..k]] + Split(s[k + 1..], sep)
  }

  /** A string without the separator splits into itself. */
  lemma SplitAbsent(s: string, sep: char)
    requires sep !in s
    ensures Split(s, sep) == [s]
  {
    ContainsChar(s, sep);
  }

  /** Python's `sep.join(parts)`. */
  function Join(parts: seq<string>, sep: char): string
    requires |parts| >= 1
  {
    if |parts| == 1 then parts[0] else parts[0] + [sep] + Join(parts[1..], sep)
  }

  lemma JoinCons(head: string, rest: seq<string>, sep: char)
    requires |rest| >= 1
    ensures Join([head] + rest, sep) == head + [sep] + Join(rest, sep)
  {
    assert ([head] + rest)[1..] == rest;
  }

  lemma SplitPoint(s: string, sep: char, k: nat)
    requires OccursAt(s, [sep], k)
    ensures s == s[..k] + [sep] + s[k + 1..]
  {
    assert s[k..k + 1] == [sep];
  }

  /** Splitting and joining back on the same separator gives the input back. */
  lemma {:induction false} JoinSplit(s: string, sep: char)
    ensures Join(Split(s, sep), sep) == s
    decreases |s|
  {
    match IndexOf(s, [sep])
    case None =>
    case Some(k) =>
      var rest := Split(s[k + 1..], sep);
      assert Split(s, sep) == [s[..k]] + rest;
      JoinSplit(s[k + 1..], sep);
      JoinCons(s[..k], rest, sep);
      SplitPoint(s, sep, k);
  }

  // ---------------------------------------------------------------------
  // Decimal numerals: Python's str(n) and int(s) on non-negative integers.

  predicate IsDigit(c: char) {
    '0' <= c <= '9'
  }

  predicate AllDigits(s: string) {
    forall i :: 0 <= i < |s| ==> IsDigit(s[i])
  }

  function DigitChar(d: nat): (c: char)
    requires d < 10
    ensures IsDigit(c)
  {
    ('0' as int + d) as char
  }

  /** Python's `str(n)` for `n >= 0`. */
  function Dec(n: nat): (r: string)
    decreases n
    ensures |r| >= 1 && AllDigits(r)
    ensures r[0] == '0' ==> n == 0
  {
    if n < 10 then [DigitChar(n)] else Dec(n / 10) + [DigitChar(n % 10)]
  }

  /** The number a string of decimal digits denotes. */
  function DigitsValue(s: string): nat
    requires AllDigits(s)
    decreases |s|
  {
    if s == [] then 0 else DigitsValue(s[..|s| - 1]) * 10 + (s[|s| - 1] as int - '0' as int)
  }

  /** Python's `int(s)` on a plain decimal numeral; `None` where Python raises
      `ValueError`. */
  function ParseDec(s: string): (r: Option<nat>)
    ensures r.Some? <==> |s| >= 1 && AllDigits(s)
  {
    if |s| >= 1 && AllDigits(s) then Some(DigitsValue(s)) else None
  }

  /** Reading back what `str(n)` wrote gives `n`. */
  lemma {:induction false} ParseDecOfDec(n: nat)
    ensures ParseDec(Dec(n)) == Some(n)
    decreases n
  {
    var s := Dec(n);
    if n < 10 {
      assert s[..|s| - 1] == [];
      assert DigitsValue(s) == DigitsValue([]) * 10 + (s[0] as int - '0' as int);
    } else {
      ParseDecOfDec(n / 10);
      assert s[..|s| - 1] == Dec(n / 10);
      assert s[|s| - 1] as int - '0' as int == n % 10;
    }
  }

  lemma DecInjective(a: nat, b: nat)
    ensures Dec(a) == Dec(b) ==> a == b
  {
    ParseDecOfDec(a);
    ParseDecOfDec(b);
  }

  /** A numeral holds no character other than digits. */
  lemma DecHasNo(n: nat, c: char)
    requires !IsDigit(c)
    ensures c !in Dec(n)
  {
  }
}
